=== FILE: README.md ===
# Score-detector session model

The repository drives a browser through the reCAPTCHA v3 score-detector page.
It tries to look like a human visitor, reads back the score the page reports,
and keeps the session cookies of runs that scored well. A separate script
analyses the history of scores the runs wrote.

This project treats the browser driver, the clock and the random source as
inputs. What remains is a set of pure decision rules, modelled as Dafny
functions over immutable datatypes:

- `SessionCache` (session_cache.dfy) covers the cookie files:
  - the record `save_cookies` writes, and the two record formats `load_cookies` accepts;
  - the host taken from the URL, and the cookie-domain filter;
  - the `high_score_cookies_<score>_<runid>.json` naming rule and the save threshold;
  - the way `load_best_cookies` picks the best file by the score in its name.
- `ScoreExtractor` (score_extractor.dfy) covers `extract_score`. Its four fallbacks, in order:
  - the marker split on the element text;
  - the script result;
  - the page-source regexes;
  - the largest `0.[1-9][0-9]?` token.
- `LegacyDetector` (legacy_detector.dfy) covers the older save decision at the end of `get_recaptcha_score` in score_detector.py.
- `Motion` (motion.dfy) covers the mouse path: a quadratic Bézier curve with jitter and a viewport clamp, plus its per-point delays and the micro-movements.
- `Scrolling` (scrolling.dfy) covers:
  - the easeInOutQuad animation, the clamped scroll target and the final scroll-back of `natural_scroll` and `natural_scrolling`;
  - the direction rule of `random_scroll`.
- `Reading` (reading.dfy) covers both `simulate_reading` functions, with time as an abstract elapsed counter.
- `Interaction` (interaction.dfy) covers `interact_with_page`: its budget gates, deny-lists and per-kind limits, as an event log.
- `ScoreHistory` (score_history.dfy) covers analyze_scores.py and the history line the detector writes:
  - line parsing, with a proleptic Gregorian calendar for `strptime` and `weekday()`;
  - the high/low partition, and the hour-period and weekday tallies;
  - the cookie-domain summary.
- `Common`, `Text` and `Decimals` are shared helpers:
  - options and real min/max/clamp;
  - string search, split, strip and lower-case;
  - exact decimal numbers, with a partial `float()` parser and Python's shortest float rendering.

Random draws are parameters constrained to the ranges the source draws them from.
Scores are exact decimals: the text a regex captured, parsed by `Decimals.ParseFloat`.

## Model

| member | source | states |
|---|---|---|
| SessionCache.HostOfFacts | advanced_score_detector.py:455 | A host exists iff the URL contains `//`. It is the text after the first `//` and before the next `/`. |
| SessionCache.DomainRule | advanced_score_detector.py:465-477 | The two domain checks together keep a cookie iff it has no domain, or the host ends with the domain minus one leading dot. |
| SessionCache.DomainExamples | advanced_score_detector.py:465-477 | `.example.com` passes for `www.example.com` and `example.com`. `other.com` fails for `example.com`. Because the test is a plain suffix test, `example.com` passes for `notexample.com`. |
| SessionCache.NormalizeExpiry | advanced_score_detector.py:460-462 | Domain, name and value are kept. A missing expiry leaves the cookie unchanged. A kept expiry is an integer. |
| SessionCache.ApplyCookies | advanced_score_detector.py:457-487 | Only cookies that pass the domain filter and that the browser accepts are added. Something is added iff some cookie is admitted. |
| SessionCache.ApplyOne | advanced_score_detector.py:458-487 | One cookie is added, normalised, exactly when the domain filter, the expiry conversion and the browser all accept it. Otherwise nothing is added. |
| SessionCache.ApplyCookiesAppend | advanced_score_detector.py:458-487 | The loop handles each cookie on its own: loading `a + b` adds what `a` adds, followed by what `b` adds. |
| SessionCache.LoadCookies | advanced_score_detector.py:436-493 | True iff the file exists, its payload has a cookie list in one of the two formats, the URL has a host, and at least one cookie is added. |
| SessionCache.FormatsAgree | advanced_score_detector.py:444-451 | A record and the bare list of the same cookies load alike. |
| SessionCache.SaveCookies | advanced_score_detector.py:407-434 | A record is written iff the URL has a host. It holds exactly the fetched cookies, `total_cookies` is their number, and it carries the URL and the timestamp. |
| SessionCache.SaveHighScoreCookies | advanced_score_detector.py:1534-1564 | The file is named after the score and the run id. The record has the same cookie list and count, plus the score and the run id. |
| SessionCache.SaveLoadRoundTrip | advanced_score_detector.py:417-451 | A saved record loads back exactly its cookie list, and its `total_cookies` equals the list's length. |
| SessionCache.NameRoundTrip | advanced_score_detector.py:1537 | The score parsed back from a high-score file name is the canonical form of the score written into it, with the same value. |
| SessionCache.UnscoredNameNeverParses | score_detector.py:802 | `high_score_cookies_<runid>.json` has no score field: its fourth `_` field never parses as a number. |
| SessionCache.HighScoreSave | advanced_score_detector.py:950-953 | A file is written iff a score was found and it is at least 0.7. Its name carries the same value. |
| SessionCache.BestIsUnique | advanced_score_detector.py:1700-1702 | At most one position is the best: the strict comparison keeps the first of equal scores. |
| SessionCache.PickBest | advanced_score_detector.py:1684-1706 | A best file exists iff some score is above 0. It is then the first file with the largest score. |
| SessionCache.ReturnedCookies | advanced_score_detector.py:1710-1718 | A record yields its cookie list. A bare list or any other payload is returned as read. |
| SessionCache.LoadBestCookies | advanced_score_detector.py:1677-1725 | The best file alone decides: its cookie list for a record, the payload as read otherwise, and None when it cannot be read. The best file is the first with the highest positive score. A returned payload always comes from it, and with no positive score the result is None. |
| ScoreExtractor.SkipSpaces | advanced_score_detector.py:1623 | The `\s*` of the script pattern skips the longest run of whitespace. |
| ScoreExtractor.ScoreRunEnd | advanced_score_detector.py:1623 | `[\d\.]+` takes the longest run of digits and points. |
| ScoreExtractor.GroupEnd | advanced_score_detector.py:1640-1645 | When the capture group ends, it ends where the regex's greedy group would. For `\d+\.\d+` it is digits, one point, digits, followed by a non-digit. |
| ScoreExtractor.DecimalStartsAt | advanced_score_detector.py:1640-1645 | `\d+\.\d+` can start at a position iff the greedy digit run from there is non-empty and is followed by a point and a digit. |
| ScoreExtractor.GroupEndComplete | advanced_score_detector.py:1640-1645 | The group fails only when the regex would fail. `[\d\.]+` matches iff a digit or point comes next, and `\d+\.\d+` matches iff a decimal starts there. |
| ScoreExtractor.MatchAtComplete | advanced_score_detector.py:1640-1647 | A pattern matches at a position iff its literal text occurs there and its group matches right after it. |
| ScoreExtractor.Search | advanced_score_detector.py:1647 | `re.search` finds the leftmost position where the pattern matches, and None when there is no such position. |
| ScoreExtractor.SearchScore | advanced_score_detector.py:1646-1653 | A pattern gives a score iff it has a match whose capture `float` parses. The score is that parse, taken from the first match, and it is not negative. No match means no score. |
| ScoreExtractor.ElementScore | advanced_score_detector.py:1591-1596 | Without the marker in the element text there is no score. With it, the result is exactly the parse of the stripped text between the first and the second marker, None when that does not parse. |
| ScoreExtractor.FirstScore | advanced_score_detector.py:1646-1653 | The first pattern that yields a score wins. None iff no pattern yields one. |
| ScoreExtractor.PatternHit | advanced_score_detector.py:1639-1654 | Method 3 returns the index of the first source pattern whose match parses, with that score. Every earlier pattern yields nothing. None means all four patterns yield nothing. |
| ScoreExtractor.LikelyValueOf | advanced_score_detector.py:1656-1670 | Method 4 gives a value iff the screenshot was saved and some token occurs. That value is one of the tokens, the largest of them, and lies in [0.1, 0.99]. |
| ScoreExtractor.FromSource | advanced_score_detector.py:1634-1671 | The page source decides through the first pattern that yields a score, and every earlier pattern yields nothing. Otherwise method 4 gives the largest token, which is one of the tokens. None holds iff every pattern misses and method 4 finds nothing. |
| ScoreExtractor.FindLikely | advanced_score_detector.py:1663 | Every token found has the form `0.[1-9][0-9]?`. None is found iff none occurs. |
| ScoreExtractor.FindLikelyPresent | advanced_score_detector.py:1663 | Every token returned is the token that starts at some position at or after the scan's start. |
| ScoreExtractor.FindLikelySkips | advanced_score_detector.py:1663 | Positions where no token starts are passed over without changing the result. |
| ScoreExtractor.FindLikelyLeftmost | advanced_score_detector.py:1663 | The first token returned is the one at the leftmost position where a token starts, and the scan resumes right after it, as `re.findall` does. |
| ScoreExtractor.NonOverlappingExample | advanced_score_detector.py:1663 | Tokens do not overlap: "0.10.5" gives only "0.10". |
| ScoreExtractor.LikelyParses | advanced_score_detector.py:1667 | Each token parses to its own value. |
| ScoreExtractor.LikelyScore | advanced_score_detector.py:1663-1667 | A likely token's value lies in [0.1, 0.99]. |
| ScoreExtractor.MaxLikely | advanced_score_detector.py:1664-1669 | The maximum of the tokens, which is one of them and lies in [0.1, 0.99]. |
| ScoreExtractor.ExtractScore | advanced_score_detector.py:1566-1675 | The first method that yields a score decides it. A parsed element text wins. Without one, a script score wins. Without either, the result is exactly what the page source gives. An earlier method's failure only moves on, and None means every pattern missed and the last resort found nothing. |
| ScoreExtractor.UnreadableSource | advanced_score_detector.py:1633-1675 | When the element and the script yield nothing, an empty page source gives None, which is how a page source that could not be read is represented. |
| LegacyDetector.SourceScore | score_detector.py:807-810 | `Your score is:\s*(\d+\.\d+)` matches iff a score is returned. The capture always parses and is not negative. |
| LegacyDetector.SaveName | score_detector.py:795-815 | With an element, the cookies are saved iff its text contains 0.7, 0.8, 0.9 or 1.0, under a name without the score. Otherwise they are saved iff the source pattern matches with a value of at least 0.7, under a name that carries the capture. |
| LegacyDetector.SavedFilesAsCandidates | score_detector.py:802-812 | The element-branch file is never a `load_best_cookies` candidate. The source-branch file is one, with the saved score, which is at least 0.7. |
| Motion.ClampToViewport | advanced_score_detector.py:141-142 | The clamped point lies in the viewport, points inside are unchanged, and coordinates off an edge go to that edge. |
| Motion.Progress | advanced_score_detector.py:125 | `i/(n-1)` lies in [0,1]. It is 0 only at the first point and 1 only at the last. |
| Motion.JitterWeight | advanced_score_detector.py:128 | `1-abs(2t-1)` lies in [0,1]. It is 0 exactly at the ends and 1 exactly at the middle. |
| Motion.Bezier | advanced_score_detector.py:137-138 | The curve starts at the start, ends at the end, and stays between the smallest and largest of its three points. |
| Motion.JitterBounded | advanced_score_detector.py:128-130 | The offset is at most the jitter bound times the weight, and it vanishes at both ends. |
| Motion.RawPoint | advanced_score_detector.py:133-138 | Before clamping, the path's first point is the start and its last is the end, whatever the control draws. |
| Motion.MousePath | advanced_score_detector.py:119-144 | Exactly `num_points` points, all in the viewport. The first is the start (when it is inside) and the last is the clamped end. |
| Motion.StepDelay | advanced_score_detector.py:149-153 | Delays near the ends lie in [0.01, 0.03]. Delays in the middle lie in [0.005, 0.01]. |
| Motion.BucketOf | advanced_score_detector.py:150 | The first and last points always get the slow delay. |
| Motion.SlowNotFaster | advanced_score_detector.py:149-153 | Every end-bucket delay is at least every middle-bucket delay. |
| Motion.WalkTime | advanced_score_detector.py:146-167 | The time the walk sleeps is at most 0.03 per point. When failed moves still sleep, as in score_detector.py, it is at least 0.005 per point. |
| Motion.SkippingSleepsIsFaster | advanced_score_detector.py:156-167 | Skipping the delay of failed moves never lengthens the walk. When every move succeeds, both ways take the same time. |
| Motion.MicroPath | advanced_score_detector.py:65-93 | With every dispatch going through: one dispatched point per micro-move, the first being the start. Every point stays in the viewport, and no two consecutive points lie more than 20 apart. |
| Motion.MicroMoves | advanced_score_detector.py:65-93 | The events are dispatched along the path, in order, up to the first dispatch that raises. Nothing catches that raise, so the run ends there. The run is cut short iff some dispatch raised, and every point before it went through. |
| Scrolling.EaseFacts | advanced_score_detector.py:1774-1776 | The easing is 0 at 0, 0.5 at 0.5 from both branches, and 1 at 1. It stays in [0,1] and is on the right side of 0.5 on each half. |
| Scrolling.EaseMonotone | advanced_score_detector.py:1774-1776 | The easing never decreases on [0,1]. |
| Scrolling.EaseSymmetric | advanced_score_detector.py:1774-1776 | The easing is point-symmetric: ease(1-t) = 1-ease(t). |
| Scrolling.AnimationProgress | advanced_score_detector.py:1779-1780 | Progress lies in [0,1] and is 1 once the duration has passed. |
| Scrolling.AnimatedPosition | advanced_score_detector.py:1781-1782 | Every animated position lies between the start and the target, from the start at 0 to the target at 1. |
| Scrolling.AnimationMonotone | advanced_score_detector.py:1778-1784 | The animation moves steadily toward the target and never back. |
| Scrolling.ScrollTarget | advanced_score_detector.py:1771 | The target is clamped to [0, max_scroll]. It is exact when the move stays inside, 0 when the page does not scroll, and max_scroll on overshoot. |
| Scrolling.AmountRange | advanced_score_detector.py:1739 | The bounds are `int(0.3·h)` and `int(0.7·h)`: each is the largest integer not above that fraction of the viewport height, so 0 ≤ low ≤ high ≤ h. |
| Scrolling.CountRange | advanced_score_detector.py:1742-1747 | Between 1 and 7 scrolls: 3 to 7 exactly when the page is taller than three viewports. |
| Scrolling.DirectionSign | advanced_score_detector.py:1750-1763 | "down" scrolls down, "random" follows the draw, and any other direction scrolls up. |
| Scrolling.ScrollTargets | advanced_score_detector.py:1755-1796 | Each scroll starts from `pageYOffset`: the previous target once that animation ended, or a position read while it still runs. One clamped target per scroll. When every mid-animation read lies on the way of the animation it interrupts, "down" never moves back up and never ends above the start unless at the end of the page, and any direction other than "down" and "random" never moves down. |
| Scrolling.RunDownward | advanced_score_detector.py:1763-1771 | A "down" scroll that reads the page anywhere on the way of the previous animation still ends no higher on the page than that animation's target. |
| Scrolling.RunUpward | advanced_score_detector.py:1763-1771 | An "up" scroll that reads the page anywhere on the way of the previous animation still ends no lower on the page than that animation's target. |
| Scrolling.BackRange | advanced_score_detector.py:1800 | The scroll-back bounds are `int(0.1·h)` and `int(0.3·h)`, each the largest integer not above its fraction of the viewport height. |
| Scrolling.NaturalScrolling | advanced_score_detector.py:1727-1804 | After the loop, only a "down" run may scroll back, by the drawn amount, clamped at the top. The scroll-back counts only when the last animation had ended; otherwise its remaining frames put the page back at the last target. A counted scroll-back ends exactly that far up when that stays on the page, at 0 when it would pass the top, and never below where the loop left it. Otherwise the final position is the last target. |
| Scrolling.ZoneOf | score_detector.py:140-151 | Below 100 is the top zone. Within 100 of the bottom, and not at the top, is the bottom zone. |
| Scrolling.ScrollDirection | score_detector.py:140-155 | At the top the scroll goes down unless the 10% flip fires, and at the bottom it goes up unless the flip fires. In the middle it follows the coin, flipped with 30% chance. |
| Scrolling.ScrollAmount | score_detector.py:157-159 | The magnitude lies in [min_pixels, max_pixels], and the sign is the direction. |
| Reading.ElementsToRead | advanced_score_detector.py:267 | `min(count, max(3, int(T/2)))`: never more than the elements present, and at least 3 when there are 3. |
| Reading.Dwell | advanced_score_detector.py:321-328 | Each dwell lies in [1,8] seconds and is `len/speed` when that fits. An unreadable text counts as 100 characters, so its dwell is 8. |
| Reading.VisitTime | advanced_score_detector.py:270-350 | A visit sleeps at most 8.5 seconds, and a visit via the selector at least 1. Failed visits take no time. |
| Reading.SimulateReading | advanced_score_detector.py:245-361 | On every path, including no elements and errors, the function returns only once elapsed ≥ T. It never starts more elements than it planned to read. |
| Reading.ReadingTime | score_detector.py:226-228 | `min(max_time, max(min_time, len/100))` lies in [min_time, max_time], and equals len/100 when that fits. |
| Reading.VisibleTexts | score_detector.py:201-208 | Exactly the visible elements with non-blank text are kept. |
| Reading.BasicReading | score_detector.py:193-231 | At most `min(5, visible)` distinct elements are picked. A pick is read iff scrolling and moving to it went through, and then for its reading time, which lies in [min_time, max_time]. With nothing visible, nothing is read. |
| Interaction.InputLoop | advanced_score_detector.py:1022-1091 | Inputs are typed into only while elapsed ≤ 0.7·budget. |
| Interaction.ButtonLoop | advanced_score_detector.py:1093-1171 | A clicked button's text never contains a deny word. A visit starts only while elapsed ≤ 0.9·budget. A submit/send button is clicked only when the clock, read again at its submit test after the visit's driver calls, is past 0.9·budget. |
| Interaction.NoSubmitWhenChecksAreInstant | advanced_score_detector.py:1101-1157 | If the driver calls before the submit test take no time, no submit/send button is ever clicked: the 90% break and the submit test then read the same clock. |
| Interaction.SubmitClickedAcrossTheMark | advanced_score_detector.py:1101-1171 | A "Submit" button visited at 8.5 s of a 10 s budget, with 1 s of driver calls before its submit test, is clicked. |
| Interaction.LinkStep | advanced_score_detector.py:1173-1267 | At most one link is clicked, only one passing the deny-list, and only while elapsed ≤ 0.8·budget. A link that passes both gates costs its time whether or not the click works, and something happens iff it works. Failing either gate costs nothing. It goes back only after navigating off the detector. |
| Interaction.InteractWithPage | advanced_score_detector.py:967-1354 | Every element action begins by 0.9·budget. Every clicked button passed the deny-list and, if it is a submit/send button, reached its submit test after 0.9·budget. Every clicked link passed its deny-list. At most 2 inputs, 2 buttons, 1 link and 1 checkbox are touched. A page with no elements gets only scrolls and mouse moves. |
| Interaction.SectionCounts | advanced_score_detector.py:1022-1323 | The per-kind limits of the sections add up to the limits of the whole pass. |
| Interaction.RemoveLinkAllowed | advanced_score_detector.py:1245-1246 | The link deny-list lacks "remove", so a "remove" link may be clicked. A button with that text is refused. |
| Interaction.RemoveButtonDenied | advanced_score_detector.py:1127-1153 | Any button whose lower-cased text contains "remove" is never clicked, at any time. |
| Interaction.RemoveItemDenied | advanced_score_detector.py:1127-1153 | A "Remove item" button is refused: lower-casing makes the capital R match. |
| Interaction.UpperCaseHrefAllowed | advanced_score_detector.py:1241-1246 | The href is not lower-cased, so `/LOGOUT` passes the deny-list. |
| Interaction.MixedCaseTextDenied | advanced_score_detector.py:1241-1246 | The link text is lower-cased, so "Logout" is refused. |
| ScoreHistory.DaysInMonth | analyze_scores.py:27 | `strptime` accepts 28 to 31 days. February has 29 exactly in a leap year. |
| ScoreHistory.NextDayWeekday | analyze_scores.py:83 | From one day to the next, `weekday()` advances by one modulo 7. |
| ScoreHistory.WeekdayAnchors | analyze_scores.py:83 | `weekday()` numbers Monday 0. 1 January of year 1 and 1 January 2024, both Mondays, get 0. |
| ScoreHistory.LineSearchFrom | analyze_scores.py:24 | The regex search finds the leftmost `YYYY-MM-DD HH:MM:SS: Score d+.d+` in the line, or proves there is none. |
| ScoreHistory.LineMatchComplete | analyze_scores.py:24 | A well-shaped stamp followed by `: Score ` and a decimal always matches at that position. |
| ScoreHistory.ParseLineCases | analyze_scores.py:24-29 | A line without a match is skipped. A match with an impossible date raises. Otherwise the entry has the stamp's fields and the parsed, non-negative score. |
| ScoreHistory.CollectAppend | analyze_scores.py:20-33 | The first exception stops the scan and keeps the entries collected so far. |
| ScoreHistory.ParseHistory | analyze_scores.py:16-33 | At most one entry per line, and each entry comes from some line of the file. |
| ScoreHistory.HistoryAppend | analyze_scores.py:20-33 | Parsing a file is parsing its parts in order, unless the first part raises, in which case the rest is ignored. |
| ScoreHistory.FormatStampParses | advanced_score_detector.py:958 | A `%Y-%m-%d %H:%M:%S` stamp has the shape the history regex expects, and its fields read back unchanged. |
| ScoreHistory.WrittenLineParses | advanced_score_detector.py:955-959 | A line the detector appends parses back to the same stamp and the same score value. |
| ScoreHistory.TallyAppend | analyze_scores.py:83-85 | Counting one more key adds one to that key's count and changes no other count. |
| ScoreHistory.TallyEmpty | analyze_scores.py:83-85 | Before any day is counted, every count is 0. |
| ScoreHistory.TallyTotal | analyze_scores.py:83-85 | When every weekday is in range, the seven counts sum to the number of days. |
| ScoreHistory.HighLowPartition | analyze_scores.py:60-61 | High and low split the scores: sizes add up, and a score is high iff it is at least the threshold and low iff below it. |
| ScoreHistory.PeriodOf | analyze_scores.py:68-80 | Every hour lies in exactly one of the four periods, with night wrapping around midnight. |
| ScoreHistory.PeriodCountIsTally | analyze_scores.py:76-80 | A period's count is the number of hours whose period it is. |
| ScoreHistory.PeriodsCoverAll | analyze_scores.py:68-80 | The four period counts sum to the number of hours. |
| ScoreHistory.MeanBetween | analyze_scores.py:91 | The average lies between the minimum and the maximum score. |
| ScoreHistory.PercentageBetween | analyze_scores.py:90 | The percentage lies in [0, 100]. |
| ScoreHistory.AnalyzeFactorsFacts | analyze_scores.py:55-94 | The result is empty iff there are no scores. It reports the totals of the partition, a percentage in [0,100] and an average between min and max. The period counts and the weekday counts each sum to the number of high scores. |
| ScoreHistory.BumpFacts | analyze_scores.py:45 | Counting one more cookie adds one to its domain and to the total, and changes no other domain. A new domain is appended in insertion order. |
| ScoreHistory.CountDomainsFacts | analyze_scores.py:42-45 | Each domain's count is its number of cookies, and the counts sum to the number of cookies. |
| ScoreHistory.AnalyzeCookiesFacts | analyze_scores.py:35-53 | A bare list gives `total_cookies = len(list)`, with per-domain counts summing to it and a missing domain counted as "unknown". A dict-format record, or any other value, gives None. |
| Decimals.ParseRender | advanced_score_detector.py:1537 | The shortest rendering of a score parses back to the same score. |
| Decimals.CanonicalValue | advanced_score_detector.py:1537 | Rendering a score as Python does keeps its value. |

## Left out

- Browser fingerprinting (`modify_browser_fingerprint`) is left out. It injects opaque JavaScript.
- Driver calls are inputs of the model: element counts and texts, URLs, page source, success flags. So are sleeps (as an elapsed counter), random draws (as parameters in their ranges), the filesystem, JSON I/O and directory listings.
- Orchestration is left out: `get_recaptcha_score`, `run_score_detector` and `main` in both detector files, and analyze_scores.py's `main`. The browsing-history helpers and `natural_typing` are also left out, as nothing in the core depends on them.
- The click and double-click coin after a mouse walk is left out, because it only chooses a driver call.
- `human_like_delay` is one uniform draw. It appears only as time added to the elapsed counter.
- IEEE floating point is left out. Scores are exact decimals and geometry is exact reals.
- Decimals.ParseFloat accepts a sign, digits and one point. Python's `float()` also accepts exponents, `inf`, `nan`, underscores between digits and surrounding whitespace. No regex capture of the source can hold those forms, but two callers apply `float()` to free text, as the next two lines say.
- ScoreExtractor.ElementScore: an element text such as `Your score is: 1e-1` or `Your score is: nan` gives a score in the source (advanced_score_detector.py:1591-1594) and None in the model.
- SessionCache.CandidateScore: a file name whose fourth `_` field is `1e0`, `inf` or `1_0` is scored by the source (advanced_score_detector.py:1697-1698), and an `inf` file would win. The model gives such a file no score.
- Decimals.CanonicalValue: the rendering matches Python's `repr(float)` only for scores in [1e-4, 1e16), where no exponent is used. This covers every score the page reports.
- `\d` and `\s` are the ASCII digits and Python's whitespace set. Unicode digits are left out.
- Text.Lower lower-cases ASCII letters only, while Python's `str.lower()` and JavaScript's `toLowerCase()` lower-case all of Unicode. The two agree on every deny and submit word: only `K` (U+212A) and `İ` (U+0130) lower-case to ASCII letters, and neither can complete one of those words.
- Decimals.ParseInt does not accept the underscores between digits that Python's `int()` accepts. An expiry such as `"1_700_000_000"` is converted by advanced_score_detector.py:462, but the model drops that cookie.
- Motion.MousePath requires `num_points != 1`. With one point the source divides by zero, and the exception ends the walk.
- ScoreHistory.WrittenLineParses requires a year of at least 1000, because `strftime` writes shorter years without padding. `strptime` itself accepts years 1 to 9999 and seconds up to 59.
- The scroll animation runs in the page concurrently with the next sleep. The model states each animation frame's position, not the interleaving of frames with the driver's calls. Scrolling.ScrollTargets and Scrolling.NaturalScrolling take the outcome of that race as inputs instead: where each scroll read the page, and whether the last animation had ended before the scroll-back.
- SessionCache.LoadCookies: a list element that is not an object is not represented, since every modelled cookie is a record. The source skips such an element through the per-cookie `except` (advanced_score_detector.py:486-487) and goes on with the rest. `analyze_cookies` raises on it and returns None.
- SessionCache.ReturnedCookies: a record whose "cookies" value is not a list cannot be represented, since `Payload.Record` holds a cookie sequence. The source returns that value as it is (advanced_score_detector.py:1712-1720).
- SessionCache.DomainRule: a `null` domain is modelled as a missing domain, which the rule admits. In the source a `null` domain passes the first check, raises on `startswith` at advanced_score_detector.py:472, and the cookie is skipped.
- ScoreHistory.AnalyzeCookiesFacts: a `null` domain is counted under "unknown", as a missing one is. The source counts it under the key `None` (analyze_scores.py:43).
- `low_score_hours` in `analyze_high_score_factors` is computed but never used, so it is left out.
- Python's `dict` is modelled as an insertion-ordered list of pairs.

=== FILE: common.dfy ===
/** Small shared vocabulary: an optional value, the real-number clamps the
    motion and scroll code use, and a few sequence helpers. */
module Common {

  /** A value that may be missing: Python's `None` or a failed lookup. */
  datatype Option<T> = None | Some(value: T) {
    function GetOr(default: T): T {
      match this
      case Some(v) => v
      case None => default
    }
  }

  function Min(a: real, b: real): real { if a <= b then a else b }

  function Max(a: real, b: real): real { if a >= b then a else b }

  /** Python's `max(lo, min(hi, v))`: the clamp every generated coordinate goes through. */
  function Clamp(v: real, lo: real, hi: real): (r: real)
    requires lo <= hi
    ensures lo <= r <= hi
    ensures lo <= v <= hi ==> r == v
    ensures v < lo ==> r == lo
    ensures v > hi ==> r == hi
  {
    Max(lo, Min(hi, v))
  }

  /** No element occurs twice. */
  predicate Distinct<T(==)>(xs: seq<T>) {
    forall i, j | 0 <= i < j < |xs| :: xs[i] != xs[j]
  }

  /** Python's `[f(x) for x in xs]`. */
  function Map<A, B>(f: A -> B, xs: seq<A>): (ys: seq<B>)
    ensures |ys| == |xs| && forall i | 0 <= i < |xs| :: ys[i] == f(xs[i])
  {
    seq(|xs|, i requires 0 <= i < |xs| => f(xs[i]))
  }

  /** Mapping a concatenation maps each part. */
  lemma MapAppend<A, B>(f: A -> B, a: seq<A>, b: seq<A>)
    ensures Map(f, a + b) == Map(f, a) + Map(f, b)
  {
    var l, r := Map(f, a + b), Map(f, a) + Map(f, b);
    forall i | 0 <= i < |l| ensures l[i] == r[i] {
      if i < |a| { assert (a + b)[i] == a[i]; } else { assert (a + b)[i] == b[i - |a|]; }
    }
  }

  /** Scaling by a non-negative factor keeps an inequality. */
  lemma MulMono(p: real, x: real, y: real)
    requires 0.0 <= p && x <= y
    ensures p * x <= p * y
  {
  }
}

=== FILE: decimals.dfy ===
/** Scores as decimal literals. Python turns score text into a float with
    `float(text)` and back into text with `f"{score}"`; this module models both
    on exact decimals: `ParseFloat` reads a literal, `Value` is the number it
    denotes, and `Render(Canonical(d))` is the shortest text Python prints. */
module Decimals {
  import opened Common
  import opened Text

  /** A decimal literal: sign, digits before the point, digits after it. */
  datatype Decimal = Decimal(negative: bool, whole: string, frac: string)

  /** Both digit strings hold only ASCII digits. */
  predicate WellFormed(d: Decimal) { AllDigits(d.whole) && AllDigits(d.frac) }

  function DigitValue(c: char): int { c as int - '0' as int }

  /** The number written by a digit string (the empty string is 0). */
  function DigitsValue(ds: string): int
    decreases |ds|
  {
    if |ds| == 0 then 0 else 10 * DigitsValue(ds[..|ds| - 1]) + DigitValue(ds[|ds| - 1])
  }

  function Pow10(n: nat): (p: nat)
    ensures p >= 1
  {
    if n == 0 then 1 else 10 * Pow10(n - 1)
  }

  /** The value of the digits after the point. */
  function FracValue(ds: string): real {
    DigitsValue(ds) as real / Pow10(|ds|) as real
  }

  function Magnitude(d: Decimal): real {
    DigitsValue(d.whole) as real + FracValue(d.frac)
  }

  /** The number a literal denotes. */
  function Value(d: Decimal): real {
    if d.negative then -Magnitude(d) else Magnitude(d)
  }

  /** Python's `float(text)` restricted to plain decimal literals: surrounding
      whitespace, an optional sign, digits with at most one point, and at least
      one digit. Anything else is a conversion failure. */
  function ParseFloat(s: string): (r: Option<Decimal>)
    ensures r.Some? ==> WellFormed(r.value) && |r.value.whole| + |r.value.frac| > 0
  {
    var t := Strip(s);
    var signed := |t| > 0 && (t[0] == '-' || t[0] == '+');
    ParseUnsigned(signed && t[0] == '-', if signed then t[1..] else t)
  }

  /** The literal after its sign: digits with at most one point, at least one digit. */
  function ParseUnsigned(negative: bool, body: string): (r: Option<Decimal>)
    ensures r.Some? ==> WellFormed(r.value) && |r.value.whole| + |r.value.frac| > 0
    ensures r.Some? ==> r.value.negative == negative
  {
    match IndexOf(body, ".")
    case None =>
      if |body| > 0 && AllDigits(body) then Some(Decimal(negative, body, [])) else None
    case Some(i) =>
      var w := body[..i];
      var f := body[i + 1..];
      if |w| + |f| > 0 && AllDigits(w) && AllDigits(f) then Some(Decimal(negative, w, f)) else None
  }

  /** Python's `int(x)` on a float: truncation toward zero (Dafny's `Floor` rounds down). */
  function Truncate(x: real): (r: int)
    ensures x >= 0.0 ==> 0.0 <= r as real <= x < r as real + 1.0
    ensures x < 0.0 ==> r as real - 1.0 < x <= r as real <= 0.0
  {
    if x >= 0.0 then x.Floor else -((-x).Floor)
  }

  /** Python's `int(text)` on surrounding whitespace, an optional sign and one or
      more digits; the underscores `int` also accepts between digits are not. */
  function ParseInt(s: string): Option<int> {
    var t := Strip(s);
    var signed := |t| > 0 && (t[0] == '-' || t[0] == '+');
    var body := if signed then t[1..] else t;
    if |body| > 0 && AllDigits(body) then
      Some(if signed && t[0] == '-' then -DigitsValue(body) else DigitsValue(body))
    else None
  }

  /** Text whose last character is a letter (or any other non-digit, non-point,
      non-space character) is not a float literal. */
  lemma ParseRejectsTrailing(s: string)
    requires |s| > 0
    requires !IsSpace(s[|s| - 1]) && !IsDigit(s[|s| - 1]) && s[|s| - 1] != '.'
    ensures ParseFloat(s) == None
  {
    var c := s[|s| - 1];
    var u := TrimStart(s);
    assert |u| > 0 && u[|u| - 1] == c;
    var t := Strip(s);
    assert t == TrimEnd(u) == u;
    var signed := |t| > 0 && (t[0] == '-' || t[0] == '+');
    var body := if signed then t[1..] else t;
    if |body| > 0 {
      assert body[|body| - 1] == c;
      UnsignedRejects(signed && t[0] == '-', body);
    }
  }

  /** A body ending in a character other than a digit or the point does not parse. */
  lemma UnsignedRejects(negative: bool, body: string)
    requires |body| > 0 && !IsDigit(body[|body| - 1]) && body[|body| - 1] != '.'
    ensures ParseUnsigned(negative, body) == None
  {
    var c := body[|body| - 1];
    match IndexOf(body, ".")
    case None =>
    case Some(i) =>
      assert i < |body| - 1;
      assert body[i + 1..][|body| - i - 2] == c;
  }

  /** The text Python prints for the float: sign, whole digits, point, fraction digits. */
  function Render(d: Decimal): string {
    (if d.negative then "-" else "") + d.whole + "." + d.frac
  }

  /** The shape of Python's `repr` of a float in plain notation: no superfluous
      leading zero before the point, no trailing zero after it, and at least one
      digit on each side. */
  predicate IsCanonical(d: Decimal) {
    && WellFormed(d)
    && |d.whole| >= 1 && (|d.whole| == 1 || d.whole[0] != '0')
    && |d.frac| >= 1 && (|d.frac| == 1 || d.frac[|d.frac| - 1] != '0')
  }

  function DropLeadingZeros(ds: string): (r: string)
    ensures |r| == 0 || r[0] != '0'
    ensures AllDigits(ds) ==> AllDigits(r)
    ensures DigitsValue(r) == DigitsValue(ds)
    decreases |ds|
  {
    if |ds| > 0 && ds[0] == '0' then
      LeadingZero(ds[1..]);
      assert ds == ['0'] + ds[1..];
      DropLeadingZeros(ds[1..])
    else ds
  }

  function DropTrailingZeros(ds: string): (r: string)
    ensures |r| == 0 || r[|r| - 1] != '0'
    ensures AllDigits(ds) ==> AllDigits(r)
    ensures FracValue(r) == FracValue(ds)
    decreases |ds|
  {
    if |ds| > 0 && ds[|ds| - 1] == '0' then
      TrailingZero(ds[..|ds| - 1]);
      assert ds == ds[..|ds| - 1] + ['0'];
      DropTrailingZeros(ds[..|ds| - 1])
    else ds
  }

  function NonEmpty(ds: string): string {
    if |ds| == 0 then ['0'] else ds
  }

  /** The literal Python would print for the same number. */
  function Canonical(d: Decimal): Decimal {
    Decimal(d.negative, NonEmpty(DropLeadingZeros(d.whole)), NonEmpty(DropTrailingZeros(d.frac)))
  }

  /** A leading zero does not change the value of a digit string. */
  lemma {:induction false} LeadingZero(ds: string)
    ensures DigitsValue(['0'] + ds) == DigitsValue(ds)
    decreases |ds|
  {
    if |ds| > 0 {
      var z := ['0'] + ds;
      assert z[..|z| - 1] == ['0'] + ds[..|ds| - 1];
      assert z[|z| - 1] == ds[|ds| - 1];
      LeadingZero(ds[..|ds| - 1]);
    } else {
      assert DigitsValue(['0']) == 10 * DigitsValue([]) + 0;
    }
  }

  /** A trailing zero after the point does not change the value. */
  lemma TrailingZero(ds: string)
    ensures FracValue(ds + ['0']) == FracValue(ds)
  {
    var z := ds + ['0'];
    assert z[..|z| - 1] == ds;
    var a := DigitsValue(ds) as real;
    var p := Pow10(|ds|) as real;
    assert DigitsValue(z) as real == 10.0 * a;
    assert Pow10(|z|) as real == 10.0 * p;
    assert (10.0 * a) / (10.0 * p) == a / p;
  }

  /** Canonicalising keeps the value and yields the canonical shape. */
  lemma CanonicalValue(d: Decimal)
    requires WellFormed(d)
    ensures IsCanonical(Canonical(d))
    ensures Value(Canonical(d)) == Value(d)
  {
    CanonicalWhole(d.whole);
    CanonicalFrac(d.frac);
  }

  /** The whole digits without leading zeros, or "0": same value, canonical shape. */
  lemma CanonicalWhole(ds: string)
    requires AllDigits(ds)
    ensures var r := NonEmpty(DropLeadingZeros(ds));
      AllDigits(r) && |r| >= 1 && (|r| == 1 || r[0] != '0') && DigitsValue(r) == DigitsValue(ds)
  {
    assert DigitsValue(['0']) == 0;
  }

  /** The fraction digits without trailing zeros, or "0": same value, canonical shape. */
  lemma CanonicalFrac(ds: string)
    requires AllDigits(ds)
    ensures var r := NonEmpty(DropTrailingZeros(ds));
      AllDigits(r) && |r| >= 1 && (|r| == 1 || r[|r| - 1] != '0') && FracValue(r) == FracValue(ds)
  {
    assert FracValue(['0']) == 0.0;
  }

  /** The first point in `w + "." + f` is the one after `w` when `w` is all digits. */
  lemma PointIndex(w: string, f: string)
    requires AllDigits(w)
    ensures IndexOf(w + "." + f, ".") == Some(|w|)
  {
    NoCharNotContained(w, '.');
    FirstOccurrence(w, '.', f);
  }

  /** Reading back the printed text of a canonical literal gives the literal. */
  lemma ParseRender(d: Decimal)
    requires IsCanonical(d)
    ensures ParseFloat(Render(d)) == Some(d)
  {
    var body := d.whole + "." + d.frac;
    if d.negative {
      assert Render(d) == "-" + body;
      ParseSigned(d.whole, d.frac);
    } else {
      assert Render(d) == body;
      ParsePlain(d.whole, d.frac);
    }
  }

  /** A negative literal with digits on both sides of its point parses to itself. */
  lemma ParseSigned(w: string, f: string)
    requires AllDigits(w) && AllDigits(f) && |w| >= 1 && |f| >= 1
    ensures ParseFloat("-" + (w + "." + f)) == Some(Decimal(true, w, f))
  {
    var t := "-" + (w + "." + f);
    assert t[0] == '-' && t[1..] == w + "." + f;
    assert t[|t| - 1] == f[|f| - 1];
    StripNoSpace(t);
    UnsignedRender(true, w, f);
  }

  lemma UnsignedRender(negative: bool, w: string, f: string)
    requires AllDigits(w) && AllDigits(f) && |w| + |f| > 0
    ensures ParseUnsigned(negative, w + "." + f) == Some(Decimal(negative, w, f))
  {
    var body := w + "." + f;
    PointIndex(w, f);
    assert body[..|w|] == w;
    assert body[|w| + 1..] == f;
  }

  /** A plain unsigned literal with digits on both sides of its point parses to itself. */
  lemma ParsePlain(w: string, f: string)
    requires AllDigits(w) && AllDigits(f) && |w| >= 1 && |f| >= 1
    ensures ParseFloat(w + "." + f) == Some(Decimal(false, w, f))
  {
    var t := w + "." + f;
    assert t[0] == w[0];
    assert t[|t| - 1] == f[|f| - 1];
    StripNoSpace(t);
    UnsignedRender(false, w, f);
  }

  lemma {:induction false} DigitsNonNegative(ds: string)
    requires AllDigits(ds)
    ensures DigitsValue(ds) >= 0
    decreases |ds|
  {
    if |ds| > 0 {
      DigitsNonNegative(ds[..|ds| - 1]);
    }
  }

  /** A well-formed literal without a minus sign denotes a number that is not negative. */
  lemma NonNegative(d: Decimal)
    requires WellFormed(d) && !d.negative
    ensures Value(d) >= 0.0
  {
    DigitsNonNegative(d.whole);
    DigitsNonNegative(d.frac);
  }
}

=== FILE: interaction.dfy ===
/** `interact_with_page(sb, interaction_time)` of advanced_score_detector.py:967-1354:
    a timed pass over a page's inputs, buttons, links and checkboxes, guarded by
    fractions of the time budget and by keyword deny-lists. The driver's answers
    and the time each visit spends are parameters; the clock advances only by
    the time visits spend. A button visit reads the clock twice, once before its
    driver calls and once at its submit test, so it carries the time between. */
module Interaction {
  import opened Common
  import opened Text

  /** Words that keep a button from being clicked (matched in its lower-cased text). */
  const ButtonDeny: seq<string> := ["delete", "remove", "logout", "sign out"]

  /** Words that keep a link from being clicked (matched in its lower-cased text
      or in its href as given). */
  const LinkDeny: seq<string> := ["logout", "sign out", "delete"]

  /** Words that mark a button as a form submission. */
  const SubmitWords: seq<string> := ["submit", "send"]

  /** The page the pass expects to stay on. */
  const HomeMarker: string := "antcpt.com/score_detector"

  // ---------------------------------------------------------------- the log

  datatype Action =
    | ScrollBy
    | MouseMove
    | Typed
    | ClickedButton(text: string, checkedAt: real)  // elapsed at the submit test
    | ClickedLink(text: string, href: Option<string>)
    | WentBack
    | ToggledCheckbox

  /** An action and the elapsed time at which the visit that made it began. */
  datatype Event = Event(at: real, action: Action)

  function CountWhere(log: seq<Event>, p: Action -> bool): (n: nat)
    ensures n <= |log|
  {
    if |log| == 0 then 0 else (if p(log[0].action) then 1 else 0) + CountWhere(log[1..], p)
  }

  lemma {:induction false} CountAppend(a: seq<Event>, b: seq<Event>, p: Action -> bool)
    ensures CountWhere(a + b, p) == CountWhere(a, p) + CountWhere(b, p)
    decreases |a|
  {
    if |a| == 0 {
      assert a + b == b;
    } else {
      assert (a + b)[1..] == a[1..] + b;
      CountAppend(a[1..], b, p);
    }
  }

  predicate IsTyped(a: Action) { a.Typed? }
  predicate IsButtonClick(a: Action) { a.ClickedButton? }
  predicate IsLinkClick(a: Action) { a.ClickedLink? }
  predicate IsToggle(a: Action) { a.ToggledCheckbox? }
  predicate IsElementAction(a: Action) { !(a.ScrollBy? || a.MouseMove?) }

  // ---------------------------------------------------------------- decisions

  /** The button checks of lines 1117-1123 and 1150-1157: no deny word in the
      lower-cased text, and a submit/send button only after 90% of the budget. */
  predicate ButtonAllowed(text: string, elapsed: real, budget: real) {
    var t := Lower(text);
    !ContainsAny(t, ButtonDeny) && !(ContainsAny(t, SubmitWords) && elapsed <= 0.9 * budget)
  }

  /** The link checks of lines 1208-1211 and 1244-1247: no deny word in the
      lower-cased text or in the href, which is not lower-cased. */
  predicate LinkAllowed(text: string, href: Option<string>) {
    && !ContainsAny(Lower(text), LinkDeny)
    && (href.None? || !ContainsAny(href.value, LinkDeny))
  }

  // ---------------------------------------------------------------- visits

  /** One input visit: whether text reached the field, and the time spent. */
  datatype InputVisit = InputVisit(typed: bool, spent: real)

  /** One button visit: its text (None when reading it raised), the time its
      presence, visibility and text calls take before the submit test, whether
      the click went through, and the time spent once the checks passed. */
  datatype ButtonVisit = ButtonVisit(text: Option<string>, check: real, clickOk: bool, spent: real)

  /** The link visit: text and href (None when reading them raised), whether the
      click went through, the URL afterwards, and the time spent once the checks
      passed (when the click raises, the scroll and the delay before it). */
  datatype LinkVisit = LinkVisit(info: Option<(string, Option<string>)>, clickOk: bool, urlAfter: string, spent: real)

  /** The checkbox visit: whether it was toggled, and the time spent. */
  datatype CheckboxVisit = CheckboxVisit(toggled: bool, spent: real)

  /** How far the closing scroll-and-move ran before an error, and its time. */
  datatype Closing = Closing(scrolls: nat, moved: bool, spent: real)

  /** The element counts (each a count of a selector's matches). */
  datatype Counts = Counts(buttons: nat, inputs: nat, checkboxes: nat, links: nat)

  /** Everything the page and the draws decide. */
  datatype Draws = Draws(
    inputs: seq<InputVisit>,
    buttons: seq<ButtonVisit>,
    link: LinkVisit,
    checkbox: CheckboxVisit,
    bareSteps: nat,       // steps of the no-element routine that ran (of 6)
    bareSpent: real,
    closing: Closing)

  predicate ValidDraws(d: Draws) {
    && |d.inputs| >= 2 && |d.buttons| >= 2
    && (forall i | 0 <= i < |d.inputs| :: d.inputs[i].spent >= 0.0)
    && (forall i | 0 <= i < |d.buttons| :: d.buttons[i].check >= 0.0 && d.buttons[i].spent >= 0.0)
    && d.link.spent >= 0.0 && d.checkbox.spent >= 0.0
    && d.bareSteps <= 6 && d.bareSpent >= 0.0
    && d.closing.scrolls <= 2 && d.closing.spent >= 0.0
  }

  function Min2(n: nat): nat { if n < 2 then n else 2 }

  /** The input loop of lines 1024-1089 from visit `k` of `n`, at elapsed `t`. */
  function InputLoop(budget: real, t: real, visits: seq<InputVisit>, k: nat, n: nat): (r: (seq<Event>, real))
    requires k <= n <= |visits|
    requires forall i | 0 <= i < |visits| :: visits[i].spent >= 0.0
    ensures r.1 >= t
    ensures |r.0| <= n - k
    ensures forall e | e in r.0 :: e.action == Typed && t <= e.at <= 0.7 * budget
    decreases n - k
  {
    if k == n || t > 0.7 * budget then ([], t)
    else
      var v := visits[k];
      var rest := InputLoop(budget, t + v.spent, visits, k + 1, n);
      ((if v.typed then [Event(t, Typed)] else []) + rest.0, rest.1)
  }

  /** The button loop of lines 1093-1170 from visit `k` of `n`, at elapsed `t`.
      The 90% test of line 1101 reads the clock at the visit's start; the submit
      test of line 1132 or 1157 reads it `check` later, so a submit/send button
      is clicked only when those driver calls carry the clock past 90%. */
  function ButtonLoop(budget: real, t: real, visits: seq<ButtonVisit>, k: nat, n: nat): (r: (seq<Event>, real))
    requires k <= n <= |visits|
    requires forall i | 0 <= i < |visits| :: visits[i].check >= 0.0 && visits[i].spent >= 0.0
    ensures r.1 >= t
    ensures |r.0| <= n - k
    ensures forall e | e in r.0 ::
      && e.action.ClickedButton?
      && t <= e.at <= 0.9 * budget
      && e.at <= e.action.checkedAt
      && ButtonAllowed(e.action.text, e.action.checkedAt, budget)
    decreases n - k
  {
    if k == n || t > 0.9 * budget then ([], t)
    else
      var v := visits[k];
      var at := t + v.check;
      if v.text.None? || !ButtonAllowed(v.text.value, at, budget) then ButtonLoop(budget, at, visits, k + 1, n)
      else
        var rest := ButtonLoop(budget, at + v.spent, visits, k + 1, n);
        ((if v.clickOk then [Event(t, ClickedButton(v.text.value, at))] else []) + rest.0, rest.1)
  }

  /** With checks that take no time the two reads agree, and no submit/send
      button is ever clicked. */
  lemma {:induction false} NoSubmitWhenChecksAreInstant(budget: real, t: real, visits: seq<ButtonVisit>, k: nat, n: nat)
    requires k <= n <= |visits|
    requires forall i | 0 <= i < |visits| :: visits[i].check == 0.0 && visits[i].spent >= 0.0
    ensures forall e | e in ButtonLoop(budget, t, visits, k, n).0 :: !ContainsAny(Lower(e.action.text), SubmitWords)
    decreases n - k
  {
    if k < n && t <= 0.9 * budget {
      var v := visits[k];
      assert t + v.check == t;
      if v.text.Some? && ButtonAllowed(v.text.value, t, budget) {
        var head := if v.clickOk then [Event(t, ClickedButton(v.text.value, t))] else [];
        NoSubmitWhenChecksAreInstant(budget, t + v.spent, visits, k + 1, n);
        assert ButtonLoop(budget, t, visits, k, n).0 == head + ButtonLoop(budget, t + v.spent, visits, k + 1, n).0;
        assert !ContainsAny(Lower(v.text.value), SubmitWords);
      } else {
        NoSubmitWhenChecksAreInstant(budget, t, visits, k + 1, n);
      }
    }
  }

  /** A submit button is clicked when its checks carry the clock past 90%:
      starting at 8.5 of a 10-second budget with a 1-second check. */
  lemma SubmitClickedAcrossTheMark()
    ensures ButtonLoop(10.0, 8.5, [ButtonVisit(Some("Submit"), 1.0, true, 1.5)], 0, 1).0
         == [Event(8.5, ClickedButton("Submit", 9.5))]
  {
    var s := Lower("Submit");
    assert s == "submit";
    assert s[0..] == s;
    ContainsAt(s, "submit", 0);
    assert Contains(s, SubmitWords[0]);
    assert !ContainsAny(s, ButtonDeny) by {
      forall i | 0 <= i < |ButtonDeny| ensures !Contains(s, ButtonDeny[i]) {
        if i < 3 {
          MissingFirstChar(s, ButtonDeny[i]);
        } else {
          assert |ButtonDeny[i]| > |s|;
        }
      }
    }
  }

  /** The single link visit of lines 1174-1265, at elapsed `t`. */
  function LinkStep(budget: real, t: real, v: LinkVisit): (r: (seq<Event>, real))
    requires v.spent >= 0.0
    ensures r.1 >= t
    ensures forall e | e in r.0 :: e.at == t && t <= 0.8 * budget
    ensures CountWhere(r.0, IsLinkClick) <= 1
    ensures forall e | e in r.0 :: e.action.ClickedLink? ==> LinkAllowed(e.action.text, e.action.href)
    ensures forall e | e in r.0 :: e.action.ClickedLink? || e.action.WentBack?
    ensures (exists e | e in r.0 :: e.action.WentBack?) ==> !Contains(v.urlAfter, HomeMarker)
    ensures t <= 0.8 * budget && v.info.Some? && LinkAllowed(v.info.value.0, v.info.value.1) ==>
      r.1 == t + v.spent && (v.clickOk <==> |r.0| > 0)
    ensures !(t <= 0.8 * budget && v.info.Some? && LinkAllowed(v.info.value.0, v.info.value.1)) ==> r == ([], t)
  {
    if t > 0.8 * budget || v.info.None? || !LinkAllowed(v.info.value.0, v.info.value.1) then ([], t)
    else if !v.clickOk then ([], t + v.spent)
    else
      var click := Event(t, ClickedLink(v.info.value.0, v.info.value.1));
      var log := if Contains(v.urlAfter, HomeMarker) then [click] else [click, Event(t, WentBack)];
      assert CountWhere(log, IsLinkClick) <= 1 by {
        assert log[1..] == [] || log[1..] == [Event(t, WentBack)];
      }
      (log, t + v.spent)
  }

  /** What the pass did: its log and the time it spent. */
  datatype Pass = Pass(log: seq<Event>, elapsed: real)

  /** The no-element routine of lines 992-1020: the steps scroll, scroll, scroll,
      move, move, move, cut short at the first error. */
  function BareRoutine(steps: nat): (log: seq<Event>)
    requires steps <= 6
    ensures |log| == steps
    ensures forall e | e in log :: !IsElementAction(e.action)
  {
    seq(steps, i requires 0 <= i < steps => Event(0.0, if i < 3 then ScrollBy else MouseMove))
  }

  /** The per-action promises of the pass: element actions start by 90% of the
      budget, a clicked button passed the deny-list and is a submit/send button
      only when its submit test read the clock after 90% of the budget, and a
      clicked link passed its deny-list. */
  predicate Safe(e: Event, budget: real) {
    && (IsElementAction(e.action) ==> e.at <= 0.9 * budget)
    && (e.action.ClickedButton? ==> ButtonAllowed(e.action.text, e.action.checkedAt, budget))
    && (e.action.ClickedLink? ==> LinkAllowed(e.action.text, e.action.href))
  }

  /** The input section (lines 1022-1089), starting the pass. */
  function InputSection(budget: real, c: Counts, d: Draws): (r: (seq<Event>, real))
    requires ValidDraws(d)
    ensures r.1 >= 0.0
    ensures |r.0| <= 2 && forall e | e in r.0 :: e.action == Typed && Safe(e, budget)
  {
    if c.inputs > 0 then InputLoop(budget, 0.0, d.inputs, 0, Min2(c.inputs)) else ([], 0.0)
  }

  /** The button section (lines 1091-1171), entered before 80% of the budget. */
  function ButtonSection(budget: real, c: Counts, d: Draws, t: real): (r: (seq<Event>, real))
    requires ValidDraws(d)
    ensures r.1 >= t
    ensures |r.0| <= 2 && forall e | e in r.0 :: e.action.ClickedButton? && Safe(e, budget)
  {
    if c.buttons > 0 && t < 0.8 * budget then
      var r := ButtonLoop(budget, t, d.buttons, 0, Min2(c.buttons));
      r
    else ([], t)
  }

  /** The link section (lines 1173-1268), entered before 70% of the budget. */
  function LinkSection(budget: real, c: Counts, d: Draws, t: real): (r: (seq<Event>, real))
    requires ValidDraws(d) && t >= 0.0
    ensures r.1 >= t
    ensures CountWhere(r.0, IsLinkClick) <= 1
    ensures forall e | e in r.0 :: (e.action.ClickedLink? || e.action.WentBack?) && Safe(e, budget)
  {
    if c.links > 0 && t < 0.7 * budget then LinkStep(budget, t, d.link) else ([], t)
  }

  /** The checkbox section (lines 1270-1321), entered before 90% of the budget. */
  function CheckboxSection(budget: real, c: Counts, d: Draws, t: real): (r: (seq<Event>, real))
    requires ValidDraws(d)
    ensures r.1 >= t
    ensures |r.0| <= 1 && forall e | e in r.0 :: e.action == ToggledCheckbox && Safe(e, budget)
  {
    if c.checkboxes > 0 && t < 0.9 * budget then
      ((if d.checkbox.toggled then [Event(t, ToggledCheckbox)] else []), t + d.checkbox.spent)
    else ([], t)
  }

  /** The closing scrolls and mouse move (lines 1323-1352). */
  function ClosingSection(d: Draws, t: real): (r: (seq<Event>, real))
    requires ValidDraws(d)
    ensures r.1 >= t
    ensures forall e | e in r.0 :: !IsElementAction(e.action)
  {
    (seq(d.closing.scrolls, i requires 0 <= i < d.closing.scrolls => Event(t, ScrollBy))
       + (if d.closing.moved then [Event(t, MouseMove)] else []),
     t + d.closing.spent)
  }

  /** `interact_with_page`. `counts` is None when counting raised (every count is
      then 0). */
  function InteractWithPage(budget: real, counts: Option<Counts>, d: Draws): (p: Pass)
    requires ValidDraws(d)
    ensures p.elapsed >= 0.0
    ensures var c := counts.GetOr(Counts(0, 0, 0, 0));
      c.buttons + c.inputs + c.checkboxes + c.links == 0 ==>
        forall e | e in p.log :: !IsElementAction(e.action)
    ensures forall e | e in p.log :: Safe(e, budget)
    ensures CountWhere(p.log, IsTyped) <= 2
    ensures CountWhere(p.log, IsButtonClick) <= 2
    ensures CountWhere(p.log, IsLinkClick) <= 1
    ensures CountWhere(p.log, IsToggle) <= 1
  {
    var c := counts.GetOr(Counts(0, 0, 0, 0));
    if c.buttons + c.inputs + c.checkboxes + c.links == 0 then
      var log := BareRoutine(d.bareSteps);
      NoElementActions(log);
      Pass(log, d.bareSpent)
    else
      var ins := InputSection(budget, c, d);
      var bts := ButtonSection(budget, c, d, ins.1);
      var lnk := LinkSection(budget, c, d, bts.1);
      var chk := CheckboxSection(budget, c, d, lnk.1);
      var fin := ClosingSection(d, chk.1);
      SectionCounts(ins.0, bts.0, lnk.0, chk.0, fin.0);
      AllSafe(ins.0, bts.0, lnk.0, chk.0, fin.0, budget);
      Pass(ins.0 + bts.0 + lnk.0 + chk.0 + fin.0, fin.1)
  }

  /** The sections' logs, each safe on its own, are safe together. */
  lemma AllSafe(ins: seq<Event>, bts: seq<Event>, lnk: seq<Event>, chk: seq<Event>, closing: seq<Event>, budget: real)
    requires forall e | e in ins :: Safe(e, budget)
    requires forall e | e in bts :: Safe(e, budget)
    requires forall e | e in lnk :: Safe(e, budget)
    requires forall e | e in chk :: Safe(e, budget)
    requires forall e | e in closing :: !IsElementAction(e.action)
    ensures forall e | e in ins + bts + lnk + chk + closing :: Safe(e, budget)
  {
    forall e | e in ins + bts + lnk + chk + closing
      ensures Safe(e, budget)
    {
      assert e in ins || e in bts || e in lnk || e in chk || e in closing;
    }
  }

  lemma NoElementActions(log: seq<Event>)
    requires forall e | e in log :: !IsElementAction(e.action)
    ensures CountWhere(log, IsTyped) == 0 && CountWhere(log, IsButtonClick) == 0
    ensures CountWhere(log, IsLinkClick) == 0 && CountWhere(log, IsToggle) == 0
  {
    NoneOfKind(log, IsTyped);
    NoneOfKind(log, IsButtonClick);
    NoneOfKind(log, IsLinkClick);
    NoneOfKind(log, IsToggle);
  }

  /** All of one kind: the count is the length. */
  lemma {:induction false} AllOfKind(log: seq<Event>, p: Action -> bool)
    requires forall e | e in log :: p(e.action)
    ensures CountWhere(log, p) == |log|
    decreases |log|
  {
    if |log| > 0 {
      assert log[0] in log;
      AllOfKind(log[1..], p);
    }
  }

  /** None of a kind: the count is zero. */
  lemma {:induction false} NoneOfKind(log: seq<Event>, p: Action -> bool)
    requires forall e | e in log :: !p(e.action)
    ensures CountWhere(log, p) == 0
    decreases |log|
  {
    if |log| > 0 {
      assert log[0] in log;
      NoneOfKind(log[1..], p);
    }
  }

  /** Counting over five concatenated sections adds up the sections' counts. */
  lemma CountFive(a: seq<Event>, b: seq<Event>, c: seq<Event>, d: seq<Event>, e: seq<Event>, p: Action -> bool)
    ensures CountWhere(a + b + c + d + e, p)
         == CountWhere(a, p) + CountWhere(b, p) + CountWhere(c, p) + CountWhere(d, p) + CountWhere(e, p)
  {
    CountAppend(a, b, p);
    CountAppend(a + b, c, p);
    CountAppend(a + b + c, d, p);
    CountAppend(a + b + c + d, e, p);
  }

  /** Each section contributes only its own kind of element action. */
  lemma SectionCounts(ins: seq<Event>, bts: seq<Event>, lnk: seq<Event>, chk: seq<Event>, closing: seq<Event>)
    requires |ins| <= 2 && forall e | e in ins :: e.action == Typed
    requires |bts| <= 2 && forall e | e in bts :: e.action.ClickedButton?
    requires CountWhere(lnk, IsLinkClick) <= 1
    requires forall e | e in lnk :: e.action.ClickedLink? || e.action.WentBack?
    requires |chk| <= 1 && forall e | e in chk :: e.action == ToggledCheckbox
    requires forall e | e in closing :: !IsElementAction(e.action)
    ensures CountWhere(ins + bts + lnk + chk + closing, IsTyped) <= 2
    ensures CountWhere(ins + bts + lnk + chk + closing, IsButtonClick) <= 2
    ensures CountWhere(ins + bts + lnk + chk + closing, IsLinkClick) <= 1
    ensures CountWhere(ins + bts + lnk + chk + closing, IsToggle) <= 1
  {
    CountFive(ins, bts, lnk, chk, closing, IsTyped);
    NoneOfKind(bts, IsTyped); NoneOfKind(lnk, IsTyped); NoneOfKind(chk, IsTyped); NoneOfKind(closing, IsTyped);
    CountFive(ins, bts, lnk, chk, closing, IsButtonClick);
    NoneOfKind(ins, IsButtonClick); NoneOfKind(lnk, IsButtonClick); NoneOfKind(chk, IsButtonClick); NoneOfKind(closing, IsButtonClick);
    CountFive(ins, bts, lnk, chk, closing, IsLinkClick);
    NoneOfKind(ins, IsLinkClick); NoneOfKind(bts, IsLinkClick); NoneOfKind(chk, IsLinkClick); NoneOfKind(closing, IsLinkClick);
    CountFive(ins, bts, lnk, chk, closing, IsToggle);
    NoneOfKind(ins, IsToggle); NoneOfKind(bts, IsToggle); NoneOfKind(lnk, IsToggle); NoneOfKind(closing, IsToggle);
  }

  // ---------------------------------------------------------------- the deny-lists as written

  /** A text without the first character of a word does not contain the word. */
  lemma MissingFirstChar(s: string, w: string)
    requires |w| > 0 && forall i | 0 <= i < |s| :: s[i] != w[0]
    ensures !Contains(s, w)
  {
    forall j | 0 <= j <= |s| ensures !OccursAt(s, w, j) {
      if j < |s| {
        assert s[j..][0] == s[j];
      }
    }
  }

  lemma WordContainsItself(w: string)
    ensures Contains(w, w)
  {
    assert w[0..] == w;
    assert OccursAt(w, w, 0);
  }

  /** A text without the letters 'l', 's' and 'd' has no link deny word. */
  lemma NoLinkDenyWord(s: string)
    requires forall i | 0 <= i < |s| :: s[i] != 'l' && s[i] != 's' && s[i] != 'd'
    ensures !ContainsAny(s, LinkDeny)
  {
    MissingFirstChar(s, "logout");
    MissingFirstChar(s, "sign out");
    MissingFirstChar(s, "delete");
    forall i | 0 <= i < |LinkDeny| ensures !Contains(s, LinkDeny[i]) {
      assert LinkDeny[i] == "logout" || LinkDeny[i] == "sign out" || LinkDeny[i] == "delete";
    }
  }

  /** The link deny-list has no "remove": a "remove" link is clicked. */
  lemma RemoveLinkAllowed()
    ensures LinkAllowed("remove", None)
  {
    assert Lower("remove") == "remove";
    NoLinkDenyWord("remove");
  }

  /** A button whose lower-cased text contains "remove" is never clicked, at any time. */
  lemma RemoveButtonDenied(text: string, t: real, budget: real)
    requires Contains(Lower(text), "remove")
    ensures !ButtonAllowed(text, t, budget)
  {
    assert ButtonDeny[1] == "remove";
    assert Contains(Lower(text), ButtonDeny[1]);
  }

  /** For instance "Remove item" contains it once lower-cased. */
  lemma RemoveItemDenied(t: real, budget: real)
    ensures !ButtonAllowed("Remove item", t, budget)
  {
    var s := Lower("Remove item");
    assert s == "remove item";
    assert s[0..] == s;
    ContainsAt(s, "remove", 0);
    RemoveButtonDenied("Remove item", t, budget);
  }

  /** The href is matched as given, not lower-cased: "/LOGOUT" passes. */
  lemma UpperCaseHrefAllowed()
    ensures LinkAllowed("home", Some("/LOGOUT"))
  {
    assert Lower("home") == "home";
    NoLinkDenyWord("home");
    NoLinkDenyWord("/LOGOUT");
  }

  /** The link text is lower-cased before matching: "Logout" is refused. */
  lemma MixedCaseTextDenied()
    ensures !LinkAllowed("Logout", None)
  {
    assert Lower("Logout") == "logout";
    WordContainsItself("logout");
    assert Contains("logout", LinkDeny[0]);
  }
}

=== FILE: legacy_detector.dfy ===
/** The score check at the end of `get_recaptcha_score` in score_detector.py:777-815:
    whether the session's cookies are kept after a run, and under which file
    name. The cookie record itself is the one `SessionCache.SaveCookies`
    builds, since score_detector.py's `save_cookies` and `load_cookies` are
    the same code as advanced_score_detector.py's. */
module LegacyDetector {
  import opened Common
  import opened Text
  import opened Decimals
  import opened SessionCache
  import opened ScoreExtractor

  /** The substrings whose presence in the score element's text counts as a high score. */
  const HighMarks: seq<string> := ["0.7", "0.8", "0.9", "1.0"]

  /** A capture made of digits and points has no underscore. */
  lemma CaptureHasNoUnderscore(c: string)
    requires forall k | 0 <= k < |c| :: IsScoreChar(c[k])
    ensures !Contains(c, "_")
  {
    NoCharNotContained(c, '_');
  }

  /** `re.search(r'Your score is:\s*(\d+\.\d+)', page_source)` followed by
      `float(score)`, which never raises on such a capture. */
  function SourceScore(source: string): (r: Option<(string, Decimal)>)
    ensures r.Some? <==> Search(source, [ScoreMarker], DecimalDigits).Some?
    ensures r.Some? ==>
      var (text, d) := r.value;
      && text == Search(source, [ScoreMarker], DecimalDigits).value.capture
      && ParseFloat(text) == Some(d)
      && !Contains(text, "_")
      && !d.negative && Value(d) >= 0.0
  {
    match Search(source, [ScoreMarker], DecimalDigits)
    case None => None
    case Some(h) =>
      DecimalCaptureParses(h.capture);
      CaptureHasNoUnderscore(h.capture);
      Some((h.capture, ParseFloat(h.capture).value))
  }

  /** The file the cookies are saved to, or None when they are not saved.
      `element` is the text of the first score element present, if any. With
      an element, the test is for the substrings of `HighMarks` and the file
      name carries no score; without one, the page source is searched and the
      captured text, as printed, goes into the name. */
  function SaveName(element: Option<string>, source: string, runId: string): (r: Option<string>)
    ensures element.Some? ==> (r.Some? <==> ContainsAny(element.value, HighMarks))
    ensures element.Some? && r.Some? ==> r.value == HighScorePrefix + runId + ".json"
    ensures element.None? ==>
      (r.Some? <==> SourceScore(source).Some? && Value(SourceScore(source).value.1) >= SaveThreshold)
    ensures element.None? && r.Some? ==>
      r.value == HighScorePrefix + SourceScore(source).value.0 + "_" + runId + ".json"
  {
    match element
    case Some(text) =>
      if ContainsAny(text, HighMarks) then Some(HighScorePrefix + runId + ".json") else None
    case None =>
      match SourceScore(source)
      case None => None
      case Some((text, d)) =>
        if Value(d) >= SaveThreshold then Some(HighScorePrefix + text + "_" + runId + ".json") else None
  }

  /** A file named with a captured score is a candidate of `load_best_cookies`
      with the captured value. */
  lemma ScoredFileIsCandidate(text: string, d: Decimal, runId: string)
    requires !Contains(text, "_") && ParseFloat(text) == Some(d)
    ensures CandidateScore(HighScorePrefix + text + "_" + runId + ".json") == Some(Value(d))
  {
    ScoredName(text, runId, d);
  }

  /** How the files this check writes fare in `load_best_cookies` of
      advanced_score_detector.py: the file written after an element was found
      has no score field and is never a candidate, while the file written from
      the page source is a candidate whose score is the value that passed the
      threshold. */
  lemma SavedFilesAsCandidates(element: Option<string>, source: string, runId: string)
    requires !Contains(runId, "_")
    requires SaveName(element, source, runId).Some?
    ensures element.Some? ==> CandidateScore(SaveName(element, source, runId).value).None?
    ensures element.None? ==>
      && CandidateScore(SaveName(element, source, runId).value) == Some(Value(SourceScore(source).value.1))
      && CandidateScore(SaveName(element, source, runId).value).value >= SaveThreshold
  {
    if element.Some? {
      UnscoredNameNeverParses(runId);
    } else {
      var found := SourceScore(source).value;
      ScoredFileIsCandidate(found.0, found.1, runId);
    }
  }
}

=== FILE: motion.dfy ===
/** Mouse motion of `natural_mouse_movement` (advanced_score_detector.py:54-181,
    score_detector.py:22-128): a quadratic Bezier path from a start to an end
    point, jittered most in the middle and clamped to the viewport, walked with
    slow steps near both ends and fast ones in the middle. Every random draw is
    a parameter. */
module Motion {
  import opened Common

  datatype Viewport = Viewport(width: nat, height: nat)

  datatype Point = Point(x: real, y: real)

  predicate InViewport(v: Viewport, p: Point) {
    0.0 <= p.x <= v.width as real && 0.0 <= p.y <= v.height as real
  }

  /** `max(0, min(width, x))` and the same for `y`. */
  function ClampToViewport(v: Viewport, p: Point): (q: Point)
    ensures InViewport(v, q)
    ensures InViewport(v, p) ==> q == p
    ensures p.x < 0.0 ==> q.x == 0.0
    ensures p.x > v.width as real ==> q.x == v.width as real
  {
    Point(Clamp(p.x, 0.0, v.width as real), Clamp(p.y, 0.0, v.height as real))
  }

  /** The jitter amplitudes: `randint(-25, 25)` in advanced_score_detector.py,
      `randint(-20, 20)` in score_detector.py. */
  const AdvancedJitter: int := 25
  const BasicJitter: int := 20

  /** How far the control point may stray from the midpoint (`randint(-100, 100)`). */
  const ControlSpread: int := 100

  /** The four draws made for one sample: the jitter in x and y and the control
      point's offset in x and y (the control point is drawn afresh per sample). */
  datatype Draw = Draw(jx: int, jy: int, cx: int, cy: int)

  predicate ValidDraw(d: Draw, jitter: int) {
    && -jitter <= d.jx <= jitter && -jitter <= d.jy <= jitter
    && -ControlSpread <= d.cx <= ControlSpread && -ControlSpread <= d.cy <= ControlSpread
  }

  function Abs(x: real): real { if x < 0.0 then -x else x }

  /** `i / (num_points - 1)`. */
  function Progress(i: nat, n: nat): (t: real)
    requires i < n && n >= 2
    ensures 0.0 <= t <= 1.0
    ensures t == 0.0 <==> i == 0
    ensures t == 1.0 <==> i == n - 1
  {
    i as real / (n - 1) as real
  }

  /** `1 - abs(2 * progress - 1)`: no jitter at either end, full jitter halfway. */
  function JitterWeight(t: real): (w: real)
    requires 0.0 <= t <= 1.0
    ensures 0.0 <= w <= 1.0
    ensures w == 0.0 <==> t == 0.0 || t == 1.0
    ensures w == 1.0 <==> t == 0.5
    ensures w == 2.0 * Min(t, 1.0 - t)
  {
    1.0 - Abs(2.0 * t - 1.0)
  }

  /** A weighted average of three values at least `lo` is at least `lo`. */
  lemma ConvexLower(p: real, q: real, r: real, a: real, c: real, b: real, lo: real)
    requires 0.0 <= p && 0.0 <= q && 0.0 <= r && p + q + r == 1.0
    requires lo <= a && lo <= c && lo <= b
    ensures lo <= p * a + q * c + r * b
  {
    MulMono(p, lo, a);
    MulMono(q, lo, c);
    MulMono(r, lo, b);
    AddLe(p * lo, p * a, q * lo, q * c, r * lo, r * b);
    assert p * lo + q * lo + r * lo == (p + q + r) * lo;
  }

  lemma AddLe(x1: real, y1: real, x2: real, y2: real, x3: real, y3: real)
    requires x1 <= y1 && x2 <= y2 && x3 <= y3
    ensures x1 + x2 + x3 <= y1 + y2 + y3
  {
  }

  /** A weighted average of three values lies within their range. */
  lemma Convex(p: real, q: real, r: real, a: real, c: real, b: real)
    requires 0.0 <= p && 0.0 <= q && 0.0 <= r && p + q + r == 1.0
    ensures Min(a, Min(b, c)) <= p * a + q * c + r * b <= Max(a, Max(b, c))
  {
    ConvexLower(p, q, r, a, c, b, Min(a, Min(b, c)));
    var hi := Max(a, Max(b, c));
    ConvexLower(p, q, r, -a, -c, -b, -hi);
    assert p * -a + q * -c + r * -b == -(p * a + q * c + r * b);
  }

  /** The quadratic Bezier curve from `a` through control `c` to `b`: it starts at
      `a`, ends at `b`, and never leaves the range the three points span. */
  function Bezier(a: real, c: real, b: real, t: real): (x: real)
    requires 0.0 <= t <= 1.0
    ensures t == 0.0 ==> x == a
    ensures t == 1.0 ==> x == b
    ensures Min(a, Min(b, c)) <= x <= Max(a, Max(b, c))
  {
    var u := 1.0 - t;
    assert u * u + 2.0 * u * t + t * t == 1.0 by {
      assert (u + t) * (u + t) == u * u + 2.0 * u * t + t * t;
    }
    MulMono(u, 0.0, u);
    MulMono(t, 0.0, t);
    MulMono(2.0 * u, 0.0, t);
    Convex(u * u, 2.0 * u * t, t * t, a, c, b);
    u * u * a + 2.0 * u * t * c + t * t * b
  }

  /** The jitter added at progress `t` for a draw `j`: `j * (1 - |2t - 1|)`. */
  function Jitter(j: int, t: real): real
    requires 0.0 <= t <= 1.0
  {
    j as real * JitterWeight(t)
  }

  /** The jitter is at most the amplitude times the weight, so it vanishes at
      both ends of the path. */
  lemma JitterBounded(j: int, jitter: int, t: real)
    requires -jitter <= j <= jitter && 0.0 <= t <= 1.0
    ensures Abs(Jitter(j, t)) <= jitter as real * JitterWeight(t)
    ensures t == 0.0 || t == 1.0 ==> Jitter(j, t) == 0.0
  {
    var w := JitterWeight(t);
    MulMono(w, j as real, jitter as real);
    MulMono(w, -(jitter as real), j as real);
    assert w * j as real == Jitter(j, t);
    assert w * -(jitter as real) == -(w * jitter as real);
  }

  /** The sample at progress `t` before clamping: the start at `t = 0` and the
      end at `t = 1`, whatever was drawn. */
  function RawPoint(start: Point, end: Point, d: Draw, t: real): (p: Point)
    requires 0.0 <= t <= 1.0
    ensures t == 0.0 ==> p == start
    ensures t == 1.0 ==> p == end
  {
    var cx := (start.x + end.x) / 2.0 + d.cx as real;
    var cy := (start.y + end.y) / 2.0 + d.cy as real;
    Point(Bezier(start.x, cx, end.x, t) + Jitter(d.jx, t),
          Bezier(start.y, cy, end.y, t) + Jitter(d.jy, t))
  }

  /** The points of lines 123-144: `n` samples, each clamped to the viewport.
      With `n == 1` Python divides by zero, so that case is excluded. */
  function MousePath(v: Viewport, start: Point, end: Point, draws: seq<Draw>, n: nat): (path: seq<Point>)
    requires |draws| == n && n != 1
    ensures |path| == n
    ensures forall i | 0 <= i < n :: InViewport(v, path[i])
    ensures n >= 2 && InViewport(v, start) ==> path[0] == start
    ensures n >= 2 ==> path[n - 1] == ClampToViewport(v, end)
    ensures forall i | 0 <= i < n :: path[i] == ClampToViewport(v, RawPoint(start, end, draws[i], Progress(i, n)))
  {
    seq(n, i requires 0 <= i < n => ClampToViewport(v, RawPoint(start, end, draws[i], Progress(i, n))))
  }

  // ---------------------------------------------------------------- delays

  /** The two speeds of lines 147-153. */
  datatype Bucket = Slow | Fast

  function BucketOf(i: nat, n: nat): (b: Bucket)
    requires i < n && n >= 2
    ensures i == 0 || i == n - 1 ==> b == Slow
  {
    var t := Progress(i, n);
    if t < 0.2 || t > 0.8 then Slow else Fast
  }

  /** `random.uniform(lo, hi)` for the bucket, with the draw `u` in [0, 1]. */
  function StepDelay(b: Bucket, u: real): (delay: real)
    requires 0.0 <= u <= 1.0
    ensures b == Slow ==> 0.01 <= delay <= 0.03
    ensures b == Fast ==> 0.005 <= delay <= 0.01
  {
    match b
    case Slow => 0.01 + 0.02 * u
    case Fast => 0.005 + 0.005 * u
  }

  /** Every slow step lasts at least as long as every fast one. */
  lemma SlowNotFaster(u: real, u': real)
    requires 0.0 <= u <= 1.0 && 0.0 <= u' <= 1.0
    ensures StepDelay(Slow, u) >= StepDelay(Fast, u')
  {
  }

  predicate UnitDraws(us: seq<real>) { forall i | 0 <= i < |us| :: 0.0 <= us[i] <= 1.0 }

  /** The time the walk over points `k..n` sleeps. `moved[i]` is whether the move
      script ran; advanced_score_detector.py skips the sleep of a failed move
      (`continue` in its except), score_detector.py sleeps regardless. */
  function WalkTime(n: nat, us: seq<real>, moved: seq<bool>, sleepOnFailure: bool, k: nat): (total: real)
    requires n >= 2 && |us| == n && |moved| == n && k <= n && UnitDraws(us)
    ensures 0.0 <= total <= 0.03 * (n - k) as real
    ensures sleepOnFailure ==> total >= 0.005 * (n - k) as real
    decreases n - k
  {
    if k == n then 0.0
    else
      var rest := WalkTime(n, us, moved, sleepOnFailure, k + 1);
      if moved[k] || sleepOnFailure then StepDelay(BucketOf(k, n), us[k]) + rest else rest
  }

  /** A walk that skips the sleeps of failed moves never takes longer than one
      that keeps them, and takes just as long when no move fails. */
  lemma {:induction false} SkippingSleepsIsFaster(n: nat, us: seq<real>, moved: seq<bool>, k: nat)
    requires n >= 2 && |us| == n && |moved| == n && k <= n && UnitDraws(us)
    ensures WalkTime(n, us, moved, false, k) <= WalkTime(n, us, moved, true, k)
    ensures (forall i | k <= i < n :: moved[i]) ==> WalkTime(n, us, moved, false, k) == WalkTime(n, us, moved, true, k)
    decreases n - k
  {
    if k < n {
      SkippingSleepsIsFaster(n, us, moved, k + 1);
    }
  }

  // ---------------------------------------------------------------- micro-movements

  /** The offset of one micro-move: `randint(-20, 20)` in each direction. */
  datatype Nudge = Nudge(dx: int, dy: int)

  const MicroReach: int := 20

  predicate ValidNudge(n: Nudge) {
    -MicroReach <= n.dx <= MicroReach && -MicroReach <= n.dy <= MicroReach
  }

  /** The path of the micro-movements of advanced_score_detector.py:65-92 when
      every dispatch goes through: from a start in the viewport, each step adds
      an offset and clamps. The event is dispatched at the position before the
      step, so the dispatched points are the start and then every clamped
      position but the last. */
  function MicroPath(v: Viewport, start: Point, steps: seq<Nudge>): (dispatched: seq<Point>)
    requires InViewport(v, start)
    ensures |dispatched| == |steps|
    ensures |steps| > 0 ==> dispatched[0] == start
    ensures forall i | 0 <= i < |dispatched| :: InViewport(v, dispatched[i])
    ensures (forall i | 0 <= i < |steps| :: ValidNudge(steps[i])) ==> SmallSteps(dispatched)
    decreases |steps|
  {
    if |steps| == 0 then []
    else
      var next := MicroStep(v, start, steps[0]);
      var rest := MicroPath(v, next, steps[1..]);
      PathCons(v, start, steps, rest);
      [start] + rest
  }

  /** One micro-move: add the step's offset and clamp to the viewport. */
  function MicroStep(v: Viewport, p: Point, d: Nudge): Point {
    ClampToViewport(v, Point(p.x + d.dx as real, p.y + d.dy as real))
  }

  /** Consecutive points never lie farther apart than a micro-move reaches. */
  predicate SmallSteps(ps: seq<Point>) {
    forall i | 0 < i < |ps| ::
      Abs(ps[i].x - ps[i - 1].x) <= MicroReach as real && Abs(ps[i].y - ps[i - 1].y) <= MicroReach as real
  }

  /** The path from `start` is `start` followed by the path from the next point. */
  lemma PathCons(v: Viewport, start: Point, steps: seq<Nudge>, rest: seq<Point>)
    requires InViewport(v, start) && |steps| > 0
    requires |rest| == |steps| - 1
    requires |rest| > 0 ==> rest[0] == MicroStep(v, start, steps[0])
    requires forall i | 0 <= i < |rest| :: InViewport(v, rest[i])
    requires (forall i | 0 <= i < |steps| - 1 :: ValidNudge(steps[1..][i])) ==> SmallSteps(rest)
    ensures forall i | 0 <= i < |[start] + rest| :: InViewport(v, ([start] + rest)[i])
    ensures (forall i | 0 <= i < |steps| :: ValidNudge(steps[i])) ==> SmallSteps([start] + rest)
  {
    var ps := [start] + rest;
    if forall i | 0 <= i < |steps| :: ValidNudge(steps[i]) {
      assert forall i | 0 <= i < |steps| - 1 :: steps[1..][i] == steps[i + 1];
      assert SmallSteps(rest);
      StepWithin(v, start, steps[0]);
      forall i | 0 < i < |ps|
        ensures Abs(ps[i].x - ps[i - 1].x) <= MicroReach as real && Abs(ps[i].y - ps[i - 1].y) <= MicroReach as real
      {
        if i > 1 {
          assert ps[i] == rest[i - 1] && ps[i - 1] == rest[i - 2];
        }
      }
    }
  }

  /** One micro-move stays within reach of the point it starts from:
      clamping to the viewport only brings a point closer to one inside it. */
  lemma StepWithin(v: Viewport, start: Point, d: Nudge)
    requires InViewport(v, start) && ValidNudge(d)
    ensures var next := MicroStep(v, start, d);
      Abs(next.x - start.x) <= MicroReach as real && Abs(next.y - start.y) <= MicroReach as real
  {
  }

  /** How a run of micro-movements ends: the points whose event was dispatched,
      and whether a dispatch raised. */
  datatype MicroRun = MicroRun(dispatched: seq<Point>, raised: bool)

  /** The micro-movements as the source runs them: `raises(p)` says whether the
      script dispatched at `p` raises (`elementFromPoint` finds no element
      there, or the driver fails). Nothing catches it, so the first raise ends
      the run and leaves `natural_mouse_movement`. */
  function MicroMoves(v: Viewport, start: Point, steps: seq<Nudge>, raises: Point -> bool): (r: MicroRun)
    requires InViewport(v, start)
    ensures |r.dispatched| <= |steps|
    ensures r.dispatched == MicroPath(v, start, steps)[..|r.dispatched|]
    ensures r.raised <==> |r.dispatched| < |steps|
    ensures r.raised ==> raises(MicroPath(v, start, steps)[|r.dispatched|])
    ensures forall i | 0 <= i < |r.dispatched| :: !raises(r.dispatched[i])
    decreases |steps|
  {
    if |steps| == 0 then MicroRun([], false)
    else if raises(start) then MicroRun([], true)
    else
      var next := MicroStep(v, start, steps[0]);
      var rest := MicroMoves(v, next, steps[1..], raises);
      assert MicroPath(v, start, steps) == [start] + MicroPath(v, next, steps[1..]);
      MicroRun([start] + rest.dispatched, rest.raised)
  }
}

=== FILE: reading.dfy ===
/** The reading simulators: `simulate_reading` of advanced_score_detector.py:245-361,
    which spends a drawn time budget T dwelling on elements, and `simulate_reading`
    of score_detector.py:193-231, which dwells on a few distinct visible elements.
    Time is an abstract elapsed counter that advances only when the code sleeps. */
module Reading {
  import opened Common
  import opened Text
  import opened Decimals

  // ---------------------------------------------------------------- advanced_score_detector.py

  /** `min(count, max(3, int(T / 2)))`: how many elements the loop visits at most. */
  function ElementsToRead(budget: real, count: nat): (n: nat)
    ensures n <= count
    ensures count >= 3 ==> n >= 3
    ensures budget >= 0.0 ==> n as real <= Max(3.0, budget / 2.0)
  {
    var half := Truncate(budget / 2.0);
    var want := if half > 3 then half else 3;
    if count <= want then count else want
  }

  /** `min(8.0, max(1.0, text_length / reading_speed))`, the text length
      defaulting to 100 when it cannot be read. */
  function Dwell(textLength: Option<nat>, speed: real): (t: real)
    requires 3.0 <= speed <= 5.0
    ensures 1.0 <= t <= 8.0
    ensures textLength.Some? && 1.0 <= textLength.value as real / speed <= 8.0 ==> t == textLength.value as real / speed
    ensures textLength.None? ==> t == 8.0
  {
    var len := textLength.GetOr(100);
    DefaultLengthIsLong(speed);
    Min(8.0, Max(1.0, len as real / speed))
  }

  /** With a reading speed of at most 5 characters per second, the default
      length of 100 takes at least 20 seconds. */
  lemma DefaultLengthIsLong(speed: real)
    requires 3.0 <= speed <= 5.0
    ensures 100.0 / speed >= 20.0
  {
    var q := 100.0 / speed;
    assert q >= 0.0;
    assert q * speed == 100.0;
    assert q * speed <= q * 5.0;
  }

  /** What one visit did, as the exceptions and draws decided:
      the element was not present and the script path ran (`dwell` drawn from
      [1, 3]) or raised before sleeping; the selector path ran (text length, or
      None when reading it raised; reading speed from [3, 5]; whether the 0.5 s
      scroll nudge ran) or raised before sleeping; or `is_element_present` itself
      raised, which leaves the loop for the outer handler. */
  datatype Visit =
    | ViaScript(dwell: real)
    | ScriptFailed
    | ViaSelector(textLength: Option<nat>, speed: real, nudged: bool)
    | SelectorFailed
    | Aborted

  predicate ValidVisit(v: Visit) {
    match v
    case ViaScript(d) => 1.0 <= d <= 3.0
    case ViaSelector(_, s, _) => 3.0 <= s <= 5.0
    case _ => true
  }

  /** The time one visit sleeps. */
  function VisitTime(v: Visit): (t: real)
    requires ValidVisit(v)
    ensures 0.0 <= t <= 8.5
    ensures v.ViaSelector? ==> t >= 1.0
    ensures v.ScriptFailed? || v.SelectorFailed? || v.Aborted? ==> t == 0.0
  {
    match v
    case ViaScript(d) => d
    case ViaSelector(len, s, nudged) => Dwell(len, s) + (if nudged then 0.5 else 0.0)
    case _ => 0.0
  }

  /** `simulate_reading(sb, min_time, max_time)` with the drawn budget `budget`.
      `count` is the number of text elements, None when counting raises;
      `visits` are the outcomes of the visits the loop may make. Returns the
      time spent and the number of visits started. */
  method SimulateReading(budget: real, count: Option<nat>, visits: seq<Visit>)
    returns (elapsed: real, started: nat)
    requires count.Some? ==> |visits| >= ElementsToRead(budget, count.value)
    requires forall i | 0 <= i < |visits| :: ValidVisit(visits[i])
    ensures elapsed >= budget
    ensures elapsed >= 0.0
    ensures elapsed <= Max(budget, 0.0) + 8.5
    ensures count.None? || count == Some(0) ==> elapsed == Max(budget, 0.0) && started == 0
    ensures count.Some? ==> started <= ElementsToRead(budget, count.value)
  {
    elapsed := 0.0;
    started := 0;
    if count.None? || count.value == 0 {
      // sleeping a negative time raises, and the handler then waits nothing
      elapsed := Max(budget, 0.0);
      return;
    }
    var n := ElementsToRead(budget, count.value);
    var i := 0;
    while i < n
      invariant 0 <= i <= n && started == i
      invariant 0.0 <= elapsed <= Max(budget, 0.0) + 8.5
    {
      if elapsed > budget {
        break;
      }
      started := started + 1;
      if visits[i].Aborted? {
        break;
      }
      elapsed := elapsed + VisitTime(visits[i]);
      i := i + 1;
    }
    // the remaining wait, on the normal path and in the handler alike
    if budget - elapsed > 0.0 {
      elapsed := budget;
    }
  }

  // ---------------------------------------------------------------- score_detector.py

  /** `min(max_time, max(min_time, text_length / 100))`. */
  function ReadingTime(textLength: nat, minTime: real, maxTime: real): (t: real)
    requires minTime <= maxTime
    ensures minTime <= t <= maxTime
    ensures minTime <= textLength as real / 100.0 <= maxTime ==> t == textLength as real / 100.0
  {
    Min(maxTime, Max(minTime, textLength as real / 100.0))
  }

  /** A text element as the driver reports it: whether it is visible (None when
      asking raises) and its text. */
  datatype TextElement = TextElement(visible: Option<bool>, text: string)

  predicate Readable(e: TextElement) {
    e.visible == Some(true) && Strip(e.text) != []
  }

  /** The filter of lines 202-209: visible elements with non-blank text, in order. */
  function VisibleTexts(es: seq<TextElement>): (vs: seq<TextElement>)
    ensures |vs| <= |es|
    ensures forall i | 0 <= i < |vs| :: Readable(vs[i]) && vs[i] in es
    ensures forall e | e in es && Readable(e) :: e in vs
  {
    if |es| == 0 then []
    else
      var rest := VisibleTexts(es[1..]);
      if Readable(es[0]) then [es[0]] + rest else rest
  }

  /** `simulate_reading(sb, min_time, max_time)` of score_detector.py: `want` is
      `randint(2, 5)` and `picks` the positions `random.sample` chose among the
      readable elements. `reached[i]` says whether scrolling to pick `i` and
      moving the mouse to it went through; when either raises, the loop moves on
      without reading that element. Returns the reading time of each pick, None
      for a pick that was skipped. */
  function BasicReading(es: seq<TextElement>, minTime: real, maxTime: real, want: nat, picks: seq<nat>, reached: seq<bool>)
    : (times: seq<Option<real>>)
    requires minTime <= maxTime && 2 <= want <= 5
    requires |picks| == (if want <= |VisibleTexts(es)| then want else |VisibleTexts(es)|)
    requires Distinct(picks) && forall i | 0 <= i < |picks| :: picks[i] < |VisibleTexts(es)|
    requires |reached| == |picks|
    ensures |times| == |picks| && |times| <= 5 && |times| <= |VisibleTexts(es)|
    ensures (forall e | e in es :: !Readable(e)) ==> times == []
    ensures forall i | 0 <= i < |times| :: times[i].Some? <==> reached[i]
    ensures forall i | 0 <= i < |times| && times[i].Some? ::
      && minTime <= times[i].value <= maxTime
      && times[i].value == ReadingTime(|VisibleTexts(es)[picks[i]].text|, minTime, maxTime)
  {
    var vs := VisibleTexts(es);
    if |vs| == 0 then []
    else
      assert vs[0] in es && Readable(vs[0]);
      TimesOf(vs, picks, reached, minTime, maxTime)
  }

  /** The reading time of each picked element that was reached. */
  function TimesOf(vs: seq<TextElement>, picks: seq<nat>, reached: seq<bool>, minTime: real, maxTime: real)
    : (times: seq<Option<real>>)
    requires minTime <= maxTime && |reached| == |picks| && forall i | 0 <= i < |picks| :: picks[i] < |vs|
    ensures |times| == |picks|
    ensures forall i | 0 <= i < |times| :: times[i].Some? <==> reached[i]
    ensures forall i | 0 <= i < |times| && times[i].Some? ::
      minTime <= times[i].value <= maxTime && times[i].value == ReadingTime(|vs[picks[i]].text|, minTime, maxTime)
  {
    seq(|picks|, i requires 0 <= i < |picks| =>
      if reached[i] then Some(ReadingTime(|vs[picks[i]].text|, minTime, maxTime)) else None)
  }
}

=== FILE: score_extractor.dfy ===
/** `extract_score` of advanced_score_detector.py:1566-1675: four ways of
    reading the score off the result page, tried in order. The regular
    expressions it uses are written out here as leftmost, greedy scanners. */
module ScoreExtractor {
  import opened Common
  import opened Text
  import opened Decimals

  /** The text of the first score element present, with the trailing space the split uses. */
  const ElementMarker: string := "Your score is: "

  /** The literal that starts the first regular expression. */
  const ScoreMarker: string := "Your score is:"

  // ---------------------------------------------------------------- scanning helpers

  /** The class `[\d\.]`. */
  predicate IsScoreChar(c: char) { IsDigit(c) || c == '.' }

  /** Where `\s*` stops when it starts at `i`. */
  function SkipSpaces(s: string, i: nat): (j: nat)
    requires i <= |s|
    ensures i <= j <= |s|
    ensures forall k | i <= k < j :: IsSpace(s[k])
    ensures j == |s| || !IsSpace(s[j])
    decreases |s| - i
  {
    if i == |s| || !IsSpace(s[i]) then i else SkipSpaces(s, i + 1)
  }

  /** Where `[\d\.]*` stops when it starts at `i`. */
  function ScoreRunEnd(s: string, i: nat): (j: nat)
    requires i <= |s|
    ensures i <= j <= |s|
    ensures forall k | i <= k < j :: IsScoreChar(s[k])
    ensures j == |s| || !IsScoreChar(s[j])
    decreases |s| - i
  {
    if i == |s| || !IsScoreChar(s[i]) then i else ScoreRunEnd(s, i + 1)
  }

  /** Where `\d*` stops when it starts at `i`. */
  function DigitRunEnd(s: string, i: nat): (j: nat)
    requires i <= |s|
    ensures i <= j <= |s|
    ensures forall k | i <= k < j :: IsDigit(s[k])
    ensures j == |s| || !IsDigit(s[j])
    decreases |s| - i
  {
    if i == |s| || !IsDigit(s[i]) then i else DigitRunEnd(s, i + 1)
  }

  /** A run of digits ended by a non-digit (or the end) is exactly what `\d*` takes. */
  lemma DigitRunExact(s: string, i: nat, j: nat)
    requires i <= j <= |s|
    requires forall k | i <= k < j :: IsDigit(s[k])
    requires j == |s| || !IsDigit(s[j])
    ensures DigitRunEnd(s, i) == j
    decreases j - i
  {
    if i < j {
      DigitRunExact(s, i + 1, j);
    }
  }

  /** Matching `piece0\s*piece1\s*...` from `i`: where the capture group would
      start. Each `\s*` is followed by a literal, by `[\d\.]` or by `\d`, none
      of which matches a space, so giving back spaces never helps and the
      greedy skip is the only candidate. */
  function MatchPieces(s: string, pieces: seq<string>, i: nat): (j: Option<nat>)
    requires i <= |s|
    ensures j.Some? ==> i <= j.value <= |s|
    ensures j.Some? && |pieces| > 0 ==> OccursAt(s, pieces[0], i)
    ensures j.Some? && |pieces| == 1 ==>
      && i + |pieces[0]| <= j.value
      && (forall k | i + |pieces[0]| <= k < j.value :: IsSpace(s[k]))
      && (j.value == |s| || !IsSpace(s[j.value]))
    decreases |pieces|
  {
    if |pieces| == 0 then Some(i)
    else if i + |pieces[0]| <= |s| && OccursAt(s, pieces[0], i) then
      MatchPieces(s, pieces[1..], SkipSpaces(s, i + |pieces[0]|))
    else None
  }

  /** The capture group a pattern ends with: `([\d\.]+)` in advanced_score_detector.py,
      `(\d+\.\d+)` in score_detector.py. */
  datatype Group = ScoreChars | DecimalDigits

  /** Text `\d+\.\d+` matches in full: digits, one point, digits. */
  predicate IsDecimalText(c: string) {
    exists a | 0 < a < |c| - 1 :: c[a] == '.' && AllDigits(c[..a]) && AllDigits(c[a + 1..])
  }

  /** A capture of `\d+\.\d+` is always a literal `float` accepts, and it has no sign. */
  lemma DecimalCaptureParses(c: string)
    requires IsDecimalText(c)
    ensures ParseFloat(c).Some?
    ensures !ParseFloat(c).value.negative && Value(ParseFloat(c).value) >= 0.0
  {
    var a :| 0 < a < |c| - 1 && c[a] == '.' && AllDigits(c[..a]) && AllDigits(c[a + 1..]);
    assert c == c[..a] + "." + c[a + 1..];
    ParsePlain(c[..a], c[a + 1..]);
    NonNegative(ParseFloat(c).value);
  }

  /** A match of the pattern: where it starts, and the text of its capture group. */
  datatype Hit = Hit(at: nat, start: nat, capture: string)

  /** Where the capture group ends when it starts at `j`, if it matches there
      (greedy; for `\d+\.\d+` the first run cannot give back digits to reach a
      point, so backtracking finds nothing the greedy scan misses). */
  function GroupEnd(s: string, group: Group, j: nat): (e: Option<nat>)
    requires j <= |s|
    ensures e.Some? ==> j < e.value <= |s|
    ensures e.Some? ==> forall k | j <= k < e.value :: IsScoreChar(s[k])
    ensures e.Some? && group == ScoreChars ==> e.value == |s| || !IsScoreChar(s[e.value])
    ensures e.Some? && group == DecimalDigits ==>
      && IsDecimalText(s[j..e.value])
      && (e.value == |s| || !IsDigit(s[e.value]))
  {
    match group
    case ScoreChars =>
      var e := ScoreRunEnd(s, j);
      if e > j then Some(e) else None
    case DecimalDigits =>
      var a := DigitRunEnd(s, j);
      if a > j && a < |s| && s[a] == '.' then
        var e := DigitRunEnd(s, a + 1);
        if e > a + 1 then
          var c := s[j..e];
          assert c[a - j] == '.' && c[..a - j] == s[j..a] && c[a - j + 1..] == s[a + 1..e];
          Some(e)
        else None
      else None
  }

  /** `\d+\.\d` matches at `j`: digits, a point, and a digit follow. */
  predicate DecimalStarts(s: string, j: nat) {
    exists a | j < a < |s| - 1 :: AllDigits(s[j..a]) && s[a] == '.' && IsDigit(s[a + 1])
  }

  /** The group matches at `j` whenever the regular expression's group would:
      `[\d\.]+` when a digit or point follows, `\d+\.\d+` when digits, a point
      and a digit follow. */
  lemma GroupEndComplete(s: string, group: Group, j: nat)
    requires j <= |s|
    ensures group == ScoreChars ==> (GroupEnd(s, group, j).Some? <==> j < |s| && IsScoreChar(s[j]))
    ensures group == DecimalDigits ==> (GroupEnd(s, group, j).Some? <==> DecimalStarts(s, j))
  {
    DecimalStartsAt(s, j);
  }

  /** The greedy digit run reaches the point exactly when `\d+\.\d` matches at `j`. */
  lemma DecimalStartsAt(s: string, j: nat)
    requires j <= |s|
    ensures var a := DigitRunEnd(s, j);
      DecimalStarts(s, j) <==> j < a < |s| - 1 && s[a] == '.' && IsDigit(s[a + 1])
  {
    var a := DigitRunEnd(s, j);
    if DecimalStarts(s, j) {
      var b :| j < b < |s| - 1 && AllDigits(s[j..b]) && s[b] == '.' && IsDigit(s[b + 1]);
      assert forall k | j <= k < b :: IsDigit(s[k]) by {
        forall k | j <= k < b ensures IsDigit(s[k]) { assert s[j..b][k - j] == s[k]; }
      }
      DigitRunExact(s, j, b);
    }
    if j < a < |s| - 1 && s[a] == '.' && IsDigit(s[a + 1]) {
      assert AllDigits(s[j..a]);
    }
  }

  /** The pattern `piece0\s*...` followed by its group, matched at `p`, if it matches there. */
  function MatchAt(s: string, pieces: seq<string>, group: Group, p: nat): (h: Option<Hit>)
    requires p <= |s|
    ensures h.Some? ==> h.value.at == p
    ensures h.Some? ==>
      var c := h.value;
      && c.start + |c.capture| <= |s|
      && s[c.start..c.start + |c.capture|] == c.capture
      && |c.capture| > 0
      && (forall k | 0 <= k < |c.capture| :: IsScoreChar(c.capture[k]))
    ensures h.Some? && group == ScoreChars ==>
      var c := h.value;
      c.start + |c.capture| == |s| || !IsScoreChar(s[c.start + |c.capture|])
    ensures h.Some? && group == DecimalDigits ==>
      var c := h.value;
      IsDecimalText(c.capture) && (c.start + |c.capture| == |s| || !IsDigit(s[c.start + |c.capture|]))
    ensures h.Some? && |pieces| > 0 ==> OccursAt(s, pieces[0], p)
  {
    match MatchPieces(s, pieces, p)
    case None => None
    case Some(j) =>
      match GroupEnd(s, group, j)
      case None => None
      case Some(e) => Some(Hit(p, j, s[j..e]))
  }

  /** The pattern matches at `p` exactly when its pieces do and its group
      matches where they end. */
  lemma MatchAtComplete(s: string, pieces: seq<string>, group: Group, p: nat)
    requires p <= |s|
    ensures MatchAt(s, pieces, group, p).Some? <==>
      MatchPieces(s, pieces, p).Some? && GroupEnd(s, group, MatchPieces(s, pieces, p).value).Some?
  {
  }

  /** `re.search(pattern, s)` from position `from` on: the first position that matches. */
  function SearchFrom(s: string, pieces: seq<string>, group: Group, from: nat): Option<Hit>
    requires from <= |s| + 1
    decreases |s| + 1 - from
  {
    if from > |s| then None
    else
      var here := MatchAt(s, pieces, group, from);
      if here.Some? then here else SearchFrom(s, pieces, group, from + 1)
  }

  /** The search finds the leftmost match, and nothing only when no position matches. */
  lemma {:induction false} SearchFromLeftmost(s: string, pieces: seq<string>, group: Group, from: nat)
    requires from <= |s| + 1
    ensures var h := SearchFrom(s, pieces, group, from);
      h.Some? ==> from <= h.value.at <= |s| && MatchAt(s, pieces, group, h.value.at) == h
    ensures var h := SearchFrom(s, pieces, group, from);
      h.Some? ==> forall q | from <= q < h.value.at :: MatchAt(s, pieces, group, q).None?
    ensures SearchFrom(s, pieces, group, from).None? ==> forall q | from <= q <= |s| :: MatchAt(s, pieces, group, q).None?
    decreases |s| + 1 - from
  {
    if from <= |s| {
      var here := MatchAt(s, pieces, group, from);
      if here.None? {
        SearchFromLeftmost(s, pieces, group, from + 1);
        var h := SearchFrom(s, pieces, group, from + 1);
        assert SearchFrom(s, pieces, group, from) == h;
        if h.Some? {
          forall q | from <= q < h.value.at ensures MatchAt(s, pieces, group, q).None? {
            if q == from { assert MatchAt(s, pieces, group, q) == here; }
          }
        } else {
          forall q | from <= q <= |s| ensures MatchAt(s, pieces, group, q).None? {
            if q == from { assert MatchAt(s, pieces, group, q) == here; }
          }
        }
      } else {
        assert SearchFrom(s, pieces, group, from) == here;
      }
    }
  }

  /** `re.search(pattern, s)`. */
  function Search(s: string, pieces: seq<string>, group: Group): (h: Option<Hit>)
    ensures h.Some? ==> h.value.at <= |s| && MatchAt(s, pieces, group, h.value.at) == h
    ensures h.Some? ==> forall q | 0 <= q < h.value.at :: MatchAt(s, pieces, group, q).None?
    ensures h.None? ==> forall q | 0 <= q <= |s| :: MatchAt(s, pieces, group, q).None?
  {
    SearchFromLeftmost(s, pieces, group, 0);
    SearchFrom(s, pieces, group, 0)
  }

  /** `float(m.group(1))` of a search for `pieces` followed by `([\d\.]+)`, or
      None when there is no match or the captured text is not a literal (for
      instance "1.2.3" or "."). */
  function SearchScore(s: string, pieces: seq<string>): (r: Option<Decimal>)
    ensures r.Some? ==> Search(s, pieces, ScoreChars).Some? && ParseFloat(Search(s, pieces, ScoreChars).value.capture) == r
    ensures r.Some? ==> !r.value.negative && Value(r.value) >= 0.0
    ensures Search(s, pieces, ScoreChars).Some? ==> r == ParseFloat(Search(s, pieces, ScoreChars).value.capture)
    ensures Search(s, pieces, ScoreChars).None? ==> r.None?
  {
    match Search(s, pieces, ScoreChars)
    case None => None
    case Some(h) =>
      var r := ParseFloat(h.capture);
      if r.Some? then CaptureUnsigned(h.capture); r else None
  }

  /** A capture of `[\d\.]+` has no sign, so what it parses to is not negative. */
  lemma CaptureUnsigned(c: string)
    requires |c| > 0 && forall k | 0 <= k < |c| :: IsScoreChar(c[k])
    requires ParseFloat(c).Some?
    ensures !ParseFloat(c).value.negative && Value(ParseFloat(c).value) >= 0.0
  {
    assert !IsSpace(c[0]) && !IsSpace(c[|c| - 1]);
    StripNoSpace(c);
    assert c[0] != '-';
    NonNegative(ParseFloat(c).value);
  }

  // ---------------------------------------------------------------- the four methods

  /** Method 1: `float(text.split("Your score is: ")[1].strip())` when the marker
      (with its trailing space) is in the element text. */
  function ElementScore(text: string): (r: Option<Decimal>)
    ensures r.Some? ==> Contains(text, ElementMarker)
    ensures Contains(text, ElementMarker) ==> r == ParseFloat(Strip(Before(After(text, ElementMarker), ElementMarker)))
  {
    SplitFirst(text, ElementMarker);
    if Contains(text, ElementMarker) then
      SplitFirst(After(text, ElementMarker), ElementMarker);
      ParseFloat(Strip(Split(text, ElementMarker)[1]))
    else None
  }

  /** The patterns of method 3, in the order they are tried: `Your score is:\s*`,
      `score is:\s*`, `score:\s*`, `score\s*=\s*`, each followed by `([\d\.]+)`. */
  const SourcePatterns: seq<seq<string>> := [["Your score is:"], ["score is:"], ["score:"], ["score", "="]]

  /** What each pattern of method 3 finds in the page source, in order. */
  function PatternScores(source: string): (found: seq<Option<Decimal>>)
    ensures |found| == |SourcePatterns|
    ensures forall j | 0 <= j < |SourcePatterns| :: found[j] == SearchScore(source, SourcePatterns[j])
  {
    seq(|SourcePatterns|, j requires 0 <= j < |SourcePatterns| => SearchScore(source, SourcePatterns[j]))
  }

  /** The loop of method 3 from pattern `k` on: the first pattern whose match
      parses, with its index. */
  function FirstScore(found: seq<Option<Decimal>>, k: nat): (r: Option<(nat, Decimal)>)
    requires k <= |found|
    ensures r.Some? ==> k <= r.value.0 < |found| && found[r.value.0] == Some(r.value.1)
    ensures r.Some? ==> forall j | k <= j < r.value.0 :: found[j].None?
    ensures r.None? <==> forall j | k <= j < |found| :: found[j].None?
    decreases |found| - k
  {
    if k == |found| then None
    else if found[k].Some? then Some((k, found[k].value))
    else FirstScore(found, k + 1)
  }

  /** `s` is a match of `0\.[1-9][0-9]?`. */
  predicate IsLikely(m: string) {
    && (|m| == 3 || |m| == 4)
    && m[0] == '0' && m[1] == '.' && '1' <= m[2] <= '9'
    && (|m| == 4 ==> IsDigit(m[3]))
  }

  /** The length of the match of `0\.[1-9][0-9]?` at `p` (greedy on the last
      digit), or 0 when it does not match there. */
  function LikelyAt(s: string, p: nat): (n: nat)
    requires p <= |s|
    ensures n == 0 || (p + n <= |s| && IsLikely(s[p..p + n]))
  {
    if p + 3 <= |s| && s[p] == '0' && s[p + 1] == '.' && '1' <= s[p + 2] <= '9' then
      if p + 4 <= |s| && IsDigit(s[p + 3]) then 4 else 3
    else 0
  }

  /** `re.findall(r"0\.[1-9][0-9]?", s[p:])`: non-overlapping matches, left to right. */
  function FindLikely(s: string, p: nat): (ms: seq<string>)
    requires p <= |s|
    ensures forall i | 0 <= i < |ms| :: IsLikely(ms[i])
    ensures |ms| == 0 <==> forall q | p <= q < |s| :: LikelyAt(s, q) == 0
    decreases |s| - p
  {
    if p == |s| then []
    else
      var n := LikelyAt(s, p);
      if n > 0 then [s[p..p + n]] + FindLikely(s, p + n)
      else FindLikely(s, p + 1)
  }

  /** `m` is the match that starts at some position at or after `p`. */
  predicate StartsAtOrAfter(s: string, p: nat, m: string) {
    exists q: nat | p <= q && q + |m| <= |s| :: LikelyAt(s, q) == |m| && m == s[q..q + |m|]
  }

  /** Every match the scan returns is the match starting at some position of
      the scanned suffix. */
  lemma {:induction false} FindLikelyPresent(s: string, p: nat)
    requires p <= |s|
    ensures forall m | m in FindLikely(s, p) :: StartsAtOrAfter(s, p, m)
    decreases |s| - p
  {
    if p < |s| {
      var n := LikelyAt(s, p);
      var next := if n > 0 then p + n else p + 1;
      var rest := FindLikely(s, next);
      FindLikelyPresent(s, next);
      forall m | m in rest ensures StartsAtOrAfter(s, p, m) {
        var q: nat :| next <= q && q + |m| <= |s| && LikelyAt(s, q) == |m| && m == s[q..q + |m|];
      }
      if n > 0 {
        var m0 := s[p..p + n];
        assert StartsAtOrAfter(s, p, m0) by {
          assert LikelyAt(s, p) == |m0|;
        }
        assert FindLikely(s, p) == [m0] + rest;
      }
    }
  }

  /** Positions where no match starts are skipped without effect. */
  lemma {:induction false} FindLikelySkips(s: string, p: nat, q0: nat)
    requires p <= q0 <= |s|
    requires forall q | p <= q < q0 :: LikelyAt(s, q) == 0
    ensures FindLikely(s, p) == FindLikely(s, q0)
    decreases q0 - p
  {
    if p < q0 {
      assert LikelyAt(s, p) == 0;
      FindLikelySkips(s, p + 1, q0);
    }
  }

  /** The first match returned is the one at the leftmost position where a
      match starts, and the scan resumes right after it. */
  lemma FindLikelyLeftmost(s: string, p: nat, q0: nat)
    requires p <= q0 < |s|
    requires forall q | p <= q < q0 :: LikelyAt(s, q) == 0
    requires LikelyAt(s, q0) > 0
    ensures FindLikely(s, p) == [s[q0..q0 + LikelyAt(s, q0)]] + FindLikely(s, q0 + LikelyAt(s, q0))
  {
    FindLikelySkips(s, p, q0);
  }

  /** Matches do not overlap: in "0.10.5" the "0.5" that starts inside the
      first match is not returned. */
  lemma NonOverlappingExample()
    ensures FindLikely("0.10.5", 0) == ["0.10"]
  {
    var s := "0.10.5";
    assert LikelyAt(s, 0) == 4;
    assert s[0..4] == "0.10";
    assert LikelyAt(s, 4) == 0 && LikelyAt(s, 5) == 0;
    FindLikelySkips(s, 4, 6);
  }

  /** The literal a likely match denotes. */
  function LikelyScore(m: string): (d: Decimal)
    requires IsLikely(m)
    ensures 0.1 <= Value(d) <= 0.99
  {
    var d := Decimal(false, "0", m[2..]);
    LikelyBounds(m);
    d
  }

  lemma LikelyBounds(m: string)
    requires IsLikely(m)
    ensures 0.1 <= Value(Decimal(false, "0", m[2..])) <= 0.99
  {
    var f := m[2..];
    assert DigitsValue("0") == 0;
    if |m| == 3 {
      assert f == [m[2]];
      assert DigitsValue(f) == DigitValue(m[2]);
    } else {
      assert f[..1] == [m[2]];
      assert DigitsValue(f) == 10 * DigitValue(m[2]) + DigitValue(m[3]);
    }
  }

  /** `float(m)` of a likely match is the literal `LikelyScore(m)`. */
  lemma LikelyParses(m: string)
    requires IsLikely(m)
    ensures ParseFloat(m) == Some(LikelyScore(m))
  {
    assert m == "0" + "." + m[2..];
    ParsePlain("0", m[2..]);
  }

  /** `max(float(m) for m in ms)`: the first of the largest. */
  function MaxLikely(ms: seq<string>): (d: Decimal)
    requires |ms| > 0 && forall i | 0 <= i < |ms| :: IsLikely(ms[i])
    ensures exists i | 0 <= i < |ms| :: d == LikelyScore(ms[i])
    ensures forall i | 0 <= i < |ms| :: Value(LikelyScore(ms[i])) <= Value(d)
    ensures 0.1 <= Value(d) <= 0.99
  {
    if |ms| == 1 then LikelyScore(ms[0])
    else
      var rest := MaxLikely(ms[1..]);
      assert forall i | 1 <= i < |ms| :: ms[i] == ms[1..][i - 1];
      if Value(rest) > Value(LikelyScore(ms[0])) then rest else LikelyScore(ms[0])
  }

  // ---------------------------------------------------------------- extract_score

  /** Which of the four methods produced the score. */
  datatype Via = ElementText | Script | PageSource(pattern: nat) | LikelyValue

  datatype Extraction = Extraction(via: Via, score: Decimal)

  /** What the browser shows: the text of the first element the XPath list
      finds (None when none is present), the text the script returns (None
      for null or an error), and the page source. When reading the page source
      raises (advanced_score_detector.py:1635), the outer handler of lines
      1673-1675 returns None. Methods 1 and 2 have yielded nothing by then, so
      that page is written with its element and script text and the empty
      source, which yields None as well (`UnreadableSource`). */
  datatype Page = Page(element: Option<string>, scriptText: Option<string>, source: string)

  /** Methods 3 and 4 of `extract_score`, reached when the element and the
      script gave nothing: the page-source patterns in order, then the largest
      likely value, which needs the debug screenshot to have been saved. */
  function FromSource(source: string, screenshotSaved: bool): (r: Option<Extraction>)
    ensures r.Some? ==> r.value.via.PageSource? || r.value.via.LikelyValue?
    ensures r.Some? && r.value.via.PageSource? ==>
      && r.value.via.pattern < |SourcePatterns|
      && SearchScore(source, SourcePatterns[r.value.via.pattern]) == Some(r.value.score)
      && forall j | 0 <= j < r.value.via.pattern :: SearchScore(source, SourcePatterns[j]).None?
    ensures r.Some? && r.value.via.LikelyValue? ==>
      && screenshotSaved
      && (forall j | 0 <= j < |SourcePatterns| :: SearchScore(source, SourcePatterns[j]).None?)
      && 0.1 <= Value(r.value.score) <= 0.99
      && forall m | m in FindLikely(source, 0) :: Value(LikelyScore(m)) <= Value(r.value.score)
    ensures r.Some? && r.value.via.LikelyValue? ==> exists m | m in FindLikely(source, 0) :: r.value.score == LikelyScore(m)
    ensures r.None? <==>
      && (forall j | 0 <= j < |SourcePatterns| :: SearchScore(source, SourcePatterns[j]).None?)
      && (!screenshotSaved || forall q | 0 <= q < |source| :: LikelyAt(source, q) == 0)
  {
    match PatternHit(source)
    case Some((k, d)) => Some(Extraction(PageSource(k), d))
    case None =>
      match LikelyValueOf(source, screenshotSaved)
      case Some(d) => Some(Extraction(LikelyValue, d))
      case None => None
  }

  /** Method 3: the first source pattern whose match parses, with its index. */
  function PatternHit(source: string): (r: Option<(nat, Decimal)>)
    ensures r.Some? ==>
      && r.value.0 < |SourcePatterns|
      && SearchScore(source, SourcePatterns[r.value.0]) == Some(r.value.1)
      && forall j | 0 <= j < r.value.0 :: SearchScore(source, SourcePatterns[j]).None?
    ensures r.None? ==> forall j | 0 <= j < |SourcePatterns| :: SearchScore(source, SourcePatterns[j]).None?
  {
    FirstScore(PatternScores(source), 0)
  }

  /** Method 4: the largest `0.[1-9][0-9]?` token of the page source, provided
      the screenshot before it was saved. */
  function LikelyValueOf(source: string, screenshotSaved: bool): (r: Option<Decimal>)
    ensures r.Some? ==>
      && screenshotSaved
      && 0.1 <= Value(r.value) <= 0.99
      && forall m | m in FindLikely(source, 0) :: Value(LikelyScore(m)) <= Value(r.value)
    ensures r.Some? ==> exists m | m in FindLikely(source, 0) :: r.value == LikelyScore(m)
    ensures r.None? <==> !screenshotSaved || forall q | 0 <= q < |source| :: LikelyAt(source, q) == 0
  {
    var ms := FindLikely(source, 0);
    if !screenshotSaved || |ms| == 0 then None
    else
      var best := MaxLikely(ms);
      assert forall m | m in ms :: Value(LikelyScore(m)) <= Value(best);
      assert exists m | m in ms :: best == LikelyScore(m);
      Some(best)
  }

  /** A page whose element and script yield nothing and whose source is empty
      yields None: the model of a page source that could not be read. */
  lemma UnreadableSource(element: Option<string>, scriptText: Option<string>, screenshotSaved: bool)
    requires ElementResult(Page(element, scriptText, "")).None?
    requires ScriptResult(Page(element, scriptText, "")).None?
    ensures ExtractScore(Page(element, scriptText, ""), screenshotSaved).None?
  {
  }

  /** What method 1 yields: the element text's score, if there is an element. */
  function ElementResult(page: Page): Option<Decimal> {
    if page.element.Some? then ElementScore(page.element.value) else None
  }

  /** What method 2 yields: the score in the script's text, if it returned one. */
  function ScriptResult(page: Page): Option<Decimal> {
    if page.scriptText.Some? then SearchScore(page.scriptText.value, [ScoreMarker]) else None
  }

  /** `extract_score(sb)`. `screenshotSaved` is false when saving the debug
      screenshot raises, which ends the function with None before method 4. */
  function ExtractScore(page: Page, screenshotSaved: bool): (r: Option<Extraction>)
    ensures page.element.Some? && ElementScore(page.element.value).Some? ==>
      r == Some(Extraction(ElementText, ElementScore(page.element.value).value))
    ensures r.Some? && r.value.via.Script? ==>
      && page.scriptText.Some?
      && SearchScore(page.scriptText.value, [ScoreMarker]) == Some(r.value.score)
    ensures r.Some? && r.value.via.PageSource? ==>
      && r.value.via.pattern < |SourcePatterns|
      && SearchScore(page.source, SourcePatterns[r.value.via.pattern]) == Some(r.value.score)
      && forall j | 0 <= j < r.value.via.pattern :: SearchScore(page.source, SourcePatterns[j]).None?
    ensures r.Some? && r.value.via.LikelyValue? ==>
      && screenshotSaved
      && (forall j | 0 <= j < |SourcePatterns| :: SearchScore(page.source, SourcePatterns[j]).None?)
      && 0.1 <= Value(r.value.score) <= 0.99
      && forall m | m in FindLikely(page.source, 0) :: Value(LikelyScore(m)) <= Value(r.value.score)
    ensures r.Some? && !r.value.via.ElementText? ==> Value(r.value.score) >= 0.0
    ensures r.None? ==>
      && (forall j | 0 <= j < |SourcePatterns| :: SearchScore(page.source, SourcePatterns[j]).None?)
      && (!screenshotSaved || forall q | 0 <= q < |page.source| :: LikelyAt(page.source, q) == 0)
    ensures r.Some? && r.value.via.ElementText? ==> ElementResult(page) == Some(r.value.score)
    ensures ElementResult(page).None? && ScriptResult(page).Some? ==>
      r == Some(Extraction(Script, ScriptResult(page).value))
    ensures ElementResult(page).None? && ScriptResult(page).None? ==> r == FromSource(page.source, screenshotSaved)
  {
    var viaElement := ElementResult(page);
    var viaScript := ScriptResult(page);
    if viaElement.Some? then Some(Extraction(ElementText, viaElement.value))
    else if viaScript.Some? then Some(Extraction(Script, viaScript.value))
    else FromSource(page.source, screenshotSaved)
  }
}

=== FILE: score_history.dfy ===
/** analyze_scores.py: reading a profile's score history, summarising a cookie
    file by domain, and breaking the high scores down by time of day and by
    weekday. Scores are exact decimals; times are the calendar fields that
    `datetime.strptime` accepts. */
module ScoreHistory {
  import opened Common
  import opened Text
  import opened Decimals
  import opened ScoreExtractor
  import opened SessionCache

  // ---------------------------------------------------------------- calendar

  /** A `datetime` as far as the analysis looks at it. */
  datatype Stamp = Stamp(year: int, month: int, day: int, hour: int, minute: int, second: int)

  /** One entry of a score history: when, and which score. */
  datatype Entry = Entry(stamp: Stamp, score: Decimal)

  predicate IsLeap(y: int) { y % 4 == 0 && (y % 100 != 0 || y % 400 == 0) }

  function DaysInMonth(y: int, m: int): (n: int)
    requires 1 <= m <= 12
    ensures 28 <= n <= 31
    ensures m == 2 ==> (n == 29 <==> IsLeap(y))
  {
    if m == 2 then (if IsLeap(y) then 29 else 28)
    else if m == 4 || m == 6 || m == 9 || m == 11 then 30
    else 31
  }

  /** The fields `datetime` accepts: years 1 to 9999, a real day of the
      month, and a time of day with seconds below 60. */
  predicate ValidStamp(st: Stamp) {
    && 1 <= st.year <= 9999
    && 1 <= st.month <= 12
    && 1 <= st.day <= DaysInMonth(st.year, st.month)
    && 0 <= st.hour <= 23
    && 0 <= st.minute <= 59
    && 0 <= st.second <= 59
  }

  /** Days in the months of year `y` before month `m`. */
  function DaysBeforeMonth(y: int, m: int): (n: int)
    requires 1 <= m <= 12
    ensures 0 <= n <= 31 * (m - 1)
    decreases m
  {
    if m == 1 then 0 else DaysBeforeMonth(y, m - 1) + DaysInMonth(y, m - 1)
  }

  /** Days in the years before year `y`, counted from 1 January of year 1. */
  function DaysBeforeYear(y: int): int
    requires y >= 1
  {
    var z := y - 1;
    365 * z + z / 4 - z / 100 + z / 400
  }

  /** `date.toordinal()`: 1 January of year 1 is day 1. */
  function Ordinal(st: Stamp): int
    requires ValidStamp(st)
  {
    DaysBeforeYear(st.year) + DaysBeforeMonth(st.year, st.month) + st.day
  }

  /** `datetime.weekday()`: Monday is 0 and Sunday is 6. */
  function Weekday(st: Stamp): (w: int)
    requires ValidStamp(st)
    ensures 0 <= w < 7
  {
    (Ordinal(st) + 6) % 7
  }

  /** The same time on the next calendar day. */
  function NextDay(st: Stamp): (r: Stamp)
    requires ValidStamp(st) && !(st.year == 9999 && st.month == 12 && st.day == 31)
    ensures ValidStamp(r)
  {
    if st.day < DaysInMonth(st.year, st.month) then st.(day := st.day + 1)
    else if st.month < 12 then st.(month := st.month + 1, day := 1)
    else st.(year := st.year + 1, month := 1, day := 1)
  }

  /** Counting multiples of 4, 100 and 400: one more is reached exactly at a multiple. */
  lemma LeapCounts(z: int)
    requires z >= 0
    ensures (z + 1) / 4 == z / 4 + (if (z + 1) % 4 == 0 then 1 else 0)
    ensures (z + 1) / 100 == z / 100 + (if (z + 1) % 100 == 0 then 1 else 0)
    ensures (z + 1) / 400 == z / 400 + (if (z + 1) % 400 == 0 then 1 else 0)
  {
  }

  /** January to November hold 334 days, or 335 in a leap year. */
  lemma ElevenMonths(y: int)
    ensures DaysBeforeMonth(y, 12) == 334 + (if IsLeap(y) then 1 else 0)
  {
    assert DaysBeforeMonth(y, 2) == 31;
    assert DaysBeforeMonth(y, 3) == 59 + (if IsLeap(y) then 1 else 0);
    assert DaysBeforeMonth(y, 5) == DaysBeforeMonth(y, 3) + 61;
    assert DaysBeforeMonth(y, 7) == DaysBeforeMonth(y, 5) + 61;
    assert DaysBeforeMonth(y, 9) == DaysBeforeMonth(y, 7) + 62;
    assert DaysBeforeMonth(y, 11) == DaysBeforeMonth(y, 9) + 61;
  }

  /** A whole year has 365 days, or 366 in a leap year. */
  lemma YearLength(y: int)
    requires y >= 1
    ensures DaysBeforeYear(y + 1) == DaysBeforeYear(y) + (if IsLeap(y) then 366 else 365)
    ensures DaysBeforeMonth(y, 12) + 31 == (if IsLeap(y) then 366 else 365)
  {
    YearDays(y);
    ElevenMonths(y);
  }

  /** The days before year `y + 1` exceed those before `y` by the length of `y`. */
  lemma YearDays(y: int)
    requires y >= 1
    ensures DaysBeforeYear(y + 1) == DaysBeforeYear(y) + (if IsLeap(y) then 366 else 365)
  {
    var z := y - 1;
    LeapCounts(z);
    var a, b, c := (if y % 4 == 0 then 1 else 0), (if y % 100 == 0 then 1 else 0), (if y % 400 == 0 then 1 else 0);
    assert DaysBeforeYear(y + 1) == DaysBeforeYear(y) + 365 + a - b + c;
    DivisorChain(y);
  }

  /** A multiple of 400 is one of 100, and a multiple of 100 one of 4. */
  lemma DivisorChain(y: int)
    ensures y % 400 == 0 ==> y % 100 == 0
    ensures y % 100 == 0 ==> y % 4 == 0
  {
  }

  /** Moving to the next day adds one to the ordinal. */
  lemma NextDayOrdinal(st: Stamp)
    requires ValidStamp(st) && !(st.year == 9999 && st.month == 12 && st.day == 31)
    ensures Ordinal(NextDay(st)) == Ordinal(st) + 1
  {
    if st.day < DaysInMonth(st.year, st.month) {
      assert NextDay(st) == st.(day := st.day + 1);
    } else if st.month < 12 {
      assert NextDay(st) == st.(month := st.month + 1, day := 1);
      MonthStep(st.year, st.month);
    } else {
      NewYearOrdinal(st);
    }
  }

  /** 31 December is followed by day one of the next year's ordinals. */
  lemma NewYearOrdinal(st: Stamp)
    requires ValidStamp(st) && st.month == 12 && st.day == 31 && st.year < 9999
    ensures Ordinal(NextDay(st)) == Ordinal(st) + 1
  {
    var n := st.(year := st.year + 1, month := 1, day := 1);
    assert NextDay(st) == n;
    YearLength(st.year);
    assert Ordinal(n) == DaysBeforeYear(st.year + 1) + 1;
    assert Ordinal(st) == DaysBeforeYear(st.year) + DaysBeforeMonth(st.year, 12) + 31;
  }

  /** The days before month `m + 1` are those before `m` and `m`'s own. */
  lemma MonthStep(y: int, m: int)
    requires 1 <= m < 12
    ensures DaysBeforeMonth(y, m + 1) == DaysBeforeMonth(y, m) + DaysInMonth(y, m)
  {
  }

  lemma ModSevenStep(a: int)
    ensures (a + 1) % 7 == (a % 7 + 1) % 7
  {
  }

  /** Consecutive days have consecutive ordinals, so the weekday advances by
      one each day and the seven weekday buckets follow the calendar. */
  lemma NextDayWeekday(st: Stamp)
    requires ValidStamp(st) && !(st.year == 9999 && st.month == 12 && st.day == 31)
    ensures Ordinal(NextDay(st)) == Ordinal(st) + 1
    ensures Weekday(NextDay(st)) == (Weekday(st) + 1) % 7
  {
    NextDayOrdinal(st);
    ModSevenStep(Ordinal(st) + 6);
  }

  /** Python's numbering: 1 January of year 1 and 1 January 2024 were Mondays (0). */
  lemma WeekdayAnchors()
    ensures Weekday(Stamp(1, 1, 1, 0, 0, 0)) == 0
    ensures Weekday(Stamp(2024, 1, 1, 12, 0, 0)) == 0
  {
    FirstDayMonday();
    NewYear2024Monday();
  }

  lemma FirstDayMonday()
    ensures Weekday(Stamp(1, 1, 1, 0, 0, 0)) == 0
  {
  }

  lemma NewYear2024Monday()
    ensures Weekday(Stamp(2024, 1, 1, 12, 0, 0)) == 0
  {
    assert DaysBeforeYear(2024) == 738885;
  }

  // ---------------------------------------------------------------- history lines

  /** The text between the timestamp and the score. */
  const ScoreTag: string := ": Score "

  /** What `\d{4}-\d{2}-\d{2} \d{2}:\d{2}:\d{2}` wants at offset `k` of a timestamp. */
  predicate StampChar(k: int, c: char) {
    if k == 4 || k == 7 then c == '-'
    else if k == 10 then c == ' '
    else if k == 13 || k == 16 then c == ':'
    else IsDigit(c)
  }

  /** Text the timestamp group matches. */
  predicate StampShape(t: string) {
    |t| == 19 && forall k | 0 <= k < 19 :: StampChar(k, t[k])
  }

  /** A match of the history-line pattern: where it starts, and its two groups. */
  datatype LineHit = LineHit(at: nat, stamp: string, score: string)

  /** `(\d{4}-\d{2}-\d{2} \d{2}:\d{2}:\d{2}): Score (\d+\.\d+)` matched at `p`. */
  function LineMatchAt(s: string, p: nat): (h: Option<LineHit>)
    requires p <= |s|
    ensures h.Some? ==>
      var c := h.value;
      && c.at == p && p + 27 + |c.score| <= |s|
      && c.stamp == s[p..p + 19] && StampShape(c.stamp)
      && s[p + 19..p + 27] == ScoreTag
      && s[p + 27..p + 27 + |c.score|] == c.score && IsDecimalText(c.score)
      && (p + 27 + |c.score| == |s| || !IsDigit(s[p + 27 + |c.score|]))
  {
    if p + 27 <= |s| && StampShape(s[p..p + 19]) && OccursAt(s, ScoreTag, p + 19) then
      match GroupEnd(s, DecimalDigits, p + 27)
      case None => None
      case Some(e) => Some(LineHit(p, s[p..p + 19], s[p + 27..e]))
    else None
  }

  /** The pattern matches at `p` whenever a timestamp-shaped text, ": Score ",
      and digits, a point and a digit follow. */
  lemma LineMatchComplete(s: string, p: nat)
    requires p + 27 <= |s| && StampShape(s[p..p + 19]) && OccursAt(s, ScoreTag, p + 19)
    requires DecimalStarts(s, p + 27)
    ensures LineMatchAt(s, p).Some?
  {
    GroupEndComplete(s, DecimalDigits, p + 27);
  }

  /** `re.search` for the history-line pattern from `from` on: the leftmost match. */
  function LineSearchFrom(s: string, from: nat): (h: Option<LineHit>)
    requires from <= |s| + 1
    ensures h.Some? ==> from <= h.value.at <= |s| && LineMatchAt(s, h.value.at) == h
    ensures h.Some? ==> forall q | from <= q < h.value.at :: LineMatchAt(s, q).None?
    ensures h.None? ==> forall q | from <= q <= |s| :: LineMatchAt(s, q).None?
    decreases |s| + 1 - from
  {
    if from > |s| then None
    else
      var here := LineMatchAt(s, from);
      if here.Some? then
        assert here.value.at == from;
        here
      else LineSearchFrom(s, from + 1)
  }

  /** The fields `strptime(t, '%Y-%m-%d %H:%M:%S')` reads, before validation. */
  function StampFields(t: string): Stamp
    requires |t| == 19
  {
    Stamp(DigitsValue(t[0..4]), DigitsValue(t[5..7]), DigitsValue(t[8..10]),
          DigitsValue(t[11..13]), DigitsValue(t[14..16]), DigitsValue(t[17..19]))
  }

  /** What one line of the history file contributes. */
  datatype LineResult =
    | NoMatch             // the pattern does not occur: the line is skipped
    | Parsed(entry: Entry)
    | Raises              // `strptime` rejects the timestamp: the scan stops

  /** One iteration of the loop in `parse_score_history` (analyze_scores.py:22-29). */
  function ParseLine(line: string): LineResult {
    match LineSearchFrom(line, 0)
    case None => NoMatch
    case Some(h) =>
      var st := StampFields(h.stamp);
      if ValidStamp(st) then
        DecimalCaptureParses(h.score);
        Parsed(Entry(st, ParseFloat(h.score).value))
      else Raises
  }

  /** A line is skipped exactly when the pattern does not occur in it, raises
      exactly when the leftmost match carries a timestamp `datetime` rejects,
      and otherwise yields that timestamp with the float of the captured score,
      which is never negative. */
  lemma ParseLineCases(line: string)
    ensures ParseLine(line).NoMatch? <==> LineSearchFrom(line, 0).None?
    ensures ParseLine(line).Raises? <==>
      LineSearchFrom(line, 0).Some? && !ValidStamp(StampFields(LineSearchFrom(line, 0).value.stamp))
    ensures ParseLine(line).Parsed? ==>
      var h := LineSearchFrom(line, 0).value;
      var e := ParseLine(line).entry;
      && e.stamp == StampFields(h.stamp) && ValidStamp(e.stamp)
      && ParseFloat(h.score) == Some(e.score)
      && !e.score.negative && Value(e.score) >= 0.0
  {
    match LineSearchFrom(line, 0)
    case None =>
    case Some(h) =>
      if ValidStamp(StampFields(h.stamp)) {
        DecimalCaptureParses(h.score);
      }
  }

  /** The loop of `parse_score_history` over what each line contributes: the
      parsed entries in order, up to the first line that raises. */
  function Collect(rs: seq<LineResult>): (r: seq<Entry>)
    ensures |r| <= |rs|
    ensures forall e | e in r :: Parsed(e) in rs
  {
    if |rs| == 0 then []
    else
      match rs[0]
      case NoMatch => Collect(rs[1..])
      case Raises => []
      case Parsed(e) => [e] + Collect(rs[1..])
  }

  /** Collecting in two parts: while the first part raises nothing, the
      entries of the whole are those of the first part followed by those of
      the second; once the first part raises, the second is never reached. */
  lemma {:induction false} CollectAppend(a: seq<LineResult>, b: seq<LineResult>)
    ensures Raises !in a ==> Collect(a + b) == Collect(a) + Collect(b)
    ensures Raises in a ==> Collect(a + b) == Collect(a)
    decreases |a|
  {
    if |a| > 0 {
      assert (a + b)[0] == a[0];
      assert (a + b)[1..] == a[1..] + b;
      CollectAppend(a[1..], b);
      assert a == [a[0]] + a[1..];
    } else {
      assert a + b == b;
    }
  }

  /** What each line of a file contributes. */
  function LineResults(lines: seq<string>): (rs: seq<LineResult>)
    ensures |rs| == |lines| && forall i | 0 <= i < |lines| :: rs[i] == ParseLine(lines[i])
  {
    Map(ParseLine, lines)
  }

  /** `parse_score_history` (analyze_scores.py:16-33) over the file's lines:
      the entries of matching lines in file order, up to the first line whose
      timestamp `strptime` rejects; the exception ends the scan and what was
      collected so far is returned. */
  function ParseHistory(lines: seq<string>): (r: seq<Entry>)
    ensures |r| <= |lines|
    ensures forall e | e in r :: exists i | 0 <= i < |lines| :: ParseLine(lines[i]) == Parsed(e)
  {
    var rs := LineResults(lines);
    var r := Collect(rs);
    assert forall e | e in r :: exists i | 0 <= i < |lines| :: ParseLine(lines[i]) == Parsed(e) by {
      forall e | e in r ensures exists i | 0 <= i < |lines| :: ParseLine(lines[i]) == Parsed(e) {
        var i :| 0 <= i < |rs| && rs[i] == Parsed(e);
      }
    }
    r
  }

  /** Lines are read one at a time, independently of each other. */
  lemma LineResultsAppend(a: seq<string>, b: seq<string>)
    ensures LineResults(a + b) == LineResults(a) + LineResults(b)
  {
    MapAppend(ParseLine, a, b);
  }

  /** Reading a file in two parts: while no line of the first part raises, the
      entries are those of the first part followed by those of the second;
      once a line of the first part raises, the second part is never read. */
  lemma HistoryAppend(a: seq<string>, b: seq<string>)
    ensures Raises !in LineResults(a) ==> ParseHistory(a + b) == ParseHistory(a) + ParseHistory(b)
    ensures Raises in LineResults(a) ==> ParseHistory(a + b) == ParseHistory(a)
  {
    LineResultsAppend(a, b);
    CollectAppend(LineResults(a), LineResults(b));
  }

  // ---------------------------------------------------------------- the writer

  function DigitChar(n: int): char
    requires 0 <= n <= 9
  {
    ('0' as int + n) as char
  }

  /** `n` in `w` digits with leading zeros, as `%Y`, `%m` and the other fields print it. */
  function Pad(n: nat, w: nat): (r: string)
    ensures |r| == w && AllDigits(r)
  {
    if w == 0 then "" else Pad(n / 10, w - 1) + [DigitChar(n % 10)]
  }

  /** Padding loses nothing when the number fits in its width. */
  lemma {:induction false} PadValue(n: nat, w: nat)
    requires n < Pow10(w)
    ensures DigitsValue(Pad(n, w)) == n
    decreases w
  {
    if w > 0 {
      var r := Pad(n, w);
      assert r[..w - 1] == Pad(n / 10, w - 1);
      assert n / 10 < Pow10(w - 1);
      PadValue(n / 10, w - 1);
      assert DigitValue(r[w - 1]) == n % 10;
    }
  }

  /** `strftime("%Y-%m-%d %H:%M:%S")` for a year written with four digits. */
  function FormatStamp(st: Stamp): string
    requires ValidStamp(st) && st.year >= 1000
  {
    Pad(st.year, 4) + "-" + Pad(st.month, 2) + "-" + Pad(st.day, 2) + " "
      + Pad(st.hour, 2) + ":" + Pad(st.minute, 2) + ":" + Pad(st.second, 2)
  }

  /** `strptime` reads back what `strftime` wrote. */
  lemma FormatStampParses(st: Stamp)
    requires ValidStamp(st) && st.year >= 1000
    ensures StampShape(FormatStamp(st)) && StampFields(FormatStamp(st)) == st
  {
    StampLayout(Pad(st.year, 4), Pad(st.month, 2), Pad(st.day, 2),
                Pad(st.hour, 2), Pad(st.minute, 2), Pad(st.second, 2));
    assert Pow10(2) == 100 && Pow10(4) == 10000;
    PadValue(st.year, 4);
    PadValue(st.month, 2);
    PadValue(st.day, 2);
    PadValue(st.hour, 2);
    PadValue(st.minute, 2);
    PadValue(st.second, 2);
  }

  /** Six digit fields joined with the separators of `%Y-%m-%d %H:%M:%S` have
      the timestamp's shape, and each field sits at its fixed offset. */
  lemma StampLayout(y: string, mo: string, d: string, h: string, mi: string, se: string)
    requires |y| == 4 && AllDigits(y)
    requires |mo| == 2 && |d| == 2 && |h| == 2 && |mi| == 2 && |se| == 2
    requires AllDigits(mo) && AllDigits(d) && AllDigits(h) && AllDigits(mi) && AllDigits(se)
    ensures var t := y + "-" + mo + "-" + d + " " + h + ":" + mi + ":" + se;
      && StampShape(t)
      && t[0..4] == y && t[5..7] == mo && t[8..10] == d
      && t[11..13] == h && t[14..16] == mi && t[17..19] == se
  {
    var t := y + "-" + mo + "-" + d + " " + h + ":" + mi + ":" + se;
    assert t[0..4] == y;
    assert t[5..7] == mo;
    assert t[8..10] == d;
    assert t[11..13] == h;
    assert t[14..16] == mi;
    assert t[17..19] == se;
    forall k | 0 <= k < 19 ensures StampChar(k, t[k]) {
      if k < 4 { assert t[k] == y[k]; }
      else if 4 < k < 7 { assert t[k] == mo[k - 5]; }
      else if 7 < k < 10 { assert t[k] == d[k - 8]; }
      else if 10 < k < 13 { assert t[k] == h[k - 11]; }
      else if 13 < k < 16 { assert t[k] == mi[k - 14]; }
      else if 16 < k { assert t[k] == se[k - 17]; }
    }
  }

  /** The line advanced_score_detector.py:957-959 appends to score_history.txt
      after a high score: the time, the score as Python prints the float, and
      the run id. */
  function HistoryLine(st: Stamp, score: Decimal, runId: string): string
    requires ValidStamp(st) && st.year >= 1000
  {
    FormatStamp(st) + ScoreTag + Render(Canonical(score)) + RunTail(runId)
  }

  /** What follows the score on a written line. */
  function RunTail(runId: string): (t: string)
    ensures |t| > 0 && t[0] == ' '
  {
    " (Run ID: " + runId + ")\n"
  }

  /** The score `\d+\.\d+` takes from the start of `w.f` followed by a space. */
  lemma DecimalGroupAt(s: string, j: nat, w: string, f: string)
    requires AllDigits(w) && AllDigits(f) && |w| >= 1 && |f| >= 1
    requires j + |w| + 1 + |f| < |s| && s[j..j + |w| + 1 + |f|] == w + "." + f
    requires s[j + |w| + 1 + |f|] == ' '
    ensures GroupEnd(s, DecimalDigits, j) == Some(j + |w| + 1 + |f|)
  {
    var a := j + |w|;
    var e := a + 1 + |f|;
    forall k | j <= k < a ensures IsDigit(s[k]) {
      assert s[k] == s[j..e][k - j] == w[k - j];
    }
    assert s[a] == s[j..e][|w|] == '.';
    DigitRunExact(s, j, a);
    forall k | a + 1 <= k < e ensures IsDigit(s[k]) {
      assert s[k] == s[j..e][k - j] == f[k - a - 1];
    }
    DigitRunExact(s, a + 1, e);
  }

  /** A timestamp, the tag, a score and a space match the pattern at the start. */
  lemma MatchAtStart(t: string, w: string, f: string, tail: string)
    requires StampShape(t) && AllDigits(w) && AllDigits(f) && |w| >= 1 && |f| >= 1
    requires |tail| > 0 && tail[0] == ' '
    ensures LineMatchAt(t + ScoreTag + (w + "." + f) + tail, 0) == Some(LineHit(0, t, w + "." + f))
  {
    var rc := w + "." + f;
    var line := t + ScoreTag + rc + tail;
    assert line[0..19] == t;
    assert line[19..27] == ScoreTag;
    assert OccursAt(line, ScoreTag, 19);
    assert line[27..27 + |rc|] == rc;
    assert line[27 + |rc|] == tail[0];
    DecimalGroupAt(line, 27, w, f);
  }

  /** A line whose leftmost match has a valid timestamp parses to that match. */
  lemma ParseLineAtStart(line: string, h: LineHit, st: Stamp, d: Decimal)
    requires LineMatchAt(line, 0) == Some(h) && StampFields(h.stamp) == st && ValidStamp(st)
    requires ParseFloat(h.score) == Some(d)
    ensures ParseLine(line) == Parsed(Entry(st, d))
  {
    assert LineSearchFrom(line, 0) == Some(h);
  }

  /** A line made of a valid timestamp, the tag, a score `w.f` and a
      space-led tail parses to that time and score. */
  lemma PartsParse(t: string, st: Stamp, w: string, f: string, d: Decimal, tail: string)
    requires StampShape(t) && StampFields(t) == st && ValidStamp(st)
    requires AllDigits(w) && AllDigits(f) && |w| >= 1 && |f| >= 1
    requires ParseFloat(w + "." + f) == Some(d)
    requires |tail| > 0 && tail[0] == ' '
    ensures ParseLine(t + ScoreTag + (w + "." + f) + tail) == Parsed(Entry(st, d))
  {
    MatchAtStart(t, w, f, tail);
    ParseLineAtStart(t + ScoreTag + (w + "." + f) + tail, LineHit(0, t, w + "." + f), st, d);
  }

  /** Any line made of a valid timestamp, the tag, a rendered non-negative
      score and a space-led tail parses to that time and score. */
  lemma ComposedLineParses(t: string, st: Stamp, c: Decimal, tail: string)
    requires StampShape(t) && StampFields(t) == st && ValidStamp(st)
    requires IsCanonical(c) && !c.negative
    requires |tail| > 0 && tail[0] == ' '
    ensures ParseLine(t + ScoreTag + Render(c) + tail) == Parsed(Entry(st, c))
  {
    var w, f := c.whole, c.frac;
    assert Render(c) == w + "." + f;
    ParseRender(c);
    assert ParseFloat(w + "." + f) == Some(c);
    PartsParse(t, st, w, f, c, tail);
  }

  /** Round trip of the history file: every line the detector writes is read
      back by `parse_score_history` as its time and its score. */
  lemma WrittenLineParses(st: Stamp, score: Decimal, runId: string)
    requires ValidStamp(st) && st.year >= 1000 && WellFormed(score) && !score.negative
    ensures ParseLine(HistoryLine(st, score, runId)) == Parsed(Entry(st, Canonical(score)))
    ensures Value(Canonical(score)) == Value(score)
  {
    CanonicalValue(score);
    FormatStampParses(st);
    ComposedLineParses(FormatStamp(st), st, Canonical(score), RunTail(runId));
  }

  // ---------------------------------------------------------------- tallies

  /** How many times `k` occurs in `ks`: Python's `list.count`. */
  function CountOf(ks: seq<int>, k: int): (n: nat)
    ensures n <= |ks|
  {
    if |ks| == 0 then 0 else (if ks[0] == k then 1 else 0) + CountOf(ks[1..], k)
  }

  /** How many elements of `ks` lie in `[0, n)`. */
  function CountBelow(ks: seq<int>, n: int): nat {
    if |ks| == 0 then 0 else (if 0 <= ks[0] < n then 1 else 0) + CountBelow(ks[1..], n)
  }

  function Sum(xs: seq<nat>): nat {
    if |xs| == 0 then 0 else Sum(xs[..|xs| - 1]) + xs[|xs| - 1]
  }

  /** `{i: ks.count(i) for i in range(n)}`, as a sequence indexed by `i`. */
  function Tally(ks: seq<int>, n: nat): (t: seq<nat>)
    ensures |t| == n && forall i | 0 <= i < n :: t[i] == CountOf(ks, i)
  {
    seq(n, i requires 0 <= i < n => CountOf(ks, i))
  }

  /** One more key adds one to its own count and leaves every other count alone. */
  lemma {:induction false} CountOfAppend(ks: seq<int>, x: int, k: int)
    ensures CountOf(ks + [x], k) == CountOf(ks, k) + (if x == k then 1 else 0)
    decreases |ks|
  {
    if |ks| > 0 {
      assert (ks + [x])[0] == ks[0];
      assert (ks + [x])[1..] == ks[1..] + [x];
      CountOfAppend(ks[1..], x, k);
    } else {
      assert (ks + [x])[1..] == [];
    }
  }

  /** Appending a key to the list bumps exactly that key's entry of the tally. */
  lemma TallyAppend(ks: seq<int>, x: int, n: nat)
    ensures forall i | 0 <= i < n :: Tally(ks + [x], n)[i] == Tally(ks, n)[i] + (if i == x then 1 else 0)
  {
    forall i | 0 <= i < n ensures Tally(ks + [x], n)[i] == Tally(ks, n)[i] + (if i == x then 1 else 0) {
      CountOfAppend(ks, x, i);
    }
  }

  /** Nothing tallied: every count is zero. */
  lemma TallyEmpty(n: nat)
    ensures forall i | 0 <= i < n :: Tally([], n)[i] == 0
  {
  }

  lemma {:induction false} CountBelowStep(ks: seq<int>, n: nat)
    ensures CountBelow(ks, n + 1) == CountBelow(ks, n) + CountOf(ks, n)
    decreases |ks|
  {
    if |ks| > 0 {
      CountBelowStep(ks[1..], n);
    }
  }

  lemma {:induction false} CountBelowAll(ks: seq<int>, n: int)
    requires forall i | 0 <= i < |ks| :: 0 <= ks[i] < n
    ensures CountBelow(ks, n) == |ks|
    decreases |ks|
  {
    if |ks| > 0 {
      CountBelowAll(ks[1..], n);
    }
  }

  lemma {:induction false} TallyBelow(ks: seq<int>, n: nat)
    ensures Sum(Tally(ks, n)) == CountBelow(ks, n)
    decreases n
  {
    if n == 0 {
      assert CountBelow(ks, 0) == 0 by { CountBelowNone(ks); }
    } else {
      assert Tally(ks, n)[..n - 1] == Tally(ks, n - 1);
      TallyBelow(ks, n - 1);
      CountBelowStep(ks, n - 1);
    }
  }

  lemma {:induction false} CountBelowNone(ks: seq<int>)
    ensures CountBelow(ks, 0) == 0
    decreases |ks|
  {
    if |ks| > 0 {
      CountBelowNone(ks[1..]);
    }
  }

  /** A tally over `range(n)` of keys all in that range counts every key once. */
  lemma TallyTotal(ks: seq<int>, n: nat)
    requires forall i | 0 <= i < |ks| :: 0 <= ks[i] < n
    ensures Sum(Tally(ks, n)) == |ks|
  {
    TallyBelow(ks, n);
    CountBelowAll(ks, n);
  }

  // ---------------------------------------------------------------- high-score factors

  /** The default `threshold` of `analyze_high_score_factors`. */
  const DefaultThreshold: real := 0.7

  /** `[s for s in scores if s[1] >= threshold]`. */
  function High(es: seq<Entry>, threshold: real): (r: seq<Entry>)
    ensures |r| <= |es|
  {
    if |es| == 0 then []
    else (if Value(es[0].score) >= threshold then [es[0]] else []) + High(es[1..], threshold)
  }

  /** `[s for s in scores if s[1] < threshold]`. */
  function Low(es: seq<Entry>, threshold: real): (r: seq<Entry>)
    ensures |r| <= |es|
  {
    if |es| == 0 then []
    else (if Value(es[0].score) < threshold then [es[0]] else []) + Low(es[1..], threshold)
  }

  /** The high and the low scores split the list: every entry lands in exactly
      the part its score selects, and the sizes add up. */
  lemma {:induction false} HighLowPartition(es: seq<Entry>, threshold: real)
    ensures |High(es, threshold)| + |Low(es, threshold)| == |es|
    ensures forall e | e in es :: (e in High(es, threshold) <==> Value(e.score) >= threshold)
    ensures forall e | e in es :: (e in Low(es, threshold) <==> Value(e.score) < threshold)
    ensures forall e | e in High(es, threshold) :: e in es
    ensures forall e | e in Low(es, threshold) :: e in es
    decreases |es|
  {
    if |es| > 0 {
      HighLowPartition(es[1..], threshold);
      assert es == [es[0]] + es[1..];
    }
  }

  /** The `time_periods` table in its order: morning, afternoon, evening, night. */
  const PeriodBounds: seq<(int, int)> := [(5, 11), (12, 17), (18, 22), (23, 4)]

  /** The membership test of analyze_scores.py:77-80, with the wrap-around
      branch for a period that crosses midnight. */
  predicate InPeriod(b: (int, int), h: int) {
    if b.0 < b.1 then b.0 <= h <= b.1 else h >= b.0 || h <= b.1
  }

  /** The one period an hour falls in. */
  function PeriodOf(h: int): (i: int)
    ensures 0 <= i < 4
    ensures forall j | 0 <= j < 4 :: InPeriod(PeriodBounds[j], h) <==> j == i
  {
    if 5 <= h <= 11 then 0 else if 12 <= h <= 17 then 1 else if 18 <= h <= 22 then 2 else 3
  }

  /** `len([h for h in hours if <h in the period>])`. */
  function CountInPeriod(hours: seq<int>, b: (int, int)): (n: nat)
    ensures n <= |hours|
  {
    if |hours| == 0 then 0
    else (if InPeriod(b, hours[0]) then 1 else 0) + CountInPeriod(hours[1..], b)
  }

  function PeriodIndices(hours: seq<int>): (ks: seq<int>)
    ensures |ks| == |hours| && forall i | 0 <= i < |hours| :: ks[i] == PeriodOf(hours[i])
  {
    seq(|hours|, i requires 0 <= i < |hours| => PeriodOf(hours[i]))
  }

  /** Counting by the range tests is counting by the period each hour falls in. */
  lemma {:induction false} PeriodCountIsTally(hours: seq<int>, j: int)
    requires 0 <= j < 4
    ensures CountInPeriod(hours, PeriodBounds[j]) == CountOf(PeriodIndices(hours), j)
    decreases |hours|
  {
    if |hours| > 0 {
      PeriodCountIsTally(hours[1..], j);
      assert PeriodIndices(hours)[1..] == PeriodIndices(hours[1..]);
    }
  }

  /** `high_score_periods`, in the order of `PeriodBounds`. */
  function PeriodCounts(hours: seq<int>): (c: seq<nat>)
    ensures |c| == 4
  {
    seq(4, j requires 0 <= j < 4 => CountInPeriod(hours, PeriodBounds[j]))
  }

  /** The four periods partition the day, so their counts add up to the
      number of hours counted. */
  lemma PeriodsCoverAll(hours: seq<int>)
    ensures Sum(PeriodCounts(hours)) == |hours|
  {
    var ks := PeriodIndices(hours);
    forall j | 0 <= j < 4 ensures PeriodCounts(hours)[j] == Tally(ks, 4)[j] {
      PeriodCountIsTally(hours, j);
    }
    assert PeriodCounts(hours) == Tally(ks, 4);
    TallyTotal(ks, 4);
  }

  /** The hours of some entries. */
  function Hours(es: seq<Entry>): (hs: seq<int>)
    ensures |hs| == |es| && forall i | 0 <= i < |es| :: hs[i] == es[i].stamp.hour
  {
    seq(|es|, i requires 0 <= i < |es| => es[i].stamp.hour)
  }

  /** Every entry carries a date `datetime` accepts, as parsed entries do. */
  predicate AllValid(es: seq<Entry>) { forall e | e in es :: ValidStamp(e.stamp) }

  /** The weekdays of some entries. */
  function Weekdays(es: seq<Entry>): (ds: seq<int>)
    requires AllValid(es)
    ensures |ds| == |es| && forall i | 0 <= i < |es| :: ds[i] == Weekday(es[i].stamp) && 0 <= ds[i] < 7
  {
    seq(|es|, i requires 0 <= i < |es| => Weekday(es[i].stamp))
  }

  /** The scores of some entries, as numbers. */
  function Values(es: seq<Entry>): (xs: seq<real>)
    ensures |xs| == |es| && forall i | 0 <= i < |es| :: xs[i] == Value(es[i].score)
  {
    seq(|es|, i requires 0 <= i < |es| => Value(es[i].score))
  }

  /** Python's `sum` of some numbers. */
  function SumOf(xs: seq<real>): real {
    if |xs| == 0 then 0.0 else xs[0] + SumOf(xs[1..])
  }

  /** The least of some numbers. */
  function MinOf(xs: seq<real>): (m: real)
    requires |xs| > 0
    ensures forall i | 0 <= i < |xs| :: m <= xs[i]
    ensures exists i | 0 <= i < |xs| :: m == xs[i]
  {
    if |xs| == 1 then xs[0]
    else
      var rest := MinOf(xs[1..]);
      assert exists i | 1 <= i < |xs| :: rest == xs[i] by {
        var j :| 0 <= j < |xs[1..]| && rest == xs[1..][j];
        assert xs[j + 1] == xs[1..][j];
      }
      Min(xs[0], rest)
  }

  /** The greatest of some numbers. */
  function MaxOf(xs: seq<real>): (m: real)
    requires |xs| > 0
    ensures forall i | 0 <= i < |xs| :: xs[i] <= m
    ensures exists i | 0 <= i < |xs| :: m == xs[i]
  {
    if |xs| == 1 then xs[0]
    else
      var rest := MaxOf(xs[1..]);
      assert exists i | 1 <= i < |xs| :: rest == xs[i] by {
        var j :| 0 <= j < |xs[1..]| && rest == xs[1..][j];
        assert xs[j + 1] == xs[1..][j];
      }
      Max(xs[0], rest)
  }

  /** `n` numbers, each at least `lo`, add up to at least `n * lo`. */
  lemma {:induction false} SumAtLeast(xs: seq<real>, lo: real)
    requires forall i | 0 <= i < |xs| :: lo <= xs[i]
    ensures (|xs| as real) * lo <= SumOf(xs)
    decreases |xs|
  {
    if |xs| > 0 {
      var n := |xs[1..]| as real;
      SumAtLeast(xs[1..], lo);
      assert (n + 1.0) * lo == n * lo + lo;
    }
  }

  /** `n` numbers, each at most `hi`, add up to at most `n * hi`. */
  lemma {:induction false} SumAtMost(xs: seq<real>, hi: real)
    requires forall i | 0 <= i < |xs| :: xs[i] <= hi
    ensures SumOf(xs) <= (|xs| as real) * hi
    decreases |xs|
  {
    if |xs| > 0 {
      var n := |xs[1..]| as real;
      SumAtMost(xs[1..], hi);
      assert (n + 1.0) * hi == n * hi + hi;
    }
  }

  /** A quotient by a positive count lies between the bounds its numerator respects. */
  lemma QuotientBetween(s: real, n: real, lo: real, hi: real)
    requires n > 0.0 && n * lo <= s <= n * hi
    ensures lo <= s / n <= hi
  {
  }

  /** The mean of some numbers lies between any bounds they all respect. */
  lemma MeanWithin(xs: seq<real>, lo: real, hi: real)
    requires |xs| > 0 && forall i | 0 <= i < |xs| :: lo <= xs[i] <= hi
    ensures lo <= SumOf(xs) / (|xs| as real) <= hi
  {
    SumAtLeast(xs, lo);
    SumAtMost(xs, hi);
    QuotientBetween(SumOf(xs), |xs| as real, lo, hi);
  }

  /** The mean of some numbers lies between the least and the greatest. */
  lemma MeanBetween(xs: seq<real>)
    requires |xs| > 0
    ensures MinOf(xs) <= SumOf(xs) / (|xs| as real) <= MaxOf(xs)
  {
    MeanWithin(xs, MinOf(xs), MaxOf(xs));
  }

  /** A share of a total, as a percentage, lies in [0, 100]. */
  lemma PercentageBetween(part: nat, whole: nat)
    requires 0 < whole && part <= whole
    ensures 0.0 <= (part as real) / (whole as real) * 100.0 <= 100.0
  {
    var q := (part as real) / (whole as real);
    QuotientBetween(part as real, whole as real, 0.0, 1.0);
    assert 0.0 <= q <= 1.0;
  }

  /** What `analyze_high_score_factors` returns for a non-empty list; the
      period counts follow `PeriodBounds` and the weekday counts run from
      Monday to Sunday. */
  datatype Report = Report(
    total: nat,
    high: nat,
    percentage: real,
    average: real,
    periods: seq<nat>,
    weekdays: seq<nat>)

  /** `analyze_high_score_factors(scores, threshold)` (analyze_scores.py:55-94);
      None stands for the empty dict returned for an empty list. */
  function AnalyzeFactors(es: seq<Entry>, threshold: real): Option<Report>
    requires AllValid(es)
  {
    if |es| == 0 then None
    else
      var hi := High(es, threshold);
      HighLowPartition(es, threshold);
      var n := |es| as real;
      Some(Report(
        |es|,
        |hi|,
        (|hi| as real) / n * 100.0,
        SumOf(Values(es)) / n,
        PeriodCounts(Hours(hi)),
        Tally(Weekdays(hi), 7)))
  }

  /** The report of a non-empty list: the high scores and the rest partition
      it, the percentage lies in [0, 100], the average lies between the lowest
      and the highest score, and both the four period counts and the seven
      weekday counts add up to the number of high scores. */
  lemma AnalyzeFactorsFacts(es: seq<Entry>, threshold: real)
    requires AllValid(es)
    ensures AnalyzeFactors(es, threshold).None? <==> |es| == 0
    ensures AnalyzeFactors(es, threshold).Some? ==>
      var r := AnalyzeFactors(es, threshold).value;
      && r.total == |es|
      && r.high == |High(es, threshold)|
      && r.high + |Low(es, threshold)| == r.total
      && 0.0 <= r.percentage <= 100.0
      && MinOf(Values(es)) <= r.average <= MaxOf(Values(es))
      && |r.periods| == 4 && Sum(r.periods) == r.high
      && |r.weekdays| == 7 && Sum(r.weekdays) == r.high
  {
    if |es| > 0 {
      var r := AnalyzeFactors(es, threshold).value;
      var hi := High(es, threshold);
      var n := |es| as real;
      HighLowPartition(es, threshold);
      PercentageBetween(|hi|, |es|);
      MeanBetween(Values(es));
      PeriodsCoverAll(Hours(hi));
      TallyTotal(Weekdays(hi), 7);
    }
  }

  // ---------------------------------------------------------------- cookie files

  /** A dict from domain to count, in insertion order as Python keeps it. */
  type DomainCounts = seq<(string, nat)>

  /** `domains.get(k, 0)`. */
  function Lookup(ds: DomainCounts, k: string): nat {
    if |ds| == 0 then 0 else if ds[0].0 == k then ds[0].1 else Lookup(ds[1..], k)
  }

  /** The sum of the dict's values. */
  function Total(ds: DomainCounts): nat {
    if |ds| == 0 then 0 else ds[0].1 + Total(ds[1..])
  }

  /** The dict's keys, in insertion order. */
  function Keys(ds: DomainCounts): (ks: seq<string>)
    ensures |ks| == |ds|
  {
    if |ds| == 0 then [] else [ds[0].0] + Keys(ds[1..])
  }

  /** `domains[k] = domains.get(k, 0) + 1`. */
  function Bump(ds: DomainCounts, k: string): DomainCounts {
    if |ds| == 0 then [(k, 1)]
    else if ds[0].0 == k then [(k, ds[0].1 + 1)] + ds[1..]
    else [ds[0]] + Bump(ds[1..], k)
  }

  /** Bumping a key adds one to it and to the total, leaves every other
      count alone, keeps the place of an existing key and appends a new one. */
  lemma {:induction false} BumpFacts(ds: DomainCounts, k: string)
    ensures Total(Bump(ds, k)) == Total(ds) + 1
    ensures Lookup(Bump(ds, k), k) == Lookup(ds, k) + 1
    ensures forall j | j != k :: Lookup(Bump(ds, k), j) == Lookup(ds, j)
    ensures Keys(Bump(ds, k)) == if k in Keys(ds) then Keys(ds) else Keys(ds) + [k]
    decreases |ds|
  {
    if |ds| > 0 && ds[0].0 != k {
      BumpFacts(ds[1..], k);
      assert Keys(ds) == [ds[0].0] + Keys(ds[1..]);
      assert [ds[0]] + Bump(ds[1..], k) == Bump(ds, k);
      assert Keys(Bump(ds, k)) == [ds[0].0] + Keys(Bump(ds[1..], k));
      if k !in Keys(ds[1..]) {
        assert [ds[0].0] + (Keys(ds[1..]) + [k]) == Keys(ds) + [k];
      }
    } else if |ds| > 0 {
      assert Keys(Bump(ds, k)) == [k] + Keys(ds[1..]);
    }
  }

  /** The loop of analyze_scores.py:43-45 from the dict `ds` on. */
  function CountDomains(ds: DomainCounts, cs: seq<Cookie>): DomainCounts
    decreases |cs|
  {
    if |cs| == 0 then ds else CountDomains(Bump(ds, DomainKey(cs[0])), cs[1..])
  }

  /** `cookie.get('domain', 'unknown')`. */
  function DomainKey(c: Cookie): string {
    c.domain.GetOr("unknown")
  }

  /** How many cookies count under `k`. */
  function CountKey(cs: seq<Cookie>, k: string): (n: nat)
    ensures n <= |cs|
  {
    if |cs| == 0 then 0 else (if DomainKey(cs[0]) == k then 1 else 0) + CountKey(cs[1..], k)
  }

  /** Counting cookies into a dict: the total grows by the number of
      cookies, each key's count grows by the number of cookies under it, and
      keys stay distinct. */
  lemma {:induction false} CountDomainsFacts(ds: DomainCounts, cs: seq<Cookie>)
    ensures Total(CountDomains(ds, cs)) == Total(ds) + |cs|
    ensures forall k :: Lookup(CountDomains(ds, cs), k) == Lookup(ds, k) + CountKey(cs, k)
    ensures Distinct(Keys(ds)) ==> Distinct(Keys(CountDomains(ds, cs)))
    decreases |cs|
  {
    if |cs| > 0 {
      var k := DomainKey(cs[0]);
      BumpFacts(ds, k);
      CountDomainsFacts(Bump(ds, k), cs[1..]);
      if Distinct(Keys(ds)) && k !in Keys(ds) {
        var ks := Keys(ds) + [k];
        assert forall i | 0 <= i < |Keys(ds)| :: ks[i] == Keys(ds)[i];
      }
    }
  }

  /** What `analyze_cookies` returns: the number of cookies and the count per domain. */
  datatype CookieSummary = CookieSummary(total: nat, domains: DomainCounts)

  /** `analyze_cookies(cookie_file)` (analyze_scores.py:35-53) on the parsed
      file (None when it cannot be read or parsed). Iterating a bare list
      counts its cookies. Iterating a record visits its keys, which are
      strings without `.get`, so it fails; so does any other non-empty value,
      while an empty object or string yields an empty summary. */
  function AnalyzeCookies(p: Option<Payload>): Option<CookieSummary> {
    match p
    case None => None
    case Some(BareList(cs)) => Some(CookieSummary(|cs|, CountDomains([], cs)))
    case Some(Record(_, _)) => None
    case Some(Other(isEmpty)) => if isEmpty then Some(CookieSummary(0, [])) else None
  }

  /** A bare list is summarised with its length as the total, the per-domain
      counts add up to that total, each domain, with "unknown" for a cookie
      without one, counts exactly its cookies, and no domain is listed twice;
      a record-format file gives no summary. */
  lemma AnalyzeCookiesFacts(p: Option<Payload>)
    ensures AnalyzeCookies(p).Some? <==> p.Some? && (p.value.BareList? || p.value == Other(true))
    ensures p.Some? && p.value.Record? ==> AnalyzeCookies(p).None?
    ensures p.Some? && p.value.BareList? ==>
      var r := AnalyzeCookies(p).value;
      && r.total == |p.value.cookies|
      && Total(r.domains) == r.total
      && (forall k :: Lookup(r.domains, k) == CountKey(p.value.cookies, k))
      && Distinct(Keys(r.domains))
  {
    if p.Some? && p.value.BareList? {
      CountDomainsFacts([], p.value.cookies);
    }
  }
}

=== FILE: scrolling.dfy ===
/** Scrolling: the easeInOutQuad animation both scroll helpers inject, the
    clamped target of `natural_scrolling` (advanced_score_detector.py:1727-1796),
    and the direction rule of `natural_scroll` / `random_scroll`
    (advanced_score_detector.py:182-243, score_detector.py:130-191). */
module Scrolling {
  import opened Common

  // ---------------------------------------------------------------- easing

  /** `easeInOutQuad(t) = t < 0.5 ? 2t² : -1 + (4 - 2t)t`. */
  function Ease(t: real): real {
    if t < 0.5 then 2.0 * t * t else -1.0 + (4.0 - 2.0 * t) * t
  }

  /** The second branch mirrors the first: `-1 + (4 - 2t)t = 1 - 2(1 - t)²`. */
  lemma EaseUpper(t: real)
    ensures -1.0 + (4.0 - 2.0 * t) * t == 1.0 - 2.0 * (1.0 - t) * (1.0 - t)
  {
  }

  lemma MulNonNegative(a: real, b: real)
    requires 0.0 <= a && 0.0 <= b
    ensures 0.0 <= a * b
  {
  }

  lemma SquareMono(a: real, b: real)
    requires 0.0 <= a <= b
    ensures a * a <= b * b
  {
    assert a * a <= a * b <= b * b;
  }

  /** The curve's fixed points: both branches give 0.5 at the switch, the
      animation starts at 0 and ends at 1, and stays within [0, 1]. */
  lemma EaseFacts(t: real)
    requires 0.0 <= t <= 1.0
    ensures Ease(0.0) == 0.0 && Ease(0.5) == 0.5 && Ease(1.0) == 1.0
    ensures 2.0 * 0.5 * 0.5 == -1.0 + (4.0 - 2.0 * 0.5) * 0.5
    ensures 0.0 <= Ease(t) <= 1.0
    ensures t < 0.5 ==> Ease(t) < 0.5
    ensures t >= 0.5 ==> Ease(t) >= 0.5
  {
    EaseUpper(t);
    if t < 0.5 {
      MulNonNegative(t, t);
      MulNonNegative(t, 0.5 - t);
      assert t * t <= 0.5 * t < 0.25;
    } else {
      SquareMono(1.0 - t, 0.5);
      assert 0.0 <= (1.0 - t) * (1.0 - t);
    }
  }

  /** The curve never moves backwards. */
  lemma EaseMonotone(s: real, t: real)
    requires 0.0 <= s <= t <= 1.0
    ensures Ease(s) <= Ease(t)
  {
    EaseFacts(s);
    EaseFacts(t);
    if t < 0.5 {
      SquareMono(s, t);
    } else if s >= 0.5 {
      EaseUpper(s);
      EaseUpper(t);
      SquareMono(1.0 - t, 1.0 - s);
    }
  }

  /** The curve is point-symmetric about (0.5, 0.5): easing out mirrors easing in. */
  lemma EaseSymmetric(t: real)
    requires 0.0 <= t <= 1.0
    ensures Ease(1.0 - t) == 1.0 - Ease(t)
  {
    EaseUpper(t);
    EaseUpper(1.0 - t);
    assert (1.0 - (1.0 - t)) == t;
  }

  lemma DivFacts(e: real, d: real)
    requires e >= 0.0 && d > 0.0
    ensures e / d >= 0.0
    ensures e >= d ==> e / d >= 1.0
  {
  }

  /** `Math.min(elapsed / duration, 1)`. */
  function AnimationProgress(elapsed: real, duration: real): (t: real)
    requires elapsed >= 0.0 && duration > 0.0
    ensures 0.0 <= t <= 1.0
    ensures elapsed >= duration ==> t == 1.0
  {
    DivFacts(elapsed, duration);
    Min(elapsed / duration, 1.0)
  }

  /** `start + (end - start) * eased`: the position drawn at progress `t`. */
  function AnimatedPosition(start: real, end: real, t: real): (pos: real)
    requires 0.0 <= t <= 1.0
    ensures Min(start, end) <= pos <= Max(start, end)
    ensures t == 0.0 ==> pos == start
    ensures t == 1.0 ==> pos == end
  {
    EaseFacts(t);
    PositionWithin(start, end, Ease(t));
    start + (end - start) * Ease(t)
  }

  /** Moving a fraction of the way from `start` to `end` stays between them. */
  lemma PositionWithin(start: real, end: real, e: real)
    requires 0.0 <= e <= 1.0
    ensures Min(start, end) <= start + (end - start) * e <= Max(start, end)
  {
    PositionVia(start, end, end - start, e);
  }

  /** The same with the distance named, so that the product stays one term. */
  lemma PositionVia(start: real, end: real, d: real, e: real)
    requires 0.0 <= e <= 1.0 && d == end - start
    ensures Min(start, end) <= start + d * e <= Max(start, end)
  {
    ScaleWithin(d, e);
  }

  /** A fraction of a distance lies between zero and the distance. */
  lemma ScaleWithin(d: real, e: real)
    requires 0.0 <= e <= 1.0
    ensures d >= 0.0 ==> 0.0 <= d * e <= d
    ensures d < 0.0 ==> d <= d * e <= 0.0
  {
    if d >= 0.0 {
      assert 0.0 <= d * e <= d * 1.0;
    } else {
      assert 0.0 <= (-d) * e <= (-d) * 1.0;
    }
  }

  /** Frames drawn later are never further from the target than earlier ones:
      the animation moves monotonically from start to end. */
  lemma AnimationMonotone(start: real, end: real, s: real, t: real)
    requires 0.0 <= s <= t <= 1.0
    ensures start <= end ==> AnimatedPosition(start, end, s) <= AnimatedPosition(start, end, t)
    ensures end <= start ==> AnimatedPosition(start, end, s) >= AnimatedPosition(start, end, t)
  {
    EaseMonotone(s, t);
    var d := Ease(t) - Ease(s);
    if start <= end {
      assert (end - start) * Ease(t) - (end - start) * Ease(s) == (end - start) * d;
      MulNonNegative(end - start, d);
    } else {
      assert (end - start) * Ease(t) - (end - start) * Ease(s) == -((start - end) * d);
      MulNonNegative(start - end, d);
    }
  }

  // ---------------------------------------------------------------- natural_scrolling

  function IntMax(a: int, b: int): int { if a >= b then a else b }
  function IntMin(a: int, b: int): int { if a <= b then a else b }

  /** `Math.max(0, Math.min(max_scroll, start + amount))`: inside the scrollable
      range, and exactly the requested position when that is inside it. A page
      shorter than the viewport (`max_scroll < 0`) pins the target to 0. */
  function ScrollTarget(start: int, amount: int, maxScroll: int): (target: int)
    ensures 0 <= target <= IntMax(0, maxScroll)
    ensures 0 <= start + amount <= maxScroll ==> target == start + amount
    ensures maxScroll <= 0 ==> target == 0
    ensures start + amount > maxScroll >= 0 ==> target == maxScroll
  {
    IntMax(0, IntMin(maxScroll, start + amount))
  }

  /** The default amount's range, `randint(int(vh * 0.3), int(vh * 0.7))`. */
  function AmountRange(viewportHeight: nat): (r: (nat, nat))
    ensures r.0 <= r.1 <= viewportHeight
    ensures r.0 as real <= 0.3 * viewportHeight as real < r.0 as real + 1.0
    ensures r.1 as real <= 0.7 * viewportHeight as real < r.1 as real + 1.0
  {
    (viewportHeight * 3 / 10, viewportHeight * 7 / 10)
  }

  /** The default count's range: more scrolls on pages taller than three viewports. */
  function CountRange(pageHeight: int, viewportHeight: nat): (r: (nat, nat))
    ensures 1 <= r.0 <= r.1 <= 7
    ensures pageHeight > viewportHeight * 3 <==> r == (3, 7)
  {
    if pageHeight > viewportHeight * 3 then (3, 7) else (1, 3)
  }

  /** The multiplier for one scroll: "down" scrolls down, "random" takes the
      choice drawn for that scroll, and any other word scrolls up. */
  function DirectionSign(direction: string, choseDown: bool): (sign: int)
    ensures sign == 1 || sign == -1
    ensures direction == "down" ==> sign == 1
    ensures direction != "down" && direction != "random" ==> sign == -1
    ensures direction == "random" ==> (sign == 1 <==> choseDown)
  {
    if direction == "random" then (if choseDown then 1 else -1)
    else if direction == "down" then 1 else -1
  }

  /** The signed amount of one scroll, `scroll_amount * dir_multiplier`. */
  function Signed(direction: string, choseDown: bool, amount: int): int {
    if DirectionSign(direction, choseDown) == 1 then amount else -amount
  }

  /** Where scroll `i > 0` starts: the position read mid-animation, or else the
      previous target. */
  function StartOf(read: Option<int>, previousTarget: int): int {
    if read.Some? then read.value else previousTarget
  }

  /** A read that, if any, lies between `a` and `b`. */
  predicate Fits(read: Option<int>, a: int, b: int) {
    read.None? || Between(read.value, a, b)
  }

  predicate Between(x: int, a: int, b: int) {
    IntMin(a, b) <= x <= IntMax(a, b)
  }

  /** Every position read mid-animation lies on the way of the animation it
      interrupts: between where that scroll started and its target. */
  predicate OnTheWay(midway: seq<Option<int>>, from: seq<int>, targets: seq<int>)
    requires |midway| == |from| == |targets|
  {
    forall i | 0 < i < |midway| :: Fits(midway[i], from[i - 1], targets[i - 1])
  }

  /** `from` and `targets` are where each scroll of the loop started and the
      target it animated to: the first scroll starts at `start`, each later one
      where it read the page, and each target is the clamped position the
      scroll's signed amount away from its start. */
  predicate IsRun(start: int, amount: int, maxScroll: int, direction: string, choices: seq<bool>,
                  midway: seq<Option<int>>, from: seq<int>, targets: seq<int>)
  {
    && |from| == |targets| == |choices| == |midway|
    && (|from| > 0 ==> from[0] == start)
    && (forall i {:trigger midway[i]} | 0 < i < |from| :: from[i] == StartOf(midway[i], targets[i - 1]))
    && (forall i {:trigger targets[i]} | 0 <= i < |targets| ::
          targets[i] == ScrollTarget(from[i], Signed(direction, choices[i], amount), maxScroll))
  }

  /** The loop of lines 1755-1793. Each scroll reads `window.pageYOffset` and
      animates from there to its clamped target, and the source only sleeps
      0.8 to 2 seconds before the next scroll while an animation may take up
      to 1.2 seconds. So `midway[i]` is None when scroll `i` starts after the
      previous animation ended, at its target, and `Some(p)` when it reads the
      position `p` of that animation still running; the first scroll starts
      at `start`. `choices[i]` is the direction drawn for scroll `i` when the
      direction is "random". Returns where each scroll started and its target. */
  method ScrollTargets(start: int, amount: int, maxScroll: int, direction: string, choices: seq<bool>, midway: seq<Option<int>>)
    returns (from: seq<int>, targets: seq<int>)
    requires amount >= 0
    requires |midway| == |choices| && (|midway| > 0 ==> midway[0].None?)
    ensures IsRun(start, amount, maxScroll, direction, choices, midway, from, targets)
    ensures forall i | 0 <= i < |targets| :: 0 <= targets[i] <= IntMax(0, maxScroll)
    ensures direction == "down" && OnTheWay(midway, from, targets) ==>
      forall i | 0 < i < |targets| :: targets[i - 1] <= targets[i]
    ensures direction == "down" && OnTheWay(midway, from, targets) && 0 <= start ==>
      forall i | 0 <= i < |targets| :: start <= targets[i] || targets[i] == IntMax(0, maxScroll)
    ensures direction != "down" && direction != "random" && OnTheWay(midway, from, targets) ==>
      forall i | 0 < i < |targets| :: targets[i] <= targets[i - 1]
  {
    from, targets := [], [];
    var k := 0;
    while k < |choices|
      invariant 0 <= k <= |choices| && |from| == |targets| == k
      invariant k > 0 ==> from[0] == start
      invariant forall i {:trigger midway[i]} | 0 < i < k :: from[i] == StartOf(midway[i], targets[i - 1])
      invariant forall i {:trigger targets[i]} | 0 <= i < k ::
        targets[i] == ScrollTarget(from[i], Signed(direction, choices[i], amount), maxScroll)
    {
      var pos := if k == 0 then start else StartOf(midway[k], targets[k - 1]);
      var next := ScrollTarget(pos, Signed(direction, choices[k], amount), maxScroll);
      from, targets := from + [pos], targets + [next];
      k := k + 1;
    }
    assert IsRun(start, amount, maxScroll, direction, choices, midway, from, targets);
    if direction == "down" {
      RunDownward(start, amount, maxScroll, direction, choices, midway, from, targets);
    } else if direction != "random" {
      RunUpward(start, amount, maxScroll, direction, choices, midway, from, targets);
    }
  }

  /** In a "down" run, every scroll that starts on the way of the one before it
      ends no higher than that one; when all do, no target is above `start`
      unless the page is scrolled to its end. */
  lemma RunDownward(start: int, amount: int, maxScroll: int, direction: string, choices: seq<bool>,
                    midway: seq<Option<int>>, from: seq<int>, targets: seq<int>)
    requires amount >= 0 && direction == "down"
    requires IsRun(start, amount, maxScroll, direction, choices, midway, from, targets)
    ensures forall i | 0 < i < |targets| && Fits(midway[i], from[i - 1], targets[i - 1]) :: targets[i - 1] <= targets[i]
    ensures OnTheWay(midway, from, targets) && 0 <= start ==>
      forall i | 0 <= i < |targets| :: start <= targets[i] || targets[i] == IntMax(0, maxScroll)
  {
    forall i | 0 < i < |targets| && Fits(midway[i], from[i - 1], targets[i - 1])
      ensures targets[i - 1] <= targets[i]
    {
      assert from[i] == StartOf(midway[i], targets[i - 1]);
      assert targets[i - 1] == ScrollTarget(from[i - 1], amount, maxScroll);
      assert targets[i] == ScrollTarget(from[i], amount, maxScroll);
      DownStaysDown(from[i - 1], targets[i - 1], from[i], amount, maxScroll);
    }
    if OnTheWay(midway, from, targets) && 0 <= start && |targets| > 0 {
      ChainFromFirst(targets);
      assert targets[0] == ScrollTarget(start, amount, maxScroll);
    }
  }

  /** In a run of any direction but "down" and "random", every scroll that
      starts on the way of the one before it ends no lower than that one. */
  lemma RunUpward(start: int, amount: int, maxScroll: int, direction: string, choices: seq<bool>,
                  midway: seq<Option<int>>, from: seq<int>, targets: seq<int>)
    requires amount >= 0 && direction != "down" && direction != "random"
    requires IsRun(start, amount, maxScroll, direction, choices, midway, from, targets)
    ensures forall i | 0 < i < |targets| && Fits(midway[i], from[i - 1], targets[i - 1]) :: targets[i] <= targets[i - 1]
  {
    forall i | 0 < i < |targets| && Fits(midway[i], from[i - 1], targets[i - 1])
      ensures targets[i] <= targets[i - 1]
    {
      assert from[i] == StartOf(midway[i], targets[i - 1]);
      assert targets[i - 1] == ScrollTarget(from[i - 1], -amount, maxScroll);
      assert targets[i] == ScrollTarget(from[i], -amount, maxScroll);
      UpStaysUp(from[i - 1], targets[i - 1], from[i], amount, maxScroll);
    }
  }

  /** A sequence that never decreases from one element to the next never
      drops below its first element. */
  lemma {:induction false} ChainFromFirst(xs: seq<int>)
    requires |xs| > 0 && forall i | 0 < i < |xs| :: xs[i - 1] <= xs[i]
    ensures forall i | 0 <= i < |xs| :: xs[0] <= xs[i]
    decreases |xs|
  {
    if |xs| > 1 {
      var init := xs[..|xs| - 1];
      assert forall i | 0 <= i < |init| :: init[i] == xs[i];
      ChainFromFirst(init);
      assert xs[0] <= xs[|xs| - 2] <= xs[|xs| - 1];
    }
  }

  /** A "down" scroll that starts anywhere on the way of the previous one
      never ends above that one's target. */
  lemma DownStaysDown(prevFrom: int, prevTarget: int, pos: int, amount: int, maxScroll: int)
    requires amount >= 0 && prevTarget == ScrollTarget(prevFrom, amount, maxScroll)
    requires Between(pos, prevFrom, prevTarget)
    ensures prevTarget <= ScrollTarget(pos, amount, maxScroll)
  {
  }

  /** An "up" scroll that starts anywhere on the way of the previous one
      never ends below that one's target. */
  lemma UpStaysUp(prevFrom: int, prevTarget: int, pos: int, amount: int, maxScroll: int)
    requires amount >= 0 && prevTarget == ScrollTarget(prevFrom, -amount, maxScroll)
    requires Between(pos, prevFrom, prevTarget)
    ensures ScrollTarget(pos, -amount, maxScroll) <= prevTarget
  {
  }

  /** The scroll-back amount's range, `randint(int(vh * 0.1), int(vh * 0.3))`. */
  function BackRange(viewportHeight: nat): (r: (nat, nat))
    ensures r.0 <= r.1 <= viewportHeight
    ensures r.0 as real <= 0.1 * viewportHeight as real < r.0 as real + 1.0
    ensures r.1 as real <= 0.3 * viewportHeight as real < r.1 as real + 1.0
  {
    (viewportHeight / 10, viewportHeight * 3 / 10)
  }

  /** `natural_scrolling`: the loop's scrolls, then the final position.
      `back` is the scroll-back amount when the 40% draw after a "down" run came
      up (it is ignored for other directions); `window.scrollBy` keeps the
      position inside the scrollable range. `settled` says whether the last
      animation had ended before the scroll-back: when it had not, its
      remaining frames `scrollTo` their positions again, and the page ends at
      the last target whatever the scroll-back did. */
  method NaturalScrolling(start: int, amount: int, maxScroll: int, direction: string, choices: seq<bool>,
                          midway: seq<Option<int>>, back: Option<nat>, settled: bool)
    returns (from: seq<int>, targets: seq<int>, final: int)
    requires amount >= 0
    requires |midway| == |choices| && (|midway| > 0 ==> midway[0].None?)
    ensures IsRun(start, amount, maxScroll, direction, choices, midway, from, targets)
    ensures direction == "down" && OnTheWay(midway, from, targets) ==>
      forall i | 0 < i < |targets| :: targets[i - 1] <= targets[i]
    ensures 0 <= final <= IntMax(0, maxScroll)
    ensures var last := if |targets| == 0 then start else targets[|targets| - 1];
      && (direction != "down" || back.None? || (!settled && |targets| > 0) ==>
            0 <= last <= IntMax(0, maxScroll) ==> final == last)
      && (direction == "down" && back.Some? && (settled || |targets| == 0) ==>
            && (0 <= last - back.value <= maxScroll ==> final == last - back.value)
            && (last - back.value < 0 ==> final == 0)
            && (0 <= last <= maxScroll ==> final <= last))
  {
    from, targets := ScrollTargets(start, amount, maxScroll, direction, choices, midway);
    var last := if |targets| == 0 then start else targets[|targets| - 1];
    if direction == "down" && back.Some? && (settled || |targets| == 0) {
      final := ScrollTarget(last, -(back.value as int), maxScroll);
    } else {
      final := ScrollTarget(last, 0, maxScroll);
    }
  }

  // ---------------------------------------------------------------- natural_scroll / random_scroll

  /** Where the current position lies: within 100 px of the top, within 100 px
      of the bottom, or in between. */
  datatype Zone = NearTop | NearBottom | Middle

  function ZoneOf(position: int, pageHeight: int, viewportHeight: int): (z: Zone)
    ensures z == NearTop <==> position < 100
    ensures z == NearBottom <==> 100 <= position && position > pageHeight - viewportHeight - 100
  {
    if position < 100 then NearTop
    else if position > pageHeight - viewportHeight - 100 then NearBottom
    else Middle
  }

  /** The chance of flipping the expected direction. */
  function FlipChance(z: Zone): real {
    if z == Middle then 0.3 else 0.1
  }

  /** The direction of one scroll: down near the top, up near the bottom, the
      coin `coin` in the middle, then flipped when the draw `flip` falls below
      the zone's chance. Both draws are `random.random()` values. */
  function ScrollDirection(z: Zone, coin: real, flip: real): (dir: int)
    ensures dir == 1 || dir == -1
    ensures z == NearTop ==> (dir == 1 <==> flip >= 0.1)
    ensures z == NearBottom ==> (dir == -1 <==> flip >= 0.1)
    ensures z == Middle ==> (dir == 1 <==> (coin > 0.5) == (flip >= 0.3))
  {
    var base := match z
      case NearTop => 1
      case NearBottom => -1
      case Middle => if coin > 0.5 then 1 else -1;
    if flip < FlipChance(z) then -base else base
  }

  /** `base_amount * direction` with `base_amount = randint(min_pixels, max_pixels)`:
      the signed distance scrolled, whose size lies in the requested range. */
  function ScrollAmount(minPixels: int, maxPixels: int, base: int, dir: int): (amount: int)
    requires minPixels <= base <= maxPixels && (dir == 1 || dir == -1)
    ensures 0 <= minPixels ==> minPixels <= (if amount >= 0 then amount else -amount) <= maxPixels
    ensures base > 0 ==> (amount > 0 <==> dir == 1)
  {
    base * dir
  }
}

=== FILE: session_cache.dfy ===
/** The score-keyed cookie cache of advanced_score_detector.py and
    score_detector.py: saving the browser's cookies with metadata, loading a
    record of either format back into the browser through the domain filter,
    naming high-score files, and choosing the best file by the score in its name. */
module SessionCache {
  import opened Common
  import opened Text
  import opened Decimals

  /** The JSON value stored under a cookie's "expiry" key. */
  datatype Expiry =
    | ExpiryInt(n: int)
    | ExpiryReal(x: real)
    | ExpiryText(s: string)
    | ExpiryBool(b: bool)
    | ExpiryOther            // null, a list or an object: `int()` rejects them

  /** One cookie object as the driver returns it and json stores it. */
  datatype Cookie = Cookie(
    name: string,
    value: string,
    domain: Option<string>,  // None: the object has no "domain" key
    path: Option<string>,
    expiry: Option<Expiry>,  // None: the object has no "expiry" key
    secure: bool,
    httpOnly: bool)

  /** The "metadata" object written next to the cookies. */
  datatype Metadata = Metadata(
    savedFromDomain: string,
    savedFromUrl: string,
    timestamp: string,
    totalCookies: int,
    score: Option<Decimal>,
    runId: Option<string>)

  /** What the "metadata" key of a record holds. */
  datatype Meta =
    | NoMeta                 // no "metadata" key, or an empty object
    | MetaObject(info: Metadata)
    | MetaOther(truthy: bool) // a JSON value that is not an object

  /** A parsed cookie file. */
  datatype Payload =
    | Record(meta: Meta, cookies: seq<Cookie>)  // an object with a "cookies" key (current format)
    | BareList(cookies: seq<Cookie>)           // a list of cookie objects (old format)
    | Other(isEmpty: bool)                      // any other JSON value; isEmpty: an empty object or string

  // ---------------------------------------------------------------- hosts

  /** `url.split('//')[1].split('/')[0]`; None where Python raises IndexError. */
  function HostOf(url: string): Option<string> {
    var parts := Split(url, "//");
    if |parts| < 2 then None else Some(Split(parts[1], "/")[0])
  }

  /** The host is defined exactly when the URL has a "//", and it is the longest
      slash-free prefix of the text after the first "//". */
  lemma HostOfFacts(url: string)
    ensures HostOf(url).Some? <==> Contains(url, "//")
    ensures HostOf(url).Some? ==>
      var h := HostOf(url).value;
      var a := After(url, "//");
      && h <= a
      && !Contains(h, "/")
      && (|h| == |a| || a[|h|] == '/')
  {
    SplitFirst(url, "//");
    if Contains(url, "//") {
      var a := After(url, "//");
      SplitFirst(a, "//");
      var b := Before(a, "//");
      assert Split(url, "//")[1] == b;
      SplitFirst(b, "/");
      var h := Split(b, "/")[0];
      assert h == Before(b, "/");
      BeforeFacts(b, "/");
      BeforeFacts(a, "//");
      assert h <= a;
      if |h| < |b| {
        assert b[|h|..][0] == '/';
        assert a[|h|] == b[|h|];
      } else if |b| < |a| {
        assert a[|b|..][0] == '/';
      }
    }
  }

  // ---------------------------------------------------------------- domain filter

  /** The cookie's domain with one leading dot removed (`d[1:]` when `d` starts with '.'). */
  function DropOneDot(d: string): string {
    if StartsWith(d, ".") then d[1..] else d
  }

  /** The two domain checks of advanced_score_detector.py:465-477 (and
      score_detector.py:291-303), as written: first the `lstrip('.')` suffix
      test in either direction, then the one-dot suffix test. */
  predicate PassesDomainChecks(host: string, c: Cookie) {
    var d := c.domain.GetOr("");
    var bare := LStrip(d, '.');
    if d != "" && !EndsWith(host, bare) && !EndsWith(bare, host) then false
    else if c.domain.Some? then
      if StartsWith(d, ".") then EndsWith(host, d[1..]) else EndsWith(host, d)
    else true
  }

  /** The two checks amount to one rule: keep a cookie iff it has no domain
      key, or the host ends with its domain minus one leading dot. */
  lemma DomainRule(host: string, c: Cookie)
    ensures PassesDomainChecks(host, c) <==> c.domain.None? || EndsWith(host, DropOneDot(c.domain.value))
  {
    if c.domain.Some? {
      var d := c.domain.value;
      var bare := LStrip(d, '.');
      if StartsWith(d, ".") {
        assert LStrip(d, '.') == LStrip(d[1..], '.');
        if EndsWith(host, d[1..]) {
          EndsWithTrans(host, d[1..], bare);
        }
      } else {
        assert bare == d;
      }
    }
  }

  /** The dot facts behind the examples below. */
  lemma ExampleDots()
    ensures DropOneDot(".example.com") == "example.com"
    ensures DropOneDot("other.com") == "other.com" && DropOneDot("example.com") == "example.com"
  {
    assert ".example.com"[0] == '.';
    assert "other.com"[0] != '.';
    assert "example.com"[0] != '.';
  }

  /** The suffix facts behind the examples below. */
  lemma ExampleSuffixes()
    ensures EndsWith("www.example.com", "example.com") && EndsWith("example.com", "example.com")
    ensures !EndsWith("example.com", "other.com") && EndsWith("notexample.com", "example.com")
  {
  }

  /** A cookie whose domain, minus one leading dot, ends the host is kept. */
  lemma KeptFor(host: string, c: Cookie)
    requires c.domain.Some? && EndsWith(host, DropOneDot(c.domain.value))
    ensures PassesDomainChecks(host, c)
  {
    DomainRule(host, c);
  }

  /** A cookie whose domain, minus one leading dot, does not end the host is dropped. */
  lemma DroppedFor(host: string, c: Cookie)
    requires c.domain.Some? && !EndsWith(host, DropOneDot(c.domain.value))
    ensures !PassesDomainChecks(host, c)
  {
    DomainRule(host, c);
  }

  /** Examples of the rule: ".example.com" is kept for "www.example.com" and for
      "example.com", "other.com" is dropped for "example.com", and because the
      test is a plain suffix test, "example.com" is kept for "notexample.com". */
  lemma DomainExamples(c: Cookie)
    ensures c.domain == Some(".example.com") ==>
      PassesDomainChecks("www.example.com", c) && PassesDomainChecks("example.com", c)
    ensures c.domain == Some("other.com") ==> !PassesDomainChecks("example.com", c)
    ensures c.domain == Some("example.com") ==> PassesDomainChecks("notexample.com", c)
  {
    ExampleDots();
    ExampleSuffixes();
    if c.domain == Some(".example.com") {
      KeptFor("www.example.com", c);
      KeptFor("example.com", c);
    } else if c.domain == Some("other.com") {
      DroppedFor("example.com", c);
    } else if c.domain == Some("example.com") {
      KeptFor("notexample.com", c);
    }
  }

  // ---------------------------------------------------------------- loading

  /** `int(cookie['expiry'])`; None where Python raises. */
  function ExpiryToInt(e: Expiry): Option<int> {
    match e
    case ExpiryInt(n) => Some(n)
    case ExpiryReal(x) => Some(Truncate(x))
    case ExpiryText(s) => ParseInt(s)
    case ExpiryBool(b) => Some(if b then 1 else 0)
    case ExpiryOther => None
  }

  /** The cookie after the expiry conversion of line 461-462; None when it raises. */
  function NormalizeExpiry(c: Cookie): (r: Option<Cookie>)
    ensures r.Some? ==> r.value.domain == c.domain && r.value.name == c.name && r.value.value == c.value
    ensures r.Some? ==> r.value.expiry.None? || r.value.expiry.value.ExpiryInt?
    ensures c.expiry.None? ==> r == Some(c)
  {
    match c.expiry
    case None => Some(c)
    case Some(e) =>
      match ExpiryToInt(e)
      case Some(n) => Some(c.(expiry := Some(ExpiryInt(n))))
      case None => None
  }

  /** What one loop iteration hands to `add_cookie`, if anything: the converted
      cookie, provided its domain passes and the driver accepts it. */
  function Admit(host: string, accepts: Cookie -> bool, c: Cookie): Option<Cookie> {
    match NormalizeExpiry(c)
    case None => None
    case Some(n) => if PassesDomainChecks(host, n) && accepts(n) then Some(n) else None
  }

  /** The loop of lines 458-487: the cookies that were added, in file order. */
  function ApplyCookies(cs: seq<Cookie>, host: string, accepts: Cookie -> bool): (added: seq<Cookie>)
    ensures |added| <= |cs|
    ensures forall a | a in added ::
      (a.domain.None? || EndsWith(host, DropOneDot(a.domain.value))) && accepts(a)
    ensures |added| > 0 <==> exists i | 0 <= i < |cs| :: Admit(host, accepts, cs[i]).Some?
    decreases |cs|
  {
    if |cs| == 0 then []
    else
      var rest := ApplyCookies(cs[1..], host, accepts);
      assert forall i | 1 <= i < |cs| :: cs[i] == cs[1..][i - 1];
      match Admit(host, accepts, cs[0])
      case None => rest
      case Some(n) =>
        DomainRule(host, n);
        [n] + rest
  }

  /** A single cookie is added exactly when it is admitted. */
  lemma ApplyOne(c: Cookie, host: string, accepts: Cookie -> bool)
    ensures ApplyCookies([c], host, accepts) ==
      (match Admit(host, accepts, c) case Some(n) => [n] case None => [])
  {
    assert [c][1..] == [];
  }

  /** The loop works cookie by cookie: the cookies added from two parts of the
      list are those added from the first part followed by those of the second,
      so every admitted cookie is added, in file order, and nothing else is. */
  lemma {:induction false} ApplyCookiesAppend(a: seq<Cookie>, b: seq<Cookie>, host: string, accepts: Cookie -> bool)
    ensures ApplyCookies(a + b, host, accepts) == ApplyCookies(a, host, accepts) + ApplyCookies(b, host, accepts)
    decreases |a|
  {
    if |a| == 0 {
      assert a + b == b;
    } else {
      assert (a + b)[0] == a[0];
      assert (a + b)[1..] == a[1..] + b;
      ApplyCookiesAppend(a[1..], b, host, accepts);
    }
  }

  /** The cookie list that `load_cookies` iterates over, or None when printing
      the metadata raises (its "metadata" is not an object). A value of any other
      shape yields nothing to add. */
  function CookiesToLoad(p: Payload): Option<seq<Cookie>> {
    match p
    case Record(MetaOther(_), _) => None
    case Record(_, cs) => Some(cs)
    case BareList(cs) => Some(cs)
    case Other(_) => Some([])
  }

  /** `load_cookies(sb, filename)` (advanced_score_detector.py:436-493): True iff
      the file exists and parses, its metadata can be printed, the current URL
      has a host, and at least one cookie was added. `payload` is None when the
      file cannot be read or is not JSON; `accepts` is the driver's `add_cookie`
      succeeding. */
  function LoadCookies(fileExists: bool, payload: Option<Payload>, url: string, accepts: Cookie -> bool): (loaded: bool)
    ensures loaded <==>
      && fileExists && payload.Some?
      && CookiesToLoad(payload.value).Some?
      && HostOf(url).Some?
      && exists c | c in CookiesToLoad(payload.value).value :: Admit(HostOf(url).value, accepts, c).Some?
  {
    if !fileExists || payload.None? then false
    else
      match CookiesToLoad(payload.value)
      case None => false
      case Some(cs) =>
        match HostOf(url)
        case None => false
        case Some(host) =>
          var added := ApplyCookies(cs, host, accepts);
          assert (exists c | c in cs :: Admit(host, accepts, c).Some?) <==>
                 (exists i | 0 <= i < |cs| :: Admit(host, accepts, cs[i]).Some?);
          |added| > 0
  }

  /** Both formats load the same cookies the same way: a record with printable
      metadata behaves exactly like the bare list of its cookies. */
  lemma FormatsAgree(fileExists: bool, m: Meta, cs: seq<Cookie>, url: string, accepts: Cookie -> bool)
    requires !m.MetaOther?
    ensures LoadCookies(fileExists, Some(Record(m, cs)), url, accepts)
         == LoadCookies(fileExists, Some(BareList(cs)), url, accepts)
  {
  }

  // ---------------------------------------------------------------- saving

  /** `save_cookies(sb, filename)` (advanced_score_detector.py:407-434, identical
      in score_detector.py:233-260): the record written, or None when the URL has
      no host and the save reports failure. */
  function SaveCookies(cookies: seq<Cookie>, url: string, timestamp: string): (r: Option<Payload>)
    ensures r.Some? <==> Contains(url, "//")
    ensures r.Some? ==> r.value.Record? && r.value.meta.MetaObject?
    ensures r.Some? ==>
      var m := r.value.meta.info;
      && r.value.cookies == cookies
      && m.totalCookies == |cookies|
      && m.savedFromUrl == url
      && Some(m.savedFromDomain) == HostOf(url)
      && m.score.None? && m.runId.None?
  {
    HostOfFacts(url);
    match HostOf(url)
    case None => None
    case Some(host) =>
      Some(Record(MetaObject(Metadata(host, url, timestamp, |cookies|, None, None)), cookies))
  }

  /** `save_high_score_cookies(sb, score, run_id)` (advanced_score_detector.py:1534-1564):
      the file name, and the record written there (None when the save fails). */
  function SaveHighScoreCookies(cookies: seq<Cookie>, url: string, timestamp: string, score: Decimal, runId: string)
    : (r: (string, Option<Payload>))
    ensures r.1.Some? <==> Contains(url, "//")
    ensures r.1.Some? ==> r.1.value.Record? && r.1.value.meta.MetaObject?
    ensures r.1.Some? ==>
      var m := r.1.value.meta.info;
      && r.1.value.cookies == cookies
      && m.totalCookies == |cookies|
      && m.score == Some(score) && m.runId == Some(runId)
      && Some(m.savedFromDomain) == HostOf(url)
  {
    HostOfFacts(url);
    var name := HighScoreFileName(score, runId);
    match HostOf(url)
    case None => (name, None)
    case Some(host) =>
      (name, Some(Record(MetaObject(Metadata(host, url, timestamp, |cookies|, Some(score), Some(runId))), cookies)))
  }

  /** A saved record loads back exactly the cookies it was saved with, in both
      formats' sense, and its count matches. */
  lemma SaveLoadRoundTrip(cookies: seq<Cookie>, url: string, timestamp: string, fileExists: bool, loadUrl: string, accepts: Cookie -> bool)
    requires Contains(url, "//")
    ensures CookiesToLoad(SaveCookies(cookies, url, timestamp).value) == Some(cookies)
    ensures SaveCookies(cookies, url, timestamp).value.meta.info.totalCookies == |cookies|
    ensures LoadCookies(fileExists, SaveCookies(cookies, url, timestamp), loadUrl, accepts)
         == LoadCookies(fileExists, Some(BareList(cookies)), loadUrl, accepts)
  {
    FormatsAgree(fileExists, SaveCookies(cookies, url, timestamp).value.meta, cookies, loadUrl, accepts);
  }

  // ---------------------------------------------------------------- file names

  const HighScorePrefix: string := "high_score_cookies_"

  /** The save threshold of advanced_score_detector.py:951. */
  const SaveThreshold: real := 0.7

  /** `f"high_score_cookies_{score}_{run_id}.json"` with a float score, which
      Python prints in its shortest form. */
  function HighScoreFileName(score: Decimal, runId: string): string {
    HighScorePrefix + Render(Canonical(score)) + "_" + runId + ".json"
  }

  /** `float(name.split("_")[3])`; None where Python raises. */
  function NameScore(name: string): Option<Decimal> {
    var fields := Split(name, "_");
    if |fields| < 4 then None else ParseFloat(fields[3])
  }

  /** The rendering of a canonical literal has no underscore. */
  lemma RenderHasNoUnderscore(d: Decimal)
    requires IsCanonical(d)
    ensures !Contains(Render(d), "_")
  {
    var t := Render(d);
    assert t == (if d.negative then "-" else "") + d.whole + "." + d.frac;
    forall i | 0 <= i < |t| ensures t[i] != '_' {
      var k := if d.negative then 1 else 0;
      if i < k {
      } else if i < k + |d.whole| {
        assert t[i] == d.whole[i - k];
      } else if i > k + |d.whole| {
        assert t[i] == d.frac[i - k - |d.whole| - 1];
      }
    }
    NoCharNotContained(t, '_');
  }

  /** A word without underscores is one field of an underscore split. */
  lemma WordField(w: string, t: string)
    requires !Contains(w, "_")
    ensures Split(w + "_" + t, "_") == [w] + Split(t, "_")
  {
    SplitPiece(w, '_', t);
  }

  /** Three words without underscores, each followed by one, are three fields. */
  lemma ThreeFields(a: string, b: string, c: string, t: string)
    requires !Contains(a, "_") && !Contains(b, "_") && !Contains(c, "_")
    ensures Split(a + "_" + (b + "_" + (c + "_" + t)), "_") == [a, b, c] + Split(t, "_")
  {
    WordField(c, t);
    WordField(b, c + "_" + t);
    WordField(a, b + "_" + (c + "_" + t));
  }

  /** The prefix is the words "high", "score" and "cookies", each followed by an underscore. */
  lemma PrefixWords(t: string)
    ensures HighScorePrefix + t == "high" + "_" + ("score" + "_" + ("cookies" + "_" + t))
  {
    assert HighScorePrefix == "high" + "_" + "score" + "_" + "cookies" + "_";
  }

  /** The prefix contributes the three fields "high", "score" and "cookies". */
  lemma PrefixFields(t: string)
    ensures Split(HighScorePrefix + t, "_") == ["high", "score", "cookies"] + Split(t, "_")
  {
    NoCharNotContained("high", '_');
    NoCharNotContained("score", '_');
    NoCharNotContained("cookies", '_');
    PrefixWords(t);
    ThreeFields("high", "score", "cookies", t);
  }

  /** The fields of a high-score file name are the prefix's three words, the score and the rest. */
  lemma SplitHighScoreName(x: string, rest: string)
    requires !Contains(x, "_")
    ensures Split(HighScorePrefix + x + "_" + rest, "_") == ["high", "score", "cookies", x] + Split(rest, "_")
  {
    assert HighScorePrefix + x + "_" + rest == HighScorePrefix + (x + "_" + rest);
    PrefixFields(x + "_" + rest);
    WordField(x, rest);
  }

  /** A string containing `c` at some index contains `[c]`. */
  lemma CharContained(a: string, c: char, i: nat)
    requires i < |a| && a[i] == c
    ensures Contains(a, [c])
  {
    assert a[i..][0] == c;
    assert OccursAt(a, [c], i);
    ContainsAt(a, [c], i);
  }

  /** Concatenating two strings without `c` gives a string without `c`. */
  lemma ConcatNoChar(a: string, b: string, c: char)
    requires !Contains(a, [c]) && !Contains(b, [c])
    ensures !Contains(a + b, [c])
  {
    var t := a + b;
    forall i | 0 <= i < |t| ensures t[i] != c {
      if i < |a| {
        if a[i] == c { CharContained(a, c, i); }
      } else {
        if b[i - |a|] == c { CharContained(b, c, i - |a|); }
      }
    }
    NoCharNotContained(t, c);
  }

  /** The score field of a high-score file name is the text between the prefix
      and the next underscore. */
  lemma NameScoreField(x: string, runId: string)
    requires !Contains(x, "_")
    ensures NameScore(HighScorePrefix + x + "_" + runId + ".json") == ParseFloat(x)
  {
    assert HighScorePrefix + x + "_" + runId + ".json" == HighScorePrefix + x + "_" + (runId + ".json");
    SplitHighScoreName(x, runId + ".json");
  }

  /** A name built from a score text without underscores carries the prefix
      and reads back as that text's value. */
  lemma ScoredName(x: string, runId: string, d: Decimal)
    requires !Contains(x, "_") && ParseFloat(x) == Some(d)
    ensures StartsWith(HighScorePrefix + x + "_" + runId + ".json", HighScorePrefix)
    ensures NameScore(HighScorePrefix + x + "_" + runId + ".json") == Some(d)
  {
    NameScoreField(x, runId);
    NameParts(HighScorePrefix, x, runId);
  }

  /** A file name is its prefix followed by the rest. */
  lemma NameParts(p: string, x: string, runId: string)
    ensures p + x + "_" + runId + ".json" == p + (x + "_" + runId + ".json")
    ensures StartsWith(p + x + "_" + runId + ".json", p)
  {
    var r := x + "_" + runId + ".json";
    assert p + x + "_" + runId + ".json" == p + r;
    assert (p + r)[..|p|] == p;
  }

  /** Round trip of the naming rule: the score field of a high-score file name
      reads back as the saved score (as Python prints it, with the same value). */
  lemma NameRoundTrip(score: Decimal, runId: string)
    requires WellFormed(score)
    ensures StartsWith(HighScoreFileName(score, runId), HighScorePrefix)
    ensures NameScore(HighScoreFileName(score, runId)) == Some(Canonical(score))
    ensures Value(Canonical(score)) == Value(score)
  {
    var c := Canonical(score);
    CanonicalValue(score);
    RenderHasNoUnderscore(c);
    ParseRender(c);
    ScoredName(Render(c), runId, c);
  }

  /** The file written by score_detector.py:802 has no score field: its fourth
      field is "<runid>.json", which never parses, so it is never chosen. */
  lemma UnscoredNameNeverParses(runId: string)
    requires !Contains(runId, "_")
    ensures NameScore(HighScorePrefix + runId + ".json") == None
  {
    var tail := runId + ".json";
    NoCharNotContained(".json", '_');
    ConcatNoChar(runId, ".json", '_');
    assert HighScorePrefix + runId + ".json" == HighScorePrefix + tail;
    PrefixFields(tail);
    SplitWhole(tail, "_");
    assert Split(HighScorePrefix + tail, "_")[3] == tail;
    ParseRejectsTrailing(tail);
  }

  /** The decision of advanced_score_detector.py:950-953: `score and float(score) >= 0.7`,
      and the file name the cookies are then saved under. */
  function HighScoreSave(score: Option<Decimal>, runId: string): (file: Option<string>)
    requires score.Some? ==> WellFormed(score.value)
    ensures file.Some? <==> score.Some? && Value(score.value) >= SaveThreshold
    ensures file.Some? ==> NameScore(file.value).Some? && Value(NameScore(file.value).value) == Value(score.value)
  {
    if score.Some? && Value(score.value) != 0.0 && Value(score.value) >= SaveThreshold then
      NameRoundTrip(score.value, runId);
      Some(HighScoreFileName(score.value, runId))
    else None
  }

  // ---------------------------------------------------------------- choosing the best file

  /** The score a listed file contributes: its name starts with the prefix and its
      fourth `_`-field parses. */
  function CandidateScore(name: string): Option<real> {
    if StartsWith(name, HighScorePrefix) then
      match NameScore(name)
      case Some(d) => Some(Value(d))
      case None => None
    else None
  }

  /** The candidate scores of a directory listing, in listing order. */
  function ListingScores(names: seq<string>): (scores: seq<Option<real>>)
    ensures |scores| == |names|
    ensures forall i | 0 <= i < |names| :: scores[i] == CandidateScore(names[i])
  {
    seq(|names|, i requires 0 <= i < |names| => CandidateScore(names[i]))
  }

  predicate Positive(s: Option<real>) { s.Some? && s.value > 0.0 }

  /** `scores[i]` is the one the selection loop keeps: it is positive, no score
      is higher, and every earlier score is strictly lower (ties go to the first). */
  predicate IsBest(scores: seq<Option<real>>, i: nat) {
    && i < |scores|
    && Positive(scores[i])
    && (forall j | 0 <= j < |scores| && scores[j].Some? :: scores[j].value <= scores[i].value)
    && (forall j | 0 <= j < i && scores[j].Some? :: scores[j].value < scores[i].value)
  }

  /** At most one index is the best. */
  lemma BestIsUnique(scores: seq<Option<real>>, i: nat, j: nat)
    requires IsBest(scores, i) && IsBest(scores, j)
    ensures i == j
  {
  }

  /** The loop of advanced_score_detector.py:1690-1702: keep a score only when it
      beats the best so far, which starts at 0. */
  method PickBest(scores: seq<Option<real>>) returns (best: Option<nat>)
    ensures best.Some? <==> exists i | 0 <= i < |scores| :: Positive(scores[i])
    ensures best.Some? ==> IsBest(scores, best.value)
  {
    best := None;
    var bestScore: real := 0.0;
    var k := 0;
    while k < |scores|
      invariant 0 <= k <= |scores|
      invariant best.None? <==> bestScore == 0.0
      invariant best.None? ==> forall j | 0 <= j < k :: !Positive(scores[j])
      invariant best.Some? ==> best.value < k && scores[best.value] == Some(bestScore) && bestScore > 0.0
      invariant forall j | 0 <= j < k && scores[j].Some? :: scores[j].value <= bestScore
      invariant best.Some? ==> forall j | 0 <= j < best.value && scores[j].Some? :: scores[j].value < bestScore
    {
      var s := scores[k];
      if s.Some? && s.value > bestScore {
        best := Some(k);
        bestScore := s.value;
      }
      k := k + 1;
    }
  }

  /** What `load_best_cookies` returns for the chosen file's content: the cookie
      list of a record, the whole value otherwise; None when printing a truthy
      non-object "metadata" raises. */
  function ReturnedCookies(p: Payload): (r: Option<Payload>)
    ensures p.Record? && !p.meta.MetaOther? ==> r == Some(BareList(p.cookies))
    ensures p.BareList? || p.Other? ==> r == Some(p)
  {
    match p
    case Record(MetaOther(true), _) => None
    case Record(_, cs) => Some(BareList(cs))
    case _ => Some(p)
  }

  /** `load_best_cookies()` (advanced_score_detector.py:1677-1725). `listing` is
      None when the directory cannot be listed; `read(name)` is None when the
      file cannot be read or parsed. */
  method LoadBestCookies(listing: Option<seq<string>>, read: string -> Option<Payload>) returns (r: Option<Payload>)
    ensures r.Some? ==>
      && listing.Some?
      && exists i: nat ::
           (IsBest(ListingScores(listing.value), i) && read(listing.value[i]).Some?
            && r == ReturnedCookies(read(listing.value[i]).value))
    ensures listing.Some? && (forall i | 0 <= i < |listing.value| :: !Positive(CandidateScore(listing.value[i]))) ==> r.None?
    ensures listing.Some? ==> forall i: nat | IsBest(ListingScores(listing.value), i) ::
      r == (match read(listing.value[i]) case Some(p) => ReturnedCookies(p) case None => None)
  {
    if listing.None? {
      return None;
    }
    var names := listing.value;
    var best := PickBest(ListingScores(names));
    if best.None? {
      return None;
    }
    forall i: nat | IsBest(ListingScores(names), i) ensures i == best.value {
      BestIsUnique(ListingScores(names), i, best.value);
    }
    var content := read(names[best.value]);
    if content.None? {
      return None;
    }
    r := ReturnedCookies(content.value);
  }
}

=== FILE: text.dfy ===
/** The Python string operations the core relies on (`in`, `startswith`,
    `endswith`, `split`, `strip`, `lstrip`, `lower`), written over `seq<char>`. */
module Text {
  import opened Common

  /** Python's `str.isspace()`, which is also the class `\s` matches in a str pattern. */
  predicate IsSpace(c: char) {
    || c == ' '
    || '\t' <= c <= '\r'
    || '\U{1c}' <= c <= '\U{1f}'
    || c == '\U{85}' || c == '\U{a0}' || c == '\U{1680}'
    || '\U{2000}' <= c <= '\U{200a}'
    || c == '\U{2028}' || c == '\U{2029}' || c == '\U{202f}' || c == '\U{205f}' || c == '\U{3000}'
  }

  /** ASCII decimal digit (`\d` restricted to ASCII). */
  predicate IsDigit(c: char) { '0' <= c <= '9' }

  predicate AllDigits(s: string) { forall i | 0 <= i < |s| :: IsDigit(s[i]) }

  predicate StartsWith(s: string, prefix: string) { prefix <= s }

  predicate EndsWith(s: string, suffix: string) {
    |suffix| <= |s| && s[|s| - |suffix|..] == suffix
  }

  /** `sub` occurs in `s` starting at index `j`. */
  predicate OccursAt(s: string, sub: string, j: nat)
    requires j <= |s|
  {
    sub <= s[j..]
  }

  /** Index of the first occurrence of `sub` in `s` (Python's `s.find(sub)` when not -1). */
  function IndexOf(s: string, sub: string): (r: Option<nat>)
    ensures r.Some? ==> r.value + |sub| <= |s| && OccursAt(s, sub, r.value)
    ensures r.Some? ==> forall j | 0 <= j < r.value :: !OccursAt(s, sub, j)
    ensures r.None? ==> forall j | 0 <= j <= |s| :: !OccursAt(s, sub, j)
    decreases |s|
  {
    if sub <= s then
      assert s[0..] == s;
      Some(0)
    else if |s| == 0 then
      assert s[0..] == s;
      None
    else
      assert s[0..] == s;
      ShiftOccurs(s, sub);
      match IndexOf(s[1..], sub)
      case None => None
      case Some(k) => Some(k + 1)
  }

  lemma ShiftOccurs(s: string, sub: string)
    requires |s| > 0
    ensures forall j | 1 <= j <= |s| :: OccursAt(s, sub, j) == OccursAt(s[1..], sub, j - 1)
  {
    forall j | 1 <= j <= |s|
      ensures OccursAt(s, sub, j) == OccursAt(s[1..], sub, j - 1)
    {
      assert s[j..] == s[1..][j - 1..];
    }
  }

  /** Python's `sub in s`. */
  predicate Contains(s: string, sub: string) { IndexOf(s, sub).Some? }

  /** `any(w in s for w in words)`. */
  predicate ContainsAny(s: string, words: seq<string>) {
    exists i | 0 <= i < |words| :: Contains(s, words[i])
  }

  lemma ContainsAt(s: string, sub: string, j: nat)
    requires j <= |s| && OccursAt(s, sub, j)
    ensures Contains(s, sub)
  {
  }

  /** The text before the first occurrence of `sep` (all of `s` when there is none). */
  function Before(s: string, sep: string): string {
    match IndexOf(s, sep)
    case Some(i) => s[..i]
    case None => s
  }

  /** The text after the first occurrence of `sep` (empty when there is none). */
  function After(s: string, sep: string): string {
    match IndexOf(s, sep)
    case Some(i) => s[i + |sep|..]
    case None => []
  }

  /** Python's `s.split(sep)` for a non-empty separator: scan left to right,
      cutting at every non-overlapping occurrence. */
  function Split(s: string, sep: string): (parts: seq<string>)
    requires |sep| > 0
    ensures |parts| >= 1
    decreases |s|
  {
    if sep <= s then [[]] + Split(s[|sep|..], sep)
    else if |s| == 0 then [s]
    else
      var rest := Split(s[1..], sep);
      [[s[0]] + rest[0]] + rest[1..]
  }

  /** Python's `sep.join(parts)`. */
  function Join(parts: seq<string>, sep: string): string
    requires |parts| >= 1
  {
    if |parts| == 1 then parts[0] else parts[0] + sep + Join(parts[1..], sep)
  }

  /** Joining the pieces back with the separator gives the original string. */
  lemma {:induction false} SplitJoin(s: string, sep: string)
    requires |sep| > 0
    ensures Join(Split(s, sep), sep) == s
    decreases |s|
  {
    if sep <= s {
      SplitJoin(s[|sep|..], sep);
      JoinEmptyHead(Split(s[|sep|..], sep), sep);
      assert s == s[..|sep|] + s[|sep|..];
    } else if |s| > 0 {
      SplitJoin(s[1..], sep);
      JoinCons(s[0], Split(s[1..], sep), sep);
      assert s == [s[0]] + s[1..];
    }
  }

  /** An empty first piece contributes only its separator. */
  lemma JoinEmptyHead(rest: seq<string>, sep: string)
    requires |rest| >= 1
    ensures Join([[]] + rest, sep) == sep + Join(rest, sep)
  {
    assert ([[]] + rest)[1..] == rest;
  }

  /** A character put in front of the first piece ends up in front of the join. */
  lemma JoinCons(c: char, rest: seq<string>, sep: string)
    requires |rest| >= 1
    ensures Join([[c] + rest[0]] + rest[1..], sep) == [c] + Join(rest, sep)
  {
    var parts := [[c] + rest[0]] + rest[1..];
    if |rest| == 1 {
      assert parts == [[c] + rest[0]];
    } else {
      assert parts[1..] == rest[1..];
      assert Join(parts, sep) == parts[0] + sep + Join(rest[1..], sep);
    }
  }

  /** `split` cuts at the first occurrence: the first piece is the text before it,
      and the remaining pieces are the split of the text after it. */
  lemma {:induction false} SplitFirst(s: string, sep: string)
    requires |sep| > 0
    ensures Split(s, sep)[0] == Before(s, sep)
    ensures |Split(s, sep)| >= 2 <==> Contains(s, sep)
    ensures Contains(s, sep) ==> Split(s, sep)[1..] == Split(After(s, sep), sep)
    decreases |s|
  {
    if sep <= s {
      assert IndexOf(s, sep) == Some(0);
    } else if |s| == 0 {
      assert IndexOf(s, sep) == None;
    } else {
      SplitFirst(s[1..], sep);
      SplitStep(s, sep);
    }
  }

  /** One step of `SplitFirst` when `s` does not start with the separator. */
  lemma SplitStep(s: string, sep: string)
    requires |sep| > 0 && |s| > 0 && !(sep <= s)
    requires Split(s[1..], sep)[0] == Before(s[1..], sep)
    requires |Split(s[1..], sep)| >= 2 <==> Contains(s[1..], sep)
    requires Contains(s[1..], sep) ==> Split(s[1..], sep)[1..] == Split(After(s[1..], sep), sep)
    ensures Split(s, sep)[0] == Before(s, sep)
    ensures |Split(s, sep)| >= 2 <==> Contains(s, sep)
    ensures Contains(s, sep) ==> Split(s, sep)[1..] == Split(After(s, sep), sep)
  {
    var rest := Split(s[1..], sep);
    var parts := [[s[0]] + rest[0]] + rest[1..];
    assert Split(s, sep) == parts;
    assert |parts| == |rest|;
    assert parts[1..] == rest[1..];
    if IndexOf(s[1..], sep).None? {
      StepNone(s, sep);
    } else {
      StepSome(s, sep, IndexOf(s[1..], sep).value);
    }
  }

  lemma StepNone(s: string, sep: string)
    requires |s| > 0 && !(sep <= s) && IndexOf(s[1..], sep).None?
    ensures IndexOf(s, sep).None?
    ensures Before(s, sep) == [s[0]] + Before(s[1..], sep)
  {
    assert s == [s[0]] + s[1..];
  }

  /** The first occurrence moves one place right when a character is put in front. */
  lemma IndexStep(s: string, sep: string, k: nat)
    requires |s| > 0 && !(sep <= s) && IndexOf(s[1..], sep) == Some(k)
    ensures IndexOf(s, sep) == Some(k + 1)
  {
  }

  lemma StepSome(s: string, sep: string, k: nat)
    requires |s| > 0 && !(sep <= s) && IndexOf(s[1..], sep) == Some(k)
    ensures IndexOf(s, sep) == Some(k + 1)
    ensures Before(s, sep) == [s[0]] + Before(s[1..], sep)
    ensures After(s, sep) == After(s[1..], sep)
  {
    IndexStep(s, sep, k);
    CutAt(s, sep, k + 1);
    CutAt(s[1..], sep, k);
    SliceStep(s, k, |sep|);
  }

  /** The parts around a known first occurrence. */
  lemma CutAt(s: string, sep: string, i: nat)
    requires IndexOf(s, sep) == Some(i)
    ensures Before(s, sep) == s[..i] && After(s, sep) == s[i + |sep|..]
  {
  }

  /** Slicing after the first character. */
  lemma SliceStep(s: string, k: nat, n: nat)
    requires |s| > 0 && k + 1 + n <= |s|
    ensures s[..k + 1] == [s[0]] + s[1..][..k]
    ensures s[k + 1 + n..] == s[1..][k + n..]
  {
  }

  /** The text before the first occurrence does not contain the separator, and
      when something was cut off, the rest starts with the separator. */
  lemma BeforeFacts(s: string, sep: string)
    ensures Before(s, sep) <= s
    ensures !Contains(Before(s, sep), sep) || |sep| == 0
    ensures |Before(s, sep)| < |s| ==> OccursAt(s, sep, |Before(s, sep)|)
  {
    match IndexOf(s, sep)
    case None =>
    case Some(i) =>
      var b := s[..i];
      if |sep| > 0 && Contains(b, sep) {
        var j := IndexOf(b, sep).value;
        assert b[j..] <= s[j..];
        assert OccursAt(s, sep, j);
      }
  }

  /** A string none of whose characters is `c` does not contain `[c]`. */
  lemma NoCharNotContained(a: string, c: char)
    requires forall i | 0 <= i < |a| :: a[i] != c
    ensures !Contains(a, [c])
  {
    forall j | 0 <= j <= |a|
      ensures !OccursAt(a, [c], j)
    {
      assert j < |a| ==> a[j..][0] == a[j];
    }
  }

  /** When `a` has no `c`, the first `c` in `a + [c] + b` is the one after `a`. */
  lemma FirstOccurrence(a: string, c: char, b: string)
    requires !Contains(a, [c])
    ensures IndexOf(a + [c] + b, [c]) == Some(|a|)
    ensures Before(a + [c] + b, [c]) == a
    ensures After(a + [c] + b, [c]) == b
  {
    var s := a + [c] + b;
    assert s[|a|..] == [c] + b;
    assert OccursAt(s, [c], |a|);
    var r := IndexOf(s, [c]);
    assert r.value <= |a|;
    forall j | 0 <= j < |a|
      ensures !OccursAt(s, [c], j)
    {
      assert !OccursAt(a, [c], j);
      assert s[j..][0] == a[j..][0];
    }
    assert s[..|a|] == a;
    assert s[|a| + 1..] == b;
  }

  /** Splitting a string that has no separator gives the string itself. */
  lemma SplitWhole(a: string, sep: string)
    requires |sep| > 0 && !Contains(a, sep)
    ensures Split(a, sep) == [a]
  {
    SplitFirst(a, sep);
  }

  /** Splitting on a one-character separator cuts off the piece before its first occurrence. */
  lemma SplitPiece(a: string, c: char, b: string)
    requires !Contains(a, [c])
    ensures Split(a + [c] + b, [c]) == [a] + Split(b, [c])
  {
    var s := a + [c] + b;
    FirstOccurrence(a, c, b);
    SplitFirst(s, [c]);
    ContainsAt(s, [c], |a|);
    assert Split(s, [c]) == [Split(s, [c])[0]] + Split(s, [c])[1..];
  }

  lemma EndsWithTrans(a: string, b: string, c: string)
    requires EndsWith(a, b) && EndsWith(b, c)
    ensures EndsWith(a, c)
  {
    assert a[|a| - |c|..] == a[|a| - |b|..][|b| - |c|..];
  }

  /** Python's `s.lstrip(c)`: drop every leading `c`. */
  function LStrip(s: string, c: char): (r: string)
    ensures EndsWith(s, r)
    ensures |r| == 0 || r[0] != c
    decreases |s|
  {
    if |s| > 0 && s[0] == c then
      var r := LStrip(s[1..], c);
      assert EndsWith(s, s[1..]) by { assert s[|s| - |s[1..]|..] == s[1..]; }
      EndsWithTrans(s, s[1..], r);
      r
    else s
  }

  function TrimStart(s: string): (r: string)
    ensures EndsWith(s, r)
    ensures |r| == 0 || !IsSpace(r[0])
    ensures forall i | 0 <= i < |s| - |r| :: IsSpace(s[i])
    decreases |s|
  {
    if |s| > 0 && IsSpace(s[0]) then TrimStart(s[1..]) else s
  }

  function TrimEnd(s: string): (r: string)
    ensures r <= s
    ensures |r| == 0 || !IsSpace(r[|r| - 1])
    ensures forall i | |r| <= i < |s| :: IsSpace(s[i])
    decreases |s|
  {
    if |s| > 0 && IsSpace(s[|s| - 1]) then TrimEnd(s[..|s| - 1]) else s
  }

  /** Python's `s.strip()`: drop leading and trailing whitespace. */
  function Strip(s: string): string {
    TrimEnd(TrimStart(s))
  }

  /** A string that neither starts nor ends with whitespace is its own strip. */
  lemma StripNoSpace(s: string)
    requires |s| == 0 || (!IsSpace(s[0]) && !IsSpace(s[|s| - 1]))
    ensures Strip(s) == s
  {
    assert TrimStart(s) == s;
    assert TrimEnd(s) == s;
  }

  /** `str.lower()` on ASCII letters; other characters are kept. */
  function LowerChar(c: char): char {
    if 'A' <= c <= 'Z' then (c as int + 32) as char else c
  }

  function Lower(s: string): (r: string)
    ensures |r| == |s|
    ensures forall i | 0 <= i < |s| :: r[i] == LowerChar(s[i])
  {
    seq(|s|, i requires 0 <= i < |s| => LowerChar(s[i]))
  }
}
